=== FILE: README.md ===
# In a nutshell: course retrieval, quizzes and sessions, in Dafny

This project models the deterministic core of an educational assistant for a
data-science master's programme. The assistant indexes PDF course material,
retrieves the chunks most similar to a question and answers with references.
It also runs quizzes and keeps mobile sessions in sync. The model is functional:
immutable datatypes, with pure functions from one state to the next.

Modules, one per source file (plus shared helpers):

- `CourseIndexer` and `Chunker`. The course catalog: path-based document ids,
  the title and metadata heuristics, the overlapping sliding-window chunker with
  its retraction to a sentence end, the unchanged/new/updated reindex decision
  with chunk replacement, and the outcome counters of a full scan. The SQLite
  catalog is an in-memory record of maps. The extracted text, the MD5 hash and
  the list of files found are inputs.
- `RagAssistant`. The retrieval assistant: the embeddings cache built from the
  catalog rows, level masking with the −1 sentinel, the top-k cut with the strict
  `> 0.3` threshold, the source list deduplicated by document, and the result
  flags of the answer.
- `VectorStore`. The embeddings store: adding rows, statistics, the inclusive
  `>= threshold` search, and save/load over an abstract store of named files.
- `KnowledgeBase`. The corpus knowledge base: the corpus flattened into
  parallel chunk and metadata lists, the metadata filter, the post-filter loop
  over nearest-neighbour candidates, and the token-budgeted context.
- `QuizManager`. The quiz state machine: creation (shuffled or not), sessions,
  answer submission, grading and results.
- `MobileSync`. The mobile session registry, with its append-only sync queue.
- `AppRoutes`. The pure parts of the web routes: the upload extension check,
  text previews, the per-document reference lists of upload-and-explain and
  explain-topic, and the level/category grouping of the course list.
- `CourseExtraction`. The per-file derivation of the course-content extraction
  script: level and semester from the path, entry id, title and content excerpt.
- Shared helpers. `Text` models the ASCII behaviour of Python's `lower`, `upper`,
  `strip`, `title`, `split`, `find`, `rfind` and `replace`. `Paths` covers
  `name`, `stem` and `suffix`. `Dedup` is first-seen deduplication by key.
  `Ranking` is argsort followed by a top-k cut. `Wrappers` holds `Option` and
  `Result`.

Similarity scores are inputs, given as a `seq<real>`, and so is the `np.argsort`
order of those scores. NumPy does not fix the order of ties, so every operation
accepts any valid argsort (`Ranking.IsArgSort`), and `Ranking.StableArgSort`
shows that one always exists. Other values that come from outside the program
are parameters too: the FAISS candidate lists, the clock (`now`), session ids,
the choices made by `random.sample` (`picks`), the language model's reply, and
the iteration order of Python's keyword set.

## Model

| member | source | states |
|---|---|---|
| CourseIndexer.GenerateDocId | src/course_indexer.py:231-238 | Fewer than three path parts give no id. Otherwise the id has no space and is, part by part, the upper-cased grandparent, '_', the parent, '_', the file's stem, with each space of a part turned into '_'. |
| CourseIndexer.DocIdIgnoresPrefix | src/course_indexer.py:231-238 | Only the last three path parts matter: a longer path with the same last three parts gets the same id. |
| CourseIndexer.NestedDocId | src/course_indexer.py:110-118 | The id comes from the file's own two directories, not from the level/category arguments: data/m1/stats/tp/a.pdf gives STATS_tp_a. |
| CourseIndexer.FirstTitleLine | src/course_indexer.py:267-276 | Gives no line exactly when no stripped candidate line is title-like. Otherwise it gives the first stripped line that is title-like. |
| CourseIndexer.FallbackTitle | src/course_indexer.py:279 | The title made from the file name has no underscore and is already in title case. |
| CourseIndexer.FallbackTitleOfPdf | src/course_indexer.py:279 | For a name `stem.pdf` with no other ".pdf" in the stem, the title is the stem with '_' turned into spaces, in title case. |
| CourseIndexer.TitleFrom | src/course_indexer.py:264-279 | The title is a title-like stripped candidate line with none before it, or, when no line qualifies, the fallback built from the file name. |
| CourseIndexer.FirstLineTitle | src/course_indexer.py:264-276 | A title-like first line is the title, whatever text follows it. |
| CourseIndexer.KeywordsIn | src/course_indexer.py:329-340 | A keyword is found iff it is in the iteration order and occurs in the text; over a duplicate-free order, the keywords found are distinct. |
| CourseIndexer.Topics | src/course_indexer.py:343-366 | Each of the four topics is listed iff one of its trigger words occurs. The list is never empty, and it is ["General"] exactly when no trigger word occurs. |
| CourseIndexer.EstimateDifficulty | src/course_indexer.py:354-358 | "advanced" iff the title has "advanced" or the first 500 characters have "expert". Otherwise "beginner" iff "introduction" or "basics" occurs in those places; otherwise "intermediate". |
| CourseIndexer.EstimateDuration | src/course_indexer.py:361-362 | Exactly max(10, words // 250): 10 minutes below 2750 words, otherwise the m with 250·m ≤ words < 250·(m + 1). |
| CourseIndexer.TopKeywords | src/course_indexer.py:329-365 | At most ten keywords, all distinct, each from the fixed list and occurring in the text. With fewer than ten, every listed keyword that occurs is included. |
| CourseIndexer.ExtractMetadata | src/course_indexer.py:321-369 | Keywords are drawn from the lower-cased content with the bounds above; topics, difficulty and duration are the estimates above. |
| CourseIndexer.ChunkIdInjective | src/course_indexer.py:197-202 | Two (document, position) pairs that differ never share a chunk id. |
| CourseIndexer.DeleteChunks | src/course_indexer.py:194 | Removes exactly the rows of the document and keeps every other row unchanged. |
| CourseIndexer.NoCollision | src/course_indexer.py:193-202 | In a well-formed catalog, the inserted ids never clash with rows left after the delete. |
| CourseIndexer.ChunkRows | src/course_indexer.py:197-202 | Chunk i is stored under `doc_id_chunk_i` with its index, text and page. No other key is stored. |
| CourseIndexer.ReplaceChunksEffects | src/course_indexer.py:191-202 | After the replacement, the document's chunk rows are exactly the new list under their ids, and other documents' rows are untouched. |
| CourseIndexer.WriteDocument | src/course_indexer.py:175-216 | On a well-formed catalog the writes succeed and keep it well-formed. The only possible failure is a duplicate chunk id. |
| CourseIndexer.WriteDocumentRows | src/course_indexer.py:175-216 | The document row is stored under the id. The metadata stored under the id is the one extracted from the text. |
| CourseIndexer.WriteDocumentChunks | src/course_indexer.py:191-202 | The document's chunks become exactly the chunks of its text; other documents keep theirs. |
| CourseIndexer.ReindexedWellFormed | src/course_indexer.py:175-216 | Reindexing keeps the catalog invariant: every chunk row sits under the id built from its document and position. |
| CourseIndexer.IndexDocument | src/course_indexer.py:135-221 | Result "unchanged" iff the stored hash equals the current one, and then nothing is written. Otherwise "new" without a previous row, "updated" with one, and the row, chunks and metadata are written. An error is a missing hash, id or extraction, or a duplicate chunk id, which a well-formed catalog never causes. |
| CourseIndexer.ReindexIdempotent | src/course_indexer.py:159-168 | Indexing the same file again right after a successful index finds it unchanged. |
| CourseIndexer.StepStats | src/course_indexer.py:110-131 | Each file counts once in the total, and at most once among new, updated and errors, according to its outcome. |
| CourseIndexer.IndexAll | src/course_indexer.py:94-131 | The total counts every file, and new + updated + errors never exceed it. |
| CourseIndexer.ScanAndIndexAll | src/course_indexer.py:77-133 | The total is the number of M1 plus M2 files, and the counters are bounded by it. |
| CourseIndexer.IndexAllAppend | src/course_indexer.py:94-99 | Scanning a + b is scanning a and then b from the resulting catalog, and the counters add up. |
| CourseIndexer.IndexAtProperties | src/course_indexer.py:135-221 | One indexing step keeps the catalog invariant. It leaves rows of other ids alone, stores the hash on success, and finds a stored hash unchanged. |
| CourseIndexer.IndexAllWellFormed | src/course_indexer.py:94-131 | A scan made of invariant-keeping steps keeps the catalog invariant. |
| CourseIndexer.IndexDocumentFrame | src/course_indexer.py:175-216 | Indexing a file leaves another id's document row and metadata row as they were, and its chunk rows too, both ways: none is removed or changed, none is added. |
| CourseIndexer.IndexDocumentStores | src/course_indexer.py:175-188 | After a successful index, the file's hash is stored under its id. |
| CourseIndexer.IndexAllFrame | src/course_indexer.py:94-131 | A scan over files of other ids leaves an id's document row alone, failed steps included. |
| CourseIndexer.IndexAllStores | src/course_indexer.py:94-131 | An error-free scan over files with distinct ids leaves every file's hash stored. |
| CourseIndexer.IndexAllUnchanged | src/course_indexer.py:159-168 | When every hash is already stored, a scan writes nothing and counts only totals. |
| CourseIndexer.Rescan | src/course_indexer.py:77-133 | Scanning again right after an error-free scan over files with distinct ids changes nothing, and every file counts as unchanged. |
| CourseIndexer.ScanWellFormed | src/course_indexer.py:77-133 | A full scan keeps the catalog invariant. |
| Chunker.WindowEnd | src/course_indexer.py:302-310 | A window is never longer than chunk_size, and a retracted window ends past its midpoint. |
| Chunker.WindowEndRetracts | src/course_indexer.py:306-310 | A window is cut short only when it stops before the end of the text with a '.' past half the chunk size. It then ends just after its last '.'. |
| Chunker.Windows | src/course_indexer.py:299-317 | Each window starts inside the text and lies within chunk_size. Each next start is the previous end minus the overlap and strictly greater than the previous start, and the loop stops once end − overlap reaches the length. |
| Chunker.WindowText | src/course_indexer.py:312 | A window's text is at most as long as the window. |
| Chunker.CreateTextChunks | src/course_indexer.py:281-319 | One chunk per window, and none exactly for empty text. Each chunk is the stripped window text, at most chunk_size long, with page 0. |
| Chunker.WindowsCover | src/course_indexer.py:299-317 | There are no gaps: every character of the text lies in some window. |
| Chunker.WindowsReconstruct | src/course_indexer.py:299-317 | Each window's text, cut at the next window's start, starts with exactly the text up to that start, and the last window's text runs to the end. Concatenating the cut windows gives back the text exactly. |
| Chunker.ShortTextChunkCount | src/course_indexer.py:299-317 | A non-empty text up to chunk_size − overlap long gives one chunk. A longer text, still within chunk_size, gives two; the second window starts chunk_size − overlap in and repeats the tail of the first. |
| Chunker.DefaultAdvance | src/course_indexer.py:281-317 | With the defaults 1000/200, each start moves at least 302 characters past the previous one, so the loop terminates. |
| Chunker.WhitespaceChunkIsEmpty | src/course_indexer.py:312-315 | Nothing prevents an empty chunk: a single space gives one chunk with empty text. |
| RagAssistant.CreateEmbeddingsCache | src/gemini_rag_assistant.py:72-113 | No rows leave the cache unset. Otherwise the records are the rows in order, and embedding row i encodes record i's content. |
| RagAssistant.LoadEmbeddingsCache | src/gemini_rag_assistant.py:51-70 | An existing cache file is served as it is. Otherwise the cache is built from the rows and saved. |
| RagAssistant.CacheFileFreezes | src/gemini_rag_assistant.py:51-70 | Once a cache file exists, every later start-up serves it, whatever the catalog rows have become. |
| RagAssistant.Masked | src/gemini_rag_assistant.py:147-157 | Records at the requested level keep their score. Every score above −1 belongs to such a record. |
| RagAssistant.FindRelevantChunks | src/gemini_rag_assistant.py:115-169 | No cache gives nothing. Otherwise at most top_k results for top_k ≥ 1, each scoring strictly above 0.3 at the requested level, best first. The results are the hits of distinct cached records, in order, each with its own score. A relevant record left out scores no higher than any returned result. |
| RagAssistant.FindRelevantComplete | src/gemini_rag_assistant.py:160-167 | When fewer than top_k results come back (or top_k is 0), every record scoring above 0.3 at the level is among them. |
| RagAssistant.FormatSources | src/gemini_rag_assistant.py:266-283 | One source per distinct document, no more than the chunks, never empty for non-empty input, each built from one of the chunks. |
| RagAssistant.FormatSourcesFirstSeen | src/gemini_rag_assistant.py:266-283 | The sources are those of each document's first chunk, in first-seen order. |
| RagAssistant.AnswerQuestion | src/gemini_rag_assistant.py:171-252 | No relevant chunk means no sources and no course references. With some, course references are flagged and the relevant courses are their titles. Sources are empty iff not asked for; when asked for, they are `_format_sources` of the found chunks, i.e. each document's first chunk in first-seen order (FormatSourcesFirstSeen). |
| VectorStore.AddEmbedding | src/vector_store_manager.py:121-138 | The first embedding gives a one-row store with its metadata. A later one is appended with its metadata iff its length matches the row length. |
| VectorStore.AddEmbeddingKeepsInvariants | src/vector_store_manager.py:121-138 | Adding keeps the rows of one length and one metadata entry per row. |
| VectorStore.GetStats | src/vector_store_manager.py:140-152 | An empty store reports 0 embeddings and dimension 0. Otherwise it reports the row count, the dimension and the metadata count. |
| VectorStore.AddEmbeddingCounts | src/vector_store_manager.py:121-152 | Every successful add raises the embedding and metadata counts by one. |
| VectorStore.AddAllSameLength | src/vector_store_manager.py:121-138 | Embeddings of the store's row length all go in, in order, with their metadata in order. |
| VectorStore.ResultFor | src/vector_store_manager.py:115-116 | A result carries the score as "similarity" and the row's metadata. A row beyond the metadata list gives only "similarity". |
| VectorStore.SearchSimilar | src/vector_store_manager.py:83-119 | An empty store gives nothing. Otherwise at most top_k results, each with similarity ≥ threshold, best first. The results are those of distinct rows, in order, each with its own score. A row at or above the threshold that is left out scores no higher than any returned result. |
| VectorStore.SearchThresholdMonotone | src/vector_store_manager.py:112-117 | A higher threshold never gives more results. |
| VectorStore.SearchComplete | src/vector_store_manager.py:110-117 | The threshold is inclusive: with fewer than top_k results, or with top_k = 0, every row scoring at least the threshold is returned. |
| VectorStore.SaveEmbeddings | src/vector_store_manager.py:22-47 | Both files of the name hold what was saved. Every other name keeps its files and their contents. |
| VectorStore.LoadEmbeddings | src/vector_store_manager.py:49-81 | A missing embeddings file gives (None, []) and leaves the store as it was. Otherwise the embeddings are the file's, the metadata is the metadata file's, or [] when that file is missing, and the store becomes what was loaded. |
| VectorStore.SaveLoadRoundTrip | src/vector_store_manager.py:36-77 | Saving and then loading a name gives back exactly what was saved, and the store becomes it. |
| VectorStore.SaveFrame | src/vector_store_manager.py:36-44 | Saving under one name does not change what loading another name gives. |
| KnowledgeBase.AddMaterials | src/amu_knowledge_base.py:40-59 | Both lists grow by one entry per material plus one per key concept, after what was there before. |
| KnowledgeBase.BuildIndex | src/amu_knowledge_base.py:35-73 | Chunks and metadata stay parallel, and every entry has a week. Questions come last, in order, formatted as `Question: …\nRéponse: …`. |
| KnowledgeBase.AddMaterialsAppend | src/amu_knowledge_base.py:40-59 | Flattening is a fold: the materials a + b give what a gives, continued by b. |
| KnowledgeBase.BuildIndexMaterialAt | src/amu_knowledge_base.py:40-59 | Material i sits at the offset of the materials before it: first its content with course metadata, then each concept as `term: definition. Exemple: example`. |
| KnowledgeBase.In | src/amu_knowledge_base.py:152-153 | Membership in a list value, a substring test for strings, and an error for any other container. |
| KnowledgeBase.AnyIn | src/amu_knowledge_base.py:152-153 | False iff every test is false; true iff some test is true. |
| KnowledgeBase.MatchesFilters | src/amu_knowledge_base.py:146-160 | True iff every filter entry holds; false iff some entry fails. A missing key fails, a list needs some element in the value, and a scalar needs equality. |
| KnowledgeBase.FilterEdgeCases | src/amu_knowledge_base.py:146-160 | An empty list filter matches nothing, and a missing key fails. |
| KnowledgeBase.VerdictsPass | src/amu_knowledge_base.py:123-137 | A candidate's verdict is true exactly when it is a real index passing the filters. |
| KnowledgeBase.Search | src/amu_knowledge_base.py:90-144 | An empty index gives nothing. Otherwise at most top_k results, each a real candidate passing the filters, with strictly increasing ranks, and every passing candidate ranked before a returned one is returned: the results are the first passing candidates. With fewer than top_k results, every passing candidate is included. An error comes exactly when the loop reaches a raising filter test: the first failing test, with every earlier test succeeding and fewer passing candidates before it than the budget (at least one). The error is that test's. |
| KnowledgeBase.CollectComplete | src/amu_knowledge_base.py:123-142 | When the budget is not used up, no passing candidate was left out. |
| KnowledgeBase.CollectPrefix | src/amu_knowledge_base.py:123-142 | Every passing candidate ranked before a returned one was returned. |
| KnowledgeBase.CollectRaises | src/amu_knowledge_base.py:123-142 | A failure comes from the first failing filter test, reached while fewer results than the budget (at least one) were kept. |
| KnowledgeBase.CollectReachesRaise | src/amu_knowledge_base.py:123-142 | Once the loop reaches a raising filter test, with fewer results kept than the budget, it fails with that test's error. |
| KnowledgeBase.Fitting | src/amu_knowledge_base.py:194-205 | Keeps the longest prefix whose token estimates fit in the budget, so the next result would overflow it. A budget already exceeded keeps nothing. |
| KnowledgeBase.WeekFilters | src/amu_knowledge_base.py:180-182 | A week filter applies iff a week is given and it is not 0. |
| KnowledgeBase.GetContext | src/amu_knowledge_base.py:162-207 | Fails iff the search fails. Gives the fixed message when nothing is found. Otherwise it joins the parts of the longest prefix of results that fits the token budget; a negative budget keeps none. |
| KnowledgeBase.FirstOverflowGivesEmpty | src/amu_knowledge_base.py:194-207 | When the first result alone is over budget, the context is empty. |
| QuizManager.Sample | src/interactive_quiz_manager.py:40-41 | A shuffle is a permutation of the questions. |
| QuizManager.SampleInOrder | src/interactive_quiz_manager.py:40-41 | A property of the model's `picks` encoding of a draw, not of how `random.sample` manages its pool: always drawing the first remaining question reproduces the order, so the unshuffled list is one encoded draw. |
| QuizManager.CreateQuiz | src/interactive_quiz_manager.py:21-52 | Stores a permutation of the questions, the same list when not shuffled, with their count. Other quizzes and sessions are untouched. |
| QuizManager.StartQuizSession | src/interactive_quiz_manager.py:66-90 | A new session starts at question 0 with score 0, no answers and not completed. Other sessions are untouched. |
| QuizManager.SubmitAnswer | src/interactive_quiz_manager.py:92-149 | An unknown session or quiz, or an index at or past the end, is refused with no change. Otherwise the score rises by one iff the stripped, lower-cased answers agree, one record is appended, the current question is index + 1, and the next question is given while one remains. |
| QuizManager.SubmitKeepsScore | src/interactive_quiz_manager.py:124-140 | Every session's score stays equal to its number of correct answers. |
| QuizManager.Percentage | src/interactive_quiz_manager.py:181-183 | 0 without questions; otherwise score/total × 100. |
| QuizManager.GradeOf | src/interactive_quiz_manager.py:186-194 | "Expert" iff the percentage is at least 80, "Bien" iff it is from 60 to under 80, otherwise "À réviser". |
| QuizManager.PercentageAtLeast | src/interactive_quiz_manager.py:181-194 | A percentage threshold t holds iff 100·score ≥ t·total. |
| QuizManager.Passed | src/interactive_quiz_manager.py:208 | Passed iff the percentage is at least 60. |
| QuizManager.PassedIffGraded | src/interactive_quiz_manager.py:186-208 | Passing is exactly getting "Expert" or "Bien". |
| QuizManager.GradeMonotone | src/interactive_quiz_manager.py:181-208 | One more correct answer never lowers the grade or the pass mark. |
| QuizManager.CompleteQuiz | src/interactive_quiz_manager.py:163-209 | Refuses an unknown session or quiz with no change. Otherwise it reports score, total, percentage, grade, answers and the pass mark, and marks the session completed. |
| QuizManager.GetQuizResults | src/interactive_quiz_manager.py:211-241 | An unfinished session is completed first. A completed one is reported as it stands: its session and quiz ids, score, total, percentage, pass mark and recorded answers, with no grade. Nothing changes. |
| QuizManager.ResultsStable | src/interactive_quiz_manager.py:221-241 | Two consecutive requests give the same score, total and pass mark, and the second changes nothing. |
| MobileSync.CreateSession | src/mobile_sync_manager.py:20-51 | Adds a record at audio position 0, started and last active now, not ended, active, with no quiz and no document, document title or chapter. Device type and OS default to "unknown". Other sessions and the queue are untouched. |
| MobileSync.SyncAudioPosition | src/mobile_sync_manager.py:53-73 | An unknown session changes nothing. A known one gets the position and is marked active now, exactly one entry is queued, and the other sessions are untouched. |
| MobileSync.GetSessionState | src/mobile_sync_manager.py:75-85 | Nothing for an unknown id; otherwise the stored record. |
| MobileSync.UpdateCurrentDocument | src/mobile_sync_manager.py:87-101 | Only the named session changes, and only if it exists. |
| MobileSync.UpdateQuizState | src/mobile_sync_manager.py:103-116 | Only the named session changes, and only if it exists: it gets quiz active, the quiz data and the time. |
| MobileSync.CloseSession | src/mobile_sync_manager.py:118-124 | The record stays, marked inactive and ended now. Other sessions are untouched. |
| MobileSync.GetActiveSessions | src/mobile_sync_manager.py:126-144 | Exactly the active sessions, restricted to the user when a non-empty user id is given. |
| MobileSync.CloseRemovesFromActive | src/mobile_sync_manager.py:118-144 | Closing a session removes exactly it from the active list. |
| MobileSync.CleanupInactiveSessions | src/mobile_sync_manager.py:146-169 | Removes exactly the sessions inactive for longer than the timeout and leaves the rest untouched. |
| MobileSync.CleanupIdempotent | src/mobile_sync_manager.py:155-166 | Cleaning up twice at the same time removes nothing more. |
| MobileSync.QueueAppendOnly | src/mobile_sync_manager.py:61-71 | No operation removes or rewrites a queue entry. Only a sync of a known session adds one. |
| AppRoutes.AllowedFile | app.py:212-215 | Accepted iff the name has a '.' and the text after the last '.', lower-cased, is an allowed extension. |
| AppRoutes.AllowedFileLastExtension | app.py:212-215 | Only the last extension counts, whatever its case and whatever precedes it. |
| AppRoutes.AllowedFileNeedsDot | app.py:212-215 | A name without '.' is refused, even when it is an extension's name. |
| AppRoutes.TextPreview | app.py:282 | The whole text up to 500 characters. Otherwise its first 500 characters followed by "...". |
| AppRoutes.TextPreviewBounded | app.py:449 | A preview never exceeds 503 characters and starts like the text. |
| AppRoutes.UploadCourseOf | app.py:357-365 | A reference copies the chunk's id, title, level, category and file path, has relevance = similarity × 100, and previews 300 characters followed by "...". |
| AppRoutes.FirstPerDocument | app.py:353-366 | At most one chunk per document, each one retrieved, and every retrieved document represented. |
| AppRoutes.FirstPerDocumentIsFirstSeen | app.py:353-366 | The kept chunk is each document's first in rank order. |
| AppRoutes.UploadReferences | app.py:353-366 | One reference per distinct retrieved document, built from its first chunk. |
| AppRoutes.UploadAndExplain | app.py:289-459 | Text under 50 characters is refused. Otherwise there are at most 5 references from the top five chunks, references are flagged iff there is one, and the length and preview of the text are reported. |
| AppRoutes.UploadReferencesRelevant | app.py:343-366 | Every reference comes from a retrieved chunk scoring above 0.3. |
| AppRoutes.TopicCourseOf | app.py:674-679 | A reference copies title, level and category, with the first 500 characters of content. The content only feeds the prompt; the JSON response lists title, level and category. |
| AppRoutes.ExplainTopic | app.py:635-753 | A missing or empty topic is refused. Otherwise the references are exactly one per document among the top three relevant chunks at the level, from each document's first chunk; at most 3, all at the requested level when one is given, flagged iff there is one. |
| AppRoutes.ExplainTopicOnePerDocument | app.py:662-680 | One reference per distinct retrieved document. |
| AppRoutes.Organize | app.py:769-784 | The grouping always has the keys M1 and M2. |
| AppRoutes.OrganizeLevels | app.py:769-784 | The levels are M1, M2 and the documents' levels. |
| AppRoutes.OrganizeGroups | app.py:775-782 | Under a level, the categories are exactly those of its documents. |
| AppRoutes.OrganizeBuckets | app.py:774-784 | Each category's list holds the documents of that level and category, in catalog order. |
| AppRoutes.OrganizePlacesEachDocument | app.py:774-784 | Each document lands in its own level's own category's list, and only there. |
| AppRoutes.ListCourses | app.py:759-794 | Refused without an indexer. Otherwise it lists the documents, with total_courses equal to their count. |
| CourseExtraction.LevelOf | scripts/extract_course_content.py:56-57 | "M2" iff "m2" occurs in the lower-cased path, even beside "m1". "M1" iff "m1" occurs and "m2" does not. Otherwise "Unknown". |
| CourseExtraction.SemesterOf | scripts/extract_course_content.py:56-58 | The same precedence, with "s2" before "s1". |
| CourseExtraction.ClassificationIgnoresCase | scripts/extract_course_content.py:56-58 | Upper- or lower-casing the path changes neither level nor semester. |
| CourseExtraction.LevelPrecedence | scripts/extract_course_content.py:57 | A file under m1/ whose name mentions M2 is classified M2. |
| CourseExtraction.EntryId | scripts/extract_course_content.py:62 | The id is the level, '_', the semester, '_' and the stem, position by position. |
| CourseExtraction.EntryIdInjective | scripts/extract_course_content.py:56-62 | The id determines level, semester and stem. |
| CourseExtraction.CourseTitle | scripts/extract_course_content.py:65 | Same length, each underscore becomes a space, every other character keeps its letter up to case, a letter starting a word is upper case and any other letter lower case. |
| CourseExtraction.CourseTitleStable | scripts/extract_course_content.py:65 | A title is already in title case. |
| CourseExtraction.ExtractEntry | scripts/extract_course_content.py:56-69 | The entry has the path's level and semester, the file name and its title. Its content is the first min(3000, length) characters of the text, and its id is built from level, semester and stem. |
| CourseExtraction.ExtractEntryIds | scripts/extract_course_content.py:56-69 | Two files get the same id only if they share level, semester and stem. |
| Ranking.SelectTop | src/gemini_rag_assistant.py:160-167 | The kept indices are distinct, best first, and pass the score test. There are at most k of them for k ≥ 1, and for k = 0 every passing index is kept. A passing index left out scores no higher than any kept one. |
| Ranking.SelectTopComplete | src/gemini_rag_assistant.py:160-167 | Under a test that higher scores also pass, fewer than k results means no passing index was cut. |
| Ranking.SelectTopMonotone | src/vector_store_manager.py:110-117 | A stricter score test never selects more indices. |
| Ranking.StableArgSort | src/gemini_rag_assistant.py:160 | Every score vector has a valid argsort. |
| Ranking.TopIndices | src/gemini_rag_assistant.py:160 | The `[-k:][::-1]` cut gives the k best indices, best first, or all of them for k = 0. No index left out outscores one kept. |
| Dedup.FirstByKey | src/gemini_rag_assistant.py:272-282 | One element per distinct key, each from the input, every key represented. |
| Dedup.FirstByKeyIsFirstOccurrences | src/gemini_rag_assistant.py:272-282 | The seen-set loop keeps exactly the first element with each key. |
| Paths.StemSuffix | src/course_indexer.py:237 | A name is its stem followed by its suffix. |
| Text.Lower | src/course_indexer.py:337 | Same length, no upper-case letter left, letters stay letters, non-upper characters are kept, and each character is the same letter up to case. |
| Text.Upper | src/course_indexer.py:235 | Same length, no lower-case letter left, letters stay letters, non-lower characters are kept, and each character is the same letter up to case. |
| Text.Title | src/course_indexer.py:279 | Same length; a letter that starts a run of letters is upper case, any other letter lower case, each the same letter up to case, and non-letters are kept. |
| Text.StripIdempotent | src/course_indexer.py:313 | Stripping twice is stripping once. |
| Text.StripPadding | src/interactive_quiz_manager.py:124 | Whitespace padding does not change what strip returns. |

## Left out

- Embedding and similarity numerics are inputs: SentenceTransformer encoding, cosine similarity, FAISS L2 search, and NaN scores from zero vectors.
- Persistence is not modelled as I/O. The SQLite catalog, the `.npy`/`.npz`/pickle files and the JSON corpus are in-memory maps and records.
- Hashing and PDF text extraction are inputs: the MD5 hash, PyPDF2 and PyMuPDF, and the page count. In the extraction script, whether an entry is appended at all depends on PyMuPDF's `len(doc)` after `doc.close()`. Only the entry's derivation is modelled.
- All language-model calls are left out, together with prompt building (`_build_context` included) and the parsing of model replies. The reply is an input.
- Flask routes, SocketIO handlers and the mobile API are transport glue. Only the pure computations inside the routes are modelled.
- `search_documents` (SQL LIKE matching) and the SQL ordering of `get_all_documents` are left out; the document list is an input.
- Exceptions caught around retrieval in upload-and-explain are left out.
- `round(sim * 100, 1)` and `round(percentage, 2)` are display rounding and are not modelled. Relevance and percentage are exact reals.
- uuid, datetime and `random.sample` are not computed. Session ids are fresh parameters, the clock is an integer number of seconds, and the shuffle is driven by a `picks` sequence.
- Python's string methods are modelled over ASCII only. There is no Unicode case mapping or Unicode whitespace.
- The order of `get_active_sessions` follows dictionary insertion order; the model returns a set.
- `relevant_courses` in `answer_question` is `list(set(titles))`, whose order is unspecified; the model returns the set.
- The iteration order of the technical-keyword set is not fixed by Python, so it is a parameter (`IsKeywordOrder`).
- `KnowledgeBase.Show` approximates Python's `str()` of a metadata value only where the week label needs it.
- OCR, audio, QR-code generation and the other scripts are outside this model.
- Chunker.CreateTextChunks: requires `overlap <= chunk_size / 2 + 1` and `overlap < chunk_size`. Without that bound the `create_text_chunks` loop can stall or restart from a negative index; the defaults 1000/200 meet it.
- Chunker.ShortTextChunkCount: also requires `2 * overlap <= chunk_size`, so the second window of a short text is known to lie inside the first.
- AppRoutes.Organize: its own contract states only that M1 and M2 are present. The full grouping is stated by OrganizeLevels, OrganizeGroups, OrganizeBuckets and OrganizePlacesEachDocument.
- AppRoutes.ListCourses: its contract does not restate the grouping. `organized` is `Organize(documents)`, which the lemmas above describe.

Two behaviours of the code that are easy to miss:

- A text longer than `overlap` but no longer than `chunk_size` does not always give two chunks. The loop stops once `end − overlap` reaches the length, so a text up to `chunk_size − overlap` gives one chunk, and one between `chunk_size − overlap` and `chunk_size` gives two (Chunker.ShortTextChunkCount).
- A stripped chunk can be empty (Chunker.WhitespaceChunkIsEmpty).

=== FILE: app_routes.dfy ===
/**
 * The pure parts of the web application's routes: the upload extension check,
 * text previews, the per-document reference lists built from retrieved chunks,
 * and the level/category grouping of the course list. Requests, file storage
 * and the language-model calls are not modelled; the model's retrieval results
 * come from `RagAssistant.FindRelevantChunks` over given scores.
 */
module AppRoutes {
  import opened Wrappers
  import opened Text
  import Dedup
  import RagAssistant

  // ---------------------------------------------------------------------
  // uploads

  /** `ALLOWED_EXTENSIONS` */
  const AllowedExtensions: set<string> := {"pdf", "png", "jpg", "jpeg", "txt", "docx"}

  /** `i` is the position of the last '.' in `s`. */
  predicate LastDot(s: string, i: int) {
    0 <= i < |s| && s[i] == '.' && forall j :: i < j < |s| ==> s[j] != '.'
  }

  /** `allowed_file`: the name has a '.', and the text after its last '.', in lower
      case, is an allowed extension. */
  function AllowedFile(filename: string): (ok: bool)
    ensures ok <==> exists i :: LastDot(filename, i) && Lower(filename[i + 1..]) in AllowedExtensions
  {
    var dot := RFind(filename, '.');
    if dot == -1 then false
    else
      assert LastDot(filename, dot);
      assert forall i :: LastDot(filename, i) ==> i == dot;
      Lower(filename[dot + 1..]) in AllowedExtensions
  }

  /** Only the last extension counts, whatever its case and whatever comes before it. */
  lemma AllowedFileLastExtension(base: string, ext: string)
    requires '.' !in ext
    ensures AllowedFile(base + "." + ext) <==> Lower(ext) in AllowedExtensions
  {
    var f := base + "." + ext;
    assert f[|base| + 1..] == ext;
    forall j | |base| < j < |f| ensures f[j] != '.' {
      assert f[j] == ext[j - |base| - 1];
    }
    assert LastDot(f, |base|);
  }

  /** A name without any '.' is refused, even when it is an extension's name. */
  lemma AllowedFileNeedsDot(filename: string)
    requires '.' !in filename
    ensures !AllowedFile(filename)
  {
  }

  /** Upload-and-explain refuses extracted text shorter than this. */
  const MinTextLength := 50

  /** `text_preview`: the whole text up to 500 characters, otherwise its first 500
      characters followed by '...'. */
  function TextPreview(text: string): (r: string)
    ensures |text| <= 500 ==> r == text
    ensures |text| > 500 ==> |r| == 503 && r[..500] == text[..500] && r[500..] == "..."
  {
    if |text| > 500 then text[..500] + "..." else text
  }

  /** A preview never exceeds 503 characters and always starts like the text. */
  lemma TextPreviewBounded(text: string)
    ensures |TextPreview(text)| <= 503
    ensures var p := TextPreview(text); Take(text, 500) <= p
  {
  }

  // ---------------------------------------------------------------------
  // reference lists

  /** One entry of upload-and-explain's `relevant_courses`; `relevance` is the
      similarity as a percentage. */
  datatype UploadCourse = UploadCourse(
    docId: string, title: string, level: string, category: string, filePath: string,
    relevance: real, contentPreview: string)

  /** The reference for a retrieved chunk: its document's fields, its similarity
      as a percentage, and the first 300 characters of its text with '...'. */
  function UploadCourseOf(h: RagAssistant.Hit): (c: UploadCourse)
    ensures c.docId == h.chunk.docId && c.title == h.chunk.title && c.level == h.chunk.level
    ensures c.category == h.chunk.category && c.filePath == h.chunk.filePath
    ensures c.relevance == h.similarity * 100.0
    ensures c.contentPreview == Take(h.chunk.content, 300) + "..."
  {
    UploadCourse(h.chunk.docId, h.chunk.title, h.chunk.level, h.chunk.category, h.chunk.filePath,
                 h.similarity * 100.0, Take(h.chunk.content, 300) + "...")
  }

  function Map<T, U>(xs: seq<T>, f: T -> U): (r: seq<U>)
    ensures |r| == |xs|
    ensures forall i :: 0 <= i < |xs| ==> r[i] == f(xs[i])
  {
    seq(|xs|, i requires 0 <= i < |xs| => f(xs[i]))
  }

  /** The doc-id deduplication loop of the routes: the first chunk of each document,
      in rank order; every document of the input keeps exactly one entry. */
  function FirstPerDocument(hits: seq<RagAssistant.Hit>): (r: seq<RagAssistant.Hit>)
    ensures |r| <= |hits| && |r| == |Dedup.KeysOf(hits, RagAssistant.DocOf)|
    ensures forall i :: 0 <= i < |r| ==> r[i] in hits
    ensures forall i, j :: 0 <= i < j < |r| ==> r[i].chunk.docId != r[j].chunk.docId
    ensures Dedup.KeysOf(r, RagAssistant.DocOf) == Dedup.KeysOf(hits, RagAssistant.DocOf)
  {
    Dedup.FirstByKey(hits, RagAssistant.DocOf)
  }

  /** The list keeps, for each document, its first chunk in rank order. */
  lemma FirstPerDocumentIsFirstSeen(hits: seq<RagAssistant.Hit>)
    ensures FirstPerDocument(hits) == Dedup.FirstOccurrences(hits, RagAssistant.DocOf)
  {
    Dedup.FirstByKeyIsFirstOccurrences(hits, RagAssistant.DocOf);
  }

  /** Every entry of the deduplicated list satisfies what every retrieved chunk does. */
  lemma FirstPerDocumentKeeps(hits: seq<RagAssistant.Hit>, p: RagAssistant.Hit -> bool)
    requires forall k :: 0 <= k < |hits| ==> p(hits[k])
    ensures forall i :: 0 <= i < |FirstPerDocument(hits)| ==> p(FirstPerDocument(hits)[i])
  {
    var r := FirstPerDocument(hits);
    forall i | 0 <= i < |r| ensures p(r[i]) {
      var k :| 0 <= k < |hits| && hits[k] == r[i];
    }
  }

  /** The documents an upload reference list names. */
  function DocIds(refs: seq<UploadCourse>): set<string> {
    set i | 0 <= i < |refs| :: refs[i].docId
  }

  /** upload-and-explain's reference list for the retrieved chunks: each entry is
      built from a retrieved chunk, no document twice, every document once. */
  function UploadReferences(hits: seq<RagAssistant.Hit>): (r: seq<UploadCourse>)
    ensures |r| == |FirstPerDocument(hits)| <= |hits|
    ensures forall i :: 0 <= i < |r| ==> r[i] == UploadCourseOf(FirstPerDocument(hits)[i])
    ensures forall i, j :: 0 <= i < j < |r| ==> r[i].docId != r[j].docId
    ensures DocIds(r) == Dedup.KeysOf(hits, RagAssistant.DocOf)
  {
    var firsts := FirstPerDocument(hits);
    var r := UploadCourses(firsts);
    UploadDocIds(firsts);
    r
  }

  function UploadCourses(hits: seq<RagAssistant.Hit>): seq<UploadCourse> {
    seq(|hits|, i requires 0 <= i < |hits| => UploadCourseOf(hits[i]))
  }

  lemma UploadDocIds(hits: seq<RagAssistant.Hit>)
    ensures DocIds(UploadCourses(hits)) == Dedup.KeysOf(hits, RagAssistant.DocOf)
  {
    var r := UploadCourses(hits);
    assert forall i :: 0 <= i < |r| ==> r[i].docId == RagAssistant.DocOf(hits[i]);
  }

  /** The discrete part of upload-and-explain's answer. */
  datatype UploadReport = UploadReport(
    relevantCourses: seq<UploadCourse>, hasCourseReferences: bool, textLength: nat, textPreview: string)

  /** `upload_and_explain` once the text is extracted: too short a text is refused
      before any retrieval; otherwise the five best chunks over the whole catalog
      (none without an assistant) give one reference per document, and course
      references are flagged exactly when there is one. */
  function UploadAndExplain(text: string, assistant: bool, cache: Option<RagAssistant.Cache>,
                            scores: seq<real>, order: seq<nat>): (r: Result<UploadReport, string>)
    requires cache.Some? ==> RagAssistant.Searchable(cache.value, scores, order, None)
    ensures r.Err? <==> |text| < MinTextLength
    ensures r.Err? ==> r.error == "Document trop court ou vide"
    ensures r.Ok? ==> var u := r.value;
      && |u.relevantCourses| <= 5
      && (u.hasCourseReferences <==> |u.relevantCourses| > 0)
      && u.textLength == |text| && u.textPreview == TextPreview(text)
      && (!assistant ==> u.relevantCourses == [])
    ensures r.Ok? && assistant ==>
      r.value.relevantCourses == UploadReferences(RagAssistant.FindRelevantChunks(cache, scores, order, 5, None))
  {
    if |text| < MinTextLength then Err("Document trop court ou vide")
    else
      var hits := if assistant then RagAssistant.FindRelevantChunks(cache, scores, order, 5, None) else [];
      var courses := UploadReferences(hits);
      Ok(UploadReport(courses, |courses| > 0, |text|, TextPreview(text)))
  }

  /** Every upload reference is built from a retrieved chunk scoring above 0.3. */
  lemma UploadReferencesRelevant(cache: RagAssistant.Cache, scores: seq<real>, order: seq<nat>)
    requires RagAssistant.Searchable(cache, scores, order, None)
    ensures var hits := RagAssistant.FindRelevantChunks(Some(cache), scores, order, 5, None);
      forall i :: 0 <= i < |UploadReferences(hits)| ==>
        exists k :: 0 <= k < |hits| && hits[k].similarity > 0.3 && UploadReferences(hits)[i] == UploadCourseOf(hits[k])
  {
    var hits := RagAssistant.FindRelevantChunks(Some(cache), scores, order, 5, None);
    ReferencesFromHits(hits);
  }

  /** Every upload reference is built from one of the hits it is made from. */
  lemma ReferencesFromHits(hits: seq<RagAssistant.Hit>)
    requires forall k :: 0 <= k < |hits| ==> hits[k].similarity > 0.3
    ensures var refs := UploadReferences(hits);
      forall i :: 0 <= i < |refs| ==>
        exists k :: 0 <= k < |hits| && hits[k].similarity > 0.3 && refs[i] == UploadCourseOf(hits[k])
  {
    var firsts := FirstPerDocument(hits);
    var refs := UploadReferences(hits);
    forall i | 0 <= i < |refs|
      ensures exists k :: 0 <= k < |hits| && hits[k].similarity > 0.3 && refs[i] == UploadCourseOf(hits[k])
    {
      assert firsts[i] in hits;
      var k :| 0 <= k < |hits| && hits[k] == firsts[i];
      assert refs[i] == UploadCourseOf(hits[k]);
    }
  }

  /** One entry of explain-topic's reference list. The `content` field is the prompt
      input (the first 500 characters of the chunk); the JSON response lists only
      title, level and category. */
  datatype TopicCourse = TopicCourse(title: string, level: string, category: string, content: string)

  function TopicCourseOf(h: RagAssistant.Hit): (c: TopicCourse)
    ensures c.title == h.chunk.title && c.level == h.chunk.level && c.category == h.chunk.category
    ensures c.content == Take(h.chunk.content, 500)
  {
    TopicCourse(h.chunk.title, h.chunk.level, h.chunk.category, Take(h.chunk.content, 500))
  }

  datatype TopicReport = TopicReport(relevantCourses: seq<TopicCourse>, hasCourseReferences: bool)

  /** `explain_topic` without the language model: a missing or empty topic is refused
      before any retrieval; otherwise the three best chunks at the requested level
      give one reference per document. */
  function ExplainTopic(topic: Option<string>, level: Option<string>, assistant: bool,
                        cache: Option<RagAssistant.Cache>, scores: seq<real>, order: seq<nat>)
    : (r: Result<TopicReport, string>)
    requires cache.Some? ==> RagAssistant.Searchable(cache.value, scores, order, level)
    ensures r.Err? <==> topic.None? || topic.value == ""
    ensures r.Err? ==> r.error == "Topic requis"
    ensures r.Ok? ==> var t := r.value;
      && |t.relevantCourses| <= 3
      && (t.hasCourseReferences <==> |t.relevantCourses| > 0)
      && (RagAssistant.Filtering(level) ==> forall i :: 0 <= i < |t.relevantCourses| ==> t.relevantCourses[i].level == level.value)
      && (!assistant ==> t.relevantCourses == [])
    ensures r.Ok? && assistant ==>
              r.value.relevantCourses
              == Map(FirstPerDocument(RagAssistant.FindRelevantChunks(cache, scores, order, 3, level)), TopicCourseOf)
  {
    if topic.None? || topic.value == "" then Err("Topic requis")
    else if !assistant then Ok(TopicReport([], false))
    else
      var hits := RagAssistant.FindRelevantChunks(cache, scores, order, 3, level);
      var courses := Map(FirstPerDocument(hits), TopicCourseOf);
      TopicCoursesAtLevel(hits, level);
      Ok(TopicReport(courses, |courses| > 0))
  }

  /** References built from hits at the requested level are at that level, and
      there are no more of them than hits. */
  lemma TopicCoursesAtLevel(hits: seq<RagAssistant.Hit>, level: Option<string>)
    requires forall i :: 0 <= i < |hits| ==> RagAssistant.MatchesLevel(hits[i].chunk, level)
    ensures var courses := Map(FirstPerDocument(hits), TopicCourseOf);
      && |courses| <= |hits|
      && (RagAssistant.Filtering(level) ==> forall i :: 0 <= i < |courses| ==> courses[i].level == level.value)
  {
    FirstPerDocumentKeeps(hits, (h: RagAssistant.Hit) => RagAssistant.MatchesLevel(h.chunk, level));
  }

  /** There is one reference per distinct document among the retrieved chunks. */
  lemma ExplainTopicOnePerDocument(topic: string, level: Option<string>, cache: RagAssistant.Cache,
                                   scores: seq<real>, order: seq<nat>)
    requires RagAssistant.Searchable(cache, scores, order, level)
    requires topic != ""
    ensures var hits := RagAssistant.FindRelevantChunks(Some(cache), scores, order, 3, level);
            var t := ExplainTopic(Some(topic), level, true, Some(cache), scores, order).value;
      |t.relevantCourses| == |Dedup.KeysOf(hits, RagAssistant.DocOf)|
  {
  }

  // ---------------------------------------------------------------------
  // course list

  /** The catalog fields `list_courses` groups by. */
  datatype Document = Document(docId: string, title: string, level: string, category: string)

  type Grouping = map<string, map<string, seq<Document>>>

  /** The documents of one level and category, in catalog order: the reference
      for each group. */
  function Bucket(docs: seq<Document>, level: string, category: string): (r: seq<Document>)
    ensures |r| <= |docs|
    ensures forall d :: d in r ==> d in docs && d.level == level && d.category == category
  {
    if |docs| == 0 then []
    else
      var d := docs[|docs| - 1];
      Bucket(docs[..|docs| - 1], level, category) + (if d.level == level && d.category == category then [d] else [])
  }

  predicate HasLevel(docs: seq<Document>, level: string) {
    exists i :: 0 <= i < |docs| && docs[i].level == level
  }

  predicate HasGroup(docs: seq<Document>, level: string, category: string) {
    exists i :: 0 <= i < |docs| && docs[i].level == level && docs[i].category == category
  }

  /** `organized` of `list_courses`: one dictionary per level, starting from 'M1' and
      'M2', one list per category under it, documents appended in catalog order. */
  function Organize(docs: seq<Document>): (r: Grouping)
    ensures "M1" in r && "M2" in r
  {
    if |docs| == 0 then map["M1" := map[], "M2" := map[]]
    else
      var d := docs[|docs| - 1];
      var o := Organize(docs[..|docs| - 1]);
      var lv := if d.level in o then o[d.level] else map[];
      var bucket := if d.category in lv then lv[d.category] else [];
      o[d.level := lv[d.category := bucket + [d]]]
  }

  /** The levels of the grouping are 'M1', 'M2' and those of the documents. */
  lemma {:induction false} OrganizeLevels(docs: seq<Document>)
    ensures forall l :: l in Organize(docs) <==> l == "M1" || l == "M2" || HasLevel(docs, l)
    decreases |docs|
  {
    if |docs| > 0 {
      var init := docs[..|docs| - 1];
      var d := docs[|docs| - 1];
      OrganizeLevels(init);
      assert docs == init + [d];
      HasLevelSnoc(init, d);
    }
  }

  /** Under a level, the categories are exactly those of the documents at it. */
  lemma {:induction false} OrganizeGroups(docs: seq<Document>)
    ensures forall l, c :: l in Organize(docs) && c in Organize(docs)[l] <==> HasGroup(docs, l, c)
    decreases |docs|
  {
    if |docs| > 0 {
      var init := docs[..|docs| - 1];
      var d := docs[|docs| - 1];
      OrganizeGroups(init);
      assert docs == init + [d];
      HasGroupSnoc(init, d);
    }
  }

  /** Each category's list is the documents of that level and category, in order. */
  lemma {:induction false} OrganizeBuckets(docs: seq<Document>)
    ensures forall l, c :: l in Organize(docs) && c in Organize(docs)[l] ==> Organize(docs)[l][c] == Bucket(docs, l, c)
    decreases |docs|
  {
    if |docs| > 0 {
      var init := docs[..|docs| - 1];
      var d := docs[|docs| - 1];
      var o := Organize(init);
      OrganizeBuckets(init);
      OrganizeGroups(init);
      BucketEmpty(init, d.level, d.category);
      var r := Organize(docs);
      forall l, c | l in r && c in r[l] ensures r[l][c] == Bucket(docs, l, c) {
        if l == d.level && c == d.category {
          var lv := if d.level in o then o[d.level] else map[];
          var bucket := if d.category in lv then lv[d.category] else [];
          assert bucket == Bucket(init, l, c);
        }
      }
    }
  }

  lemma HasLevelSnoc(docs: seq<Document>, d: Document)
    ensures forall l :: HasLevel(docs + [d], l) <==> HasLevel(docs, l) || l == d.level
  {
    var all := docs + [d];
    forall l | HasLevel(all, l) ensures HasLevel(docs, l) || l == d.level {
      var i :| 0 <= i < |all| && all[i].level == l;
      if i < |docs| { assert docs[i] == all[i]; }
    }
    forall l | HasLevel(docs, l) ensures HasLevel(all, l) {
      var i :| 0 <= i < |docs| && docs[i].level == l;
      assert all[i] == docs[i];
    }
    assert all[|docs|] == d;
  }

  lemma HasGroupSnoc(docs: seq<Document>, d: Document)
    ensures forall l, c :: HasGroup(docs + [d], l, c) <==> HasGroup(docs, l, c) || (l == d.level && c == d.category)
  {
    var all := docs + [d];
    forall l, c | HasGroup(all, l, c) ensures HasGroup(docs, l, c) || (l == d.level && c == d.category) {
      var i :| 0 <= i < |all| && all[i].level == l && all[i].category == c;
      if i < |docs| { assert docs[i] == all[i]; }
    }
    forall l, c | HasGroup(docs, l, c) ensures HasGroup(all, l, c) {
      var i :| 0 <= i < |docs| && docs[i].level == l && docs[i].category == c;
      assert all[i] == docs[i];
    }
    assert all[|docs|] == d;
  }

  /** A level and category that no document has get an empty bucket. */
  lemma BucketEmpty(docs: seq<Document>, level: string, category: string)
    ensures !HasGroup(docs, level, category) ==> Bucket(docs, level, category) == []
  {
    var b := Bucket(docs, level, category);
    if b != [] {
      assert b[0] in docs;
      var i :| 0 <= i < |docs| && docs[i] == b[0];
      assert HasGroup(docs, level, category);
    }
  }

  /** Each document lands in its own level's own category's list, and only there. */
  lemma OrganizePlacesEachDocument(docs: seq<Document>)
    ensures forall i :: 0 <= i < |docs| ==>
      var d := docs[i]; d.level in Organize(docs) && d.category in Organize(docs)[d.level]
                        && d in Organize(docs)[d.level][d.category]
    ensures forall l, c, d :: l in Organize(docs) && c in Organize(docs)[l] && d in Organize(docs)[l][c] ==>
      d in docs && d.level == l && d.category == c
  {
    var o := Organize(docs);
    OrganizeGroups(docs);
    OrganizeBuckets(docs);
    forall i | 0 <= i < |docs|
      ensures docs[i].level in o && docs[i].category in o[docs[i].level] && docs[i] in o[docs[i].level][docs[i].category]
    {
      var d := docs[i];
      assert HasGroup(docs, d.level, d.category);
      BucketHolds(docs, i);
    }
  }

  /** A document is in the bucket of its own level and category. */
  lemma {:induction false} BucketHolds(docs: seq<Document>, i: nat)
    requires i < |docs|
    ensures docs[i] in Bucket(docs, docs[i].level, docs[i].category)
    decreases |docs|
  {
    var init := docs[..|docs| - 1];
    if i < |docs| - 1 {
      assert init[i] == docs[i];
      BucketHolds(init, i);
    }
  }

  /** What `list_courses` answers. */
  datatype CourseList = CourseList(totalCourses: nat, courses: seq<Document>, organized: Grouping)

  /** `list_courses`: refused without a course indexer; otherwise the documents, their
      count and their grouping. */
  function ListCourses(indexer: bool, documents: seq<Document>): (r: Result<CourseList, string>)
    ensures r.Err? <==> !indexer
    ensures r.Err? ==> r.error == "Course indexer non disponible"
    ensures r.Ok? ==> r.value.totalCourses == |r.value.courses| && r.value.courses == documents
                      && "M1" in r.value.organized && "M2" in r.value.organized
  {
    if !indexer then Err("Course indexer non disponible")
    else Ok(CourseList(|documents|, documents, Organize(documents)))
  }
}

=== FILE: chunker.dfy ===
/**
 * The overlapping sliding-window chunker of the course indexer
 * (`CourseIndexer._create_text_chunks`): windows of `chunk_size` characters,
 * each retracted to just after the last '.' when that dot lies in the second
 * half of a window that stops before the end of the text, the next window
 * starting `overlap` characters before the previous one ended.
 */
module Chunker {
  import opened Text

  const DefaultChunkSize: nat := 1000
  const DefaultOverlap: nat := 200

  /** Parameters for which every step of the loop moves `start` forward.
      (With a larger overlap the loop can stop moving, or move `start`
      below zero, where Python slices count from the end of the text.) */
  predicate ValidParams(chunkSize: int, overlap: int) {
    0 <= overlap < chunkSize && overlap <= chunkSize / 2 + 1
  }

  /** One pass of the loop: its `start`, and its `end` as the loop computes it;
      the end may lie past the text, where the slice `content[start:end]` clips. */
  datatype Window = Window(start: nat, end: nat)

  /** A chunk record `{'text': ..., 'page': ...}`. */
  datatype Chunk = Chunk(text: string, page: nat)

  /** Whether the window at `start` is retracted: it stops before the end of the
      text and its last '.' lies strictly past half the chunk size. */
  predicate Retracts(content: string, start: nat, chunkSize: nat)
    requires start <= |content|
  {
    start + chunkSize < |content| && 2 * RFind(content[start..start + chunkSize], '.') > chunkSize
  }

  /** The `end` of the window starting at `start`: never more than the chunk
      size past `start`, and shortened only to a point past its middle. */
  function WindowEnd(content: string, start: nat, chunkSize: nat): (e: nat)
    requires start < |content| && chunkSize >= 1
    ensures start < e <= start + chunkSize
    ensures e < start + chunkSize ==> 2 * (e - 1 - start) > chunkSize
  {
    var end := start + chunkSize;
    if end < |content| then
      var lastPeriod := RFind(content[start..end], '.');
      if 2 * lastPeriod > chunkSize then start + lastPeriod + 1 else end
    else end
  }

  /** A window is cut short exactly at its last '.', and only when it retracts;
      otherwise it spans the full chunk size. */
  lemma WindowEndRetracts(content: string, start: nat, chunkSize: nat)
    requires start < |content| && chunkSize >= 1
    ensures !Retracts(content, start, chunkSize) ==> WindowEnd(content, start, chunkSize) == start + chunkSize
    ensures Retracts(content, start, chunkSize) ==>
      var e := WindowEnd(content, start, chunkSize);
      && content[e - 1] == '.'
      && 2 * (e - 1 - start) > chunkSize
      && forall j :: e <= j < start + chunkSize ==> content[j] != '.'
  {
    var end := start + chunkSize;
    if Retracts(content, start, chunkSize) {
      var window := content[start..end];
      var lastPeriod := RFind(window, '.');
      assert content[start + lastPeriod] == window[lastPeriod];
      assert forall j :: start + lastPeriod < j < end ==> content[j] == window[j - start];
    }
  }

  /** The facts every run of the loop from `start` establishes about its
      windows: each starts inside the text and ends where `WindowEnd` says;
      the next starts exactly `overlap` before the previous end; the loop stops
      exactly when `end - overlap` reaches the end of the text. */
  predicate Chained(content: string, start: nat, chunkSize: nat, overlap: nat, ws: seq<Window>)
    requires chunkSize >= 1
  {
    && (|ws| == 0 <==> start >= |content|)
    && (|ws| > 0 ==> ws[0].start == start)
    && (forall i :: 0 <= i < |ws| ==> start <= ws[i].start < |content|)
    && (forall i :: 0 <= i < |ws| ==> ws[i].end == WindowEnd(content, ws[i].start, chunkSize))
    && (forall i :: 0 <= i < |ws| - 1 ==> ws[i + 1].start == ws[i].end - overlap)
    && (forall i :: 0 <= i < |ws| - 1 ==> ws[i].start < ws[i + 1].start)
    && (forall i :: 0 <= i < |ws| - 1 ==> ws[i].end - overlap < |content|)
    && (|ws| > 0 ==> ws[|ws| - 1].end - overlap >= |content|)
  }

  lemma ChainedCons(content: string, start: nat, chunkSize: nat, overlap: nat, rest: seq<Window>)
    requires ValidParams(chunkSize, overlap) && start < |content|
    requires WindowEnd(content, start, chunkSize) >= start + overlap + 1
    requires Chained(content, WindowEnd(content, start, chunkSize) - overlap, chunkSize, overlap, rest)
    ensures Chained(content, start, chunkSize, overlap, [Window(start, WindowEnd(content, start, chunkSize))] + rest)
  {
    var e := WindowEnd(content, start, chunkSize);
    var ws := [Window(start, e)] + rest;
    forall i | 0 <= i < |ws|
      ensures start <= ws[i].start < |content|
      ensures ws[i].end == WindowEnd(content, ws[i].start, chunkSize)
    {
      if i > 0 { assert ws[i] == rest[i - 1]; }
    }
    forall i | 0 <= i < |ws| - 1
      ensures ws[i + 1].start == ws[i].end - overlap
      ensures ws[i].start < ws[i + 1].start
      ensures ws[i].end - overlap < |content|
    {
      assert ws[i + 1] == rest[i];
      if i > 0 { assert ws[i] == rest[i - 1]; }
    }
    assert ws[|ws| - 1] == if |rest| == 0 then Window(start, e) else rest[|rest| - 1];
  }

  /** The windows of the loop from `start` on. */
  function WindowsFrom(content: string, start: nat, chunkSize: nat, overlap: nat): (ws: seq<Window>)
    requires ValidParams(chunkSize, overlap)
    ensures Chained(content, start, chunkSize, overlap, ws)
    decreases |content| - start
  {
    if start >= |content| then []
    else
      var e := WindowEnd(content, start, chunkSize);
      assert e >= start + overlap + 1;
      var rest := WindowsFrom(content, e - overlap, chunkSize, overlap);
      ChainedCons(content, start, chunkSize, overlap, rest);
      [Window(start, e)] + rest
  }

  /** The windows `_create_text_chunks` walks through. */
  function Windows(content: string, chunkSize: nat, overlap: nat): (ws: seq<Window>)
    requires ValidParams(chunkSize, overlap)
    ensures Chained(content, 0, chunkSize, overlap, ws)
  {
    WindowsFrom(content, 0, chunkSize, overlap)
  }

  /** The text of a window: Python's clipping slice `content[start:end]`. */
  function WindowText(content: string, w: Window): (r: string)
    ensures |r| <= w.end - w.start || (w.end <= w.start && r == "")
  {
    var hi := if w.end <= |content| then w.end else |content|;
    if hi <= w.start then "" else content[w.start..hi]
  }

  /** `_create_text_chunks`: one stripped chunk per window, page always 0. */
  function CreateTextChunks(content: string, chunkSize: nat, overlap: nat): (r: seq<Chunk>)
    requires ValidParams(chunkSize, overlap)
    ensures |r| == |Windows(content, chunkSize, overlap)|
    ensures |r| == 0 <==> |content| == 0
    ensures forall i :: 0 <= i < |r| ==> r[i].page == 0 && |r[i].text| <= chunkSize
    ensures forall i :: 0 <= i < |r| ==> r[i].text == Strip(WindowText(content, Windows(content, chunkSize, overlap)[i]))
  {
    var ws := Windows(content, chunkSize, overlap);
    var r := seq(|ws|, i requires 0 <= i < |ws| => Chunk(Strip(WindowText(content, ws[i])), 0));
    assert forall i :: 0 <= i < |ws| ==> ws[i].end <= ws[i].start + chunkSize;
    r
  }

  // ---------------------------------------------------------------------
  // properties of the windows

  /** No gaps: every character of the text lies in some window. */
  lemma WindowsCover(content: string, chunkSize: nat, overlap: nat, p: nat)
    requires ValidParams(chunkSize, overlap) && p < |content|
    ensures exists i :: 0 <= i < |Windows(content, chunkSize, overlap)| &&
                        Windows(content, chunkSize, overlap)[i].start <= p < Windows(content, chunkSize, overlap)[i].end
  {
    var ws := Windows(content, chunkSize, overlap);
    WindowsCoverFrom(ws, overlap, |content|, p, 0);
  }

  lemma {:induction false} WindowsCoverFrom(ws: seq<Window>, overlap: nat, len: nat, p: nat, i: nat)
    requires i < |ws| && ws[i].start <= p < len
    requires forall j :: 0 <= j < |ws| - 1 ==> ws[j + 1].start == ws[j].end - overlap
    requires ws[|ws| - 1].end - overlap >= len
    ensures exists j :: 0 <= j < |ws| && ws[j].start <= p < ws[j].end
    decreases |ws| - i
  {
    if p >= ws[i].end && i < |ws| - 1 {
      WindowsCoverFrom(ws, overlap, len, p, i + 1);
    }
  }

  /** The text with the overlapping regions taken once: from each window's start
      up to the next window's start, and the last window to the end of the text. */
  function Unoverlapped(content: string, ws: seq<Window>): string
    requires forall i :: 0 <= i < |ws| ==> ws[i].start <= |content|
    requires forall i :: 0 <= i < |ws| - 1 ==> ws[i].start <= ws[i + 1].start
  {
    if |ws| == 0 then ""
    else if |ws| == 1 then content[ws[0].start..]
    else content[ws[0].start..ws[1].start] + Unoverlapped(content, ws[1..])
  }

  /** Chunk coverage: each window's text starts with its pre-overlap span (the
      last window's text is that span), and the spans, concatenated, reconstruct
      the text exactly. */
  lemma WindowsReconstruct(content: string, chunkSize: nat, overlap: nat)
    requires ValidParams(chunkSize, overlap)
    ensures var ws := Windows(content, chunkSize, overlap);
      forall i :: 0 <= i < |ws| - 1 ==> content[ws[i].start..ws[i + 1].start] <= WindowText(content, ws[i])
    ensures var ws := Windows(content, chunkSize, overlap);
      |ws| > 0 ==> content[ws[|ws| - 1].start..] == WindowText(content, ws[|ws| - 1])
    ensures Unoverlapped(content, Windows(content, chunkSize, overlap)) == content
  {
    var ws := Windows(content, chunkSize, overlap);
    SpansInWindows(content, overlap, ws);
    if |ws| > 0 {
      UnoverlappedTelescopes(content, ws);
    }
  }

  /** A window's text runs at least up to the next window's start, and the last
      window's text runs to the end of the text. */
  lemma SpansInWindows(content: string, overlap: nat, ws: seq<Window>)
    requires forall i :: 0 <= i < |ws| ==> ws[i].start < |content|
    requires forall i :: 0 <= i < |ws| - 1 ==> ws[i + 1].start == ws[i].end - overlap
    requires forall i :: 0 <= i < |ws| - 1 ==> ws[i].start < ws[i + 1].start
    requires |ws| > 0 ==> ws[|ws| - 1].end - overlap >= |content|
    ensures forall i :: 0 <= i < |ws| - 1 ==> content[ws[i].start..ws[i + 1].start] <= WindowText(content, ws[i])
    ensures |ws| > 0 ==> content[ws[|ws| - 1].start..] == WindowText(content, ws[|ws| - 1])
  {
    forall i | 0 <= i < |ws| - 1 ensures content[ws[i].start..ws[i + 1].start] <= WindowText(content, ws[i]) {
      var hi := if ws[i].end <= |content| then ws[i].end else |content|;
      assert ws[i].start < ws[i + 1].start <= hi;
      assert WindowText(content, ws[i]) == content[ws[i].start..hi];
    }
  }

  /** The spans between consecutive starts telescope to the text after the first start. */
  lemma {:induction false} UnoverlappedTelescopes(content: string, ws: seq<Window>)
    requires |ws| > 0
    requires forall i :: 0 <= i < |ws| ==> ws[i].start <= |content|
    requires forall i :: 0 <= i < |ws| - 1 ==> ws[i].start <= ws[i + 1].start
    ensures Unoverlapped(content, ws) == content[ws[0].start..]
  {
    if |ws| > 1 {
      var rest := ws[1..];
      assert rest[0] == ws[1];
      assert forall i :: 0 <= i < |rest| ==> rest[i] == ws[i + 1];
      UnoverlappedTelescopes(content, rest);
      assert content[ws[0].start..] == content[ws[0].start..ws[1].start] + content[ws[1].start..];
    }
  }

  /** A text no longer than the chunk size yields one chunk when it fits in
      `chunk_size - overlap` characters and two otherwise: the loop only stops
      once `end - overlap` reaches the end, so the second window repeats the
      tail of the first. */
  lemma ShortTextChunkCount(content: string, chunkSize: nat, overlap: nat)
    requires ValidParams(chunkSize, overlap)
    requires 0 < |content| <= chunkSize && 2 * overlap <= chunkSize
    ensures |content| <= chunkSize - overlap ==> |Windows(content, chunkSize, overlap)| == 1
    ensures |content| > chunkSize - overlap ==> |Windows(content, chunkSize, overlap)| == 2
    ensures |content| > chunkSize - overlap ==>
      Windows(content, chunkSize, overlap)[1] == Window(chunkSize - overlap, 2 * chunkSize - overlap)
  {
    var ws := Windows(content, chunkSize, overlap);
    assert ws[0] == Window(0, chunkSize);
    if |content| > chunkSize - overlap {
      assert ws[1].start == chunkSize - overlap;
      assert ws[1].end == 2 * chunkSize - overlap;
      assert ws[1].end - overlap >= |content|;
    }
  }

  /** With the default sizes, each window after a retraction still moves the
      start forward by more than 300 characters. */
  lemma DefaultAdvance(content: string, i: nat)
    requires i < |Windows(content, DefaultChunkSize, DefaultOverlap)| - 1
    ensures Windows(content, DefaultChunkSize, DefaultOverlap)[i + 1].start >=
      Windows(content, DefaultChunkSize, DefaultOverlap)[i].start + 302
  {
    var ws := Windows(content, DefaultChunkSize, DefaultOverlap);
    var s := ws[i].start;
    if ws[i].end < s + DefaultChunkSize {
      assert 2 * (ws[i].end - 1 - s) > DefaultChunkSize;
    }
  }

  /** The stripped text of a chunk may be empty: a text of one space gives one empty chunk. */
  lemma WhitespaceChunkIsEmpty()
    ensures CreateTextChunks(" ", DefaultChunkSize, DefaultOverlap) == [Chunk("", 0)]
  {
    assert WindowEnd(" ", 0, 1000) == 1000;
    assert WindowsFrom(" ", 800, 1000, 200) == [];
    var ws := Windows(" ", DefaultChunkSize, DefaultOverlap);
    assert ws == [Window(0, 1000)];
    assert WindowText(" ", ws[0]) == " ";
    assert LeadingSpaces(" ") == 1;
    assert Strip(" ") == "";
    var r := CreateTextChunks(" ", DefaultChunkSize, DefaultOverlap);
    assert r[0] == Chunk("", 0);
  }
}

=== FILE: course_extraction.dfy ===
/**
 * The per-file derivation of the course-content extraction script: the level and
 * semester read off the lower-cased path, the entry id, the display title and the
 * content excerpt. Listing the files and reading their text are not modelled;
 * the path and the extracted text are inputs.
 */
module CourseExtraction {
  import opened Text
  import Paths

  /** The first of two markers found in the lower-cased path wins, the second one
      only counts when the first is absent, and otherwise the value is "Unknown". */
  function Classify(path: string, first: string, firstName: string, second: string, secondName: string)
    : (r: string)
    requires firstName != "Unknown" && secondName != "Unknown" && firstName != secondName
    ensures r == firstName <==> Contains(Lower(path), first)
    ensures r == secondName <==> !Contains(Lower(path), first) && Contains(Lower(path), second)
    ensures r == "Unknown" <==> !Contains(Lower(path), first) && !Contains(Lower(path), second)
  {
    var parts := Lower(path);
    if Contains(parts, first) then firstName
    else if Contains(parts, second) then secondName
    else "Unknown"
  }

  /** The level: "M2" as soon as "m2" occurs anywhere in the path, even beside "m1". */
  function LevelOf(path: string): (r: string)
    ensures r == "M2" || r == "M1" || r == "Unknown"
    ensures r == "M2" <==> Contains(Lower(path), "m2")
    ensures r == "M1" <==> !Contains(Lower(path), "m2") && Contains(Lower(path), "m1")
  {
    Classify(path, "m2", "M2", "m1", "M1")
  }

  /** The semester, with the same precedence: "s2" before "s1". */
  function SemesterOf(path: string): (r: string)
    ensures r == "S2" || r == "S1" || r == "Unknown"
    ensures r == "S2" <==> Contains(Lower(path), "s2")
    ensures r == "S1" <==> !Contains(Lower(path), "s2") && Contains(Lower(path), "s1")
  {
    Classify(path, "s2", "S2", "s1", "S1")
  }

  /** Lower-casing twice is lower-casing once. */
  lemma LowerIdempotent(s: string)
    ensures Lower(Lower(s)) == Lower(s)
  {
    var l := Lower(s);
    assert forall i :: 0 <= i < |l| ==> !IsUpperChar(l[i]);
  }

  /** Upper-casing first loses nothing that lower-casing keeps. */
  lemma LowerOfUpper(s: string)
    ensures Lower(Upper(s)) == Lower(s)
  {
    var u := Upper(s);
    forall i | 0 <= i < |s| ensures Lower(u)[i] == Lower(s)[i] {
      assert u[i] == UpperChar(s[i]);
    }
  }

  /** The classification ignores case: a path written in capitals or in lower case
      gets the same level and semester. */
  lemma ClassificationIgnoresCase(path: string)
    ensures LevelOf(Upper(path)) == LevelOf(path) && SemesterOf(Upper(path)) == SemesterOf(path)
    ensures LevelOf(Lower(path)) == LevelOf(path) && SemesterOf(Lower(path)) == SemesterOf(path)
  {
    LowerOfUpper(path);
    LowerIdempotent(path);
  }

  /** A file under an M1 directory whose name mentions M2 is classified M2. */
  lemma LevelPrecedence()
    ensures LevelOf("m1/s1/M2_intro.pdf") == "M2"
  {
    var parts := Lower("m1/s1/M2_intro.pdf");
    assert parts[6..8] == "m2";
    assert OccursAt(parts, "m2", 6);
  }

  /** `f"{level}_{semester}_{stem}"` */
  function EntryId(level: string, semester: string, stem: string): (id: string)
    ensures |id| == |level| + |semester| + |stem| + 2
    ensures id[..|level|] == level && id[|level|] == '_' && id[|id| - |stem|..] == stem
    ensures id[|level| + 1..|level| + 1 + |semester|] == semester && id[|level| + 1 + |semester|] == '_'
  {
    level + "_" + semester + "_" + stem
  }

  /** Joining two strings at a '_' can be undone when the first holds no '_'. */
  lemma SplitAtUnderscore(a: string, b: string, c: string, d: string)
    requires '_' !in a && '_' !in c
    requires a + "_" + b == c + "_" + d
    ensures a == c && b == d
  {
    var x := a + "_" + b;
    FirstUnderscore(a, b);
    FirstUnderscore(c, d);
    assert a == x[..|a|] && c == x[..|c|];
    assert b == x[|a| + 1..] && d == x[|c| + 1..];
  }

  /** The first '_' of `a + "_" + b` is the one after `a` when `a` holds none. */
  lemma FirstUnderscore(a: string, b: string)
    requires '_' !in a
    ensures Find(a + "_" + b, '_') == |a|
  {
    var x := a + "_" + b;
    var f := Find(x, '_');
    assert x[|a|] == '_';
    assert x[..|a|] == a;
  }

  /** An id built from a level and a semester without '_' gives them back, and the stem. */
  lemma EntryIdSplit(l1: string, s1: string, t1: string, l2: string, s2: string, t2: string)
    requires '_' !in l1 && '_' !in s1 && '_' !in l2 && '_' !in s2
    requires EntryId(l1, s1, t1) == EntryId(l2, s2, t2)
    ensures l1 == l2 && s1 == s2 && t1 == t2
  {
    assert EntryId(l1, s1, t1) == l1 + "_" + (s1 + "_" + t1);
    assert EntryId(l2, s2, t2) == l2 + "_" + (s2 + "_" + t2);
    SplitAtUnderscore(l1, s1 + "_" + t1, l2, s2 + "_" + t2);
    SplitAtUnderscore(s1, t1, s2, t2);
  }

  /** No level or semester name contains '_'. */
  lemma NamesWithoutUnderscore(path: string)
    ensures '_' !in LevelOf(path) && '_' !in SemesterOf(path)
  {
  }

  /** The id determines level, semester and stem. */
  lemma EntryIdInjective(path1: string, stem1: string, path2: string, stem2: string)
    requires EntryId(LevelOf(path1), SemesterOf(path1), stem1) == EntryId(LevelOf(path2), SemesterOf(path2), stem2)
    ensures LevelOf(path1) == LevelOf(path2) && SemesterOf(path1) == SemesterOf(path2) && stem1 == stem2
  {
    NamesWithoutUnderscore(path1);
    NamesWithoutUnderscore(path2);
    EntryIdSplit(LevelOf(path1), SemesterOf(path1), stem1, LevelOf(path2), SemesterOf(path2), stem2);
  }

  /** `stem.replace('_', ' ').title()`: no underscore is left, the length is kept,
      every other character stays the same letter or symbol, each word starts with
      a capital and the rest of the word is in lower case. */
  function CourseTitle(stem: string): (t: string)
    ensures |t| == |stem| && '_' !in t
    ensures forall i :: 0 <= i < |t| && stem[i] == '_' ==> t[i] == ' '
    ensures forall i :: 0 <= i < |t| && stem[i] != '_' ==> LowerChar(t[i]) == LowerChar(stem[i])
    ensures forall i :: 0 <= i < |t| && IsLetter(stem[i]) && (i == 0 || !IsLetter(stem[i - 1])) ==> IsUpperChar(t[i])
    ensures forall i :: 0 < i < |t| && IsLetter(stem[i]) && IsLetter(stem[i - 1]) ==> IsLowerChar(t[i])
  {
    var spaced := ReplaceChar(stem, '_', ' ');
    assert forall i :: 0 <= i < |stem| && IsLetter(stem[i]) ==> spaced[i] == stem[i];
    assert forall i :: 0 <= i < |stem| && !IsLetter(stem[i]) ==> !IsLetter(spaced[i]);
    Title(spaced)
  }

  /** A title is already in title case. */
  lemma CourseTitleStable(stem: string)
    ensures Title(CourseTitle(stem)) == CourseTitle(stem)
  {
    TitleIdempotent(ReplaceChar(stem, '_', ' '));
  }

  /** The excerpt stored as `content`. */
  const ContentLimit := 3000

  /** One entry of the corpus's course materials, without the page count. */
  datatype Entry = Entry(id: string, level: string, semester: string, title: string,
                         content: string, sourceFile: string)

  /** The entry the script builds for the file at `path` with extracted text `text`. */
  function ExtractEntry(path: string, text: string): (e: Entry)
    ensures e.level == LevelOf(path) && e.semester == SemesterOf(path)
    ensures e.content <= text && |e.content| == (if |text| <= ContentLimit then |text| else ContentLimit)
    ensures e.sourceFile == Paths.Name(path) && e.title == CourseTitle(Paths.Stem(e.sourceFile))
    ensures e.id == EntryId(e.level, e.semester, Paths.Stem(e.sourceFile))
  {
    var name := Paths.Name(path);
    var stem := Paths.Stem(name);
    var level := LevelOf(path);
    var semester := SemesterOf(path);
    Entry(EntryId(level, semester, stem), level, semester, CourseTitle(stem), Take(text, ContentLimit), name)
  }

  /** Two files get the same id only if they share level, semester and stem. */
  lemma ExtractEntryIds(path1: string, text1: string, path2: string, text2: string)
    requires ExtractEntry(path1, text1).id == ExtractEntry(path2, text2).id
    ensures LevelOf(path1) == LevelOf(path2) && SemesterOf(path1) == SemesterOf(path2)
    ensures Paths.Stem(Paths.Name(path1)) == Paths.Stem(Paths.Name(path2))
  {
    EntryIdInjective(path1, Paths.Stem(Paths.Name(path1)), path2, Paths.Stem(Paths.Name(path2)));
  }
}

=== FILE: course_indexer.dfy ===
/**
 * The course catalog indexer (`src/course_indexer.py`): document ids derived
 * from paths, the title and metadata heuristics, the per-document reindex
 * decision over an in-memory catalog, and the statistics of a full scan.
 * The SQLite tables become three maps; the PDF text, page count and MD5 hash
 * are inputs.
 */
module CourseIndexer {
  import opened Wrappers
  import opened Text
  import Paths
  import Chunker

  // ---------------------------------------------------------------------
  // document ids

  /** `_generate_doc_id`: `UPPER(parts[-3])_parts[-2]_stem` with spaces turned
      into '_'. A path of fewer than three parts raises `IndexError` (None). */
  function GenerateDocId(parts: seq<string>): (r: Option<string>)
    ensures r.None? <==> |parts| < 3
    ensures r.Some? ==> ' ' !in r.value
    ensures r.Some? ==> |r.value| == |parts[|parts| - 3]| + |parts[|parts| - 2]| + |Paths.Stem(parts[|parts| - 1])| + 2
    ensures r.Some? ==>
              var a, b, c := parts[|parts| - 3], parts[|parts| - 2], Paths.Stem(parts[|parts| - 1]);
              && r.value[..|a|] == ReplaceChar(Upper(a), ' ', '_')
              && r.value[|a|] == '_'
              && r.value[|a| + 1..|a| + 1 + |b|] == ReplaceChar(b, ' ', '_')
              && r.value[|a| + 1 + |b|] == '_'
              && r.value[|a| + 2 + |b|..] == ReplaceChar(c, ' ', '_')
  {
    if |parts| < 3 then None
    else
      var n := |parts|;
      var r := ReplaceChar(Upper(parts[n - 3]) + "_" + parts[n - 2] + "_" + Paths.Stem(parts[n - 1]), ' ', '_');
      DocIdShape(parts, r);
      Some(r)
  }

  /** The shape of a document id: its three parts, spaces replaced, joined by '_'. */
  lemma DocIdShape(parts: seq<string>, r: string)
    requires |parts| >= 3
    requires var n := |parts|;
      r == ReplaceChar(Upper(parts[n - 3]) + "_" + parts[n - 2] + "_" + Paths.Stem(parts[n - 1]), ' ', '_')
    ensures ' ' !in r
    ensures |r| == |parts[|parts| - 3]| + |parts[|parts| - 2]| + |Paths.Stem(parts[|parts| - 1])| + 2
    ensures var a, b, c := parts[|parts| - 3], parts[|parts| - 2], Paths.Stem(parts[|parts| - 1]);
            && r[..|a|] == ReplaceChar(Upper(a), ' ', '_')
            && r[|a|] == '_'
            && r[|a| + 1..|a| + 1 + |b|] == ReplaceChar(b, ' ', '_')
            && r[|a| + 1 + |b|] == '_'
            && r[|a| + 2 + |b|..] == ReplaceChar(c, ' ', '_')
  {
    var n := |parts|;
    var a, b, c := parts[n - 3], parts[n - 2], Paths.Stem(parts[n - 1]);
    var u := Upper(a);
    assert |u| == |a|;
    ReplaceCharSplit(u, b, c, ' ', '_');
  }

  /** Replacing a character in `a_b_c` replaces it in each part and keeps the
      two separators. */
  lemma ReplaceCharSplit(a: string, b: string, c: string, x: char, y: char)
    requires x != '_' && y == '_'
    ensures var r := ReplaceChar(a + "_" + b + "_" + c, x, y);
      && r[..|a|] == ReplaceChar(a, x, y)
      && r[|a|] == '_'
      && r[|a| + 1..|a| + 1 + |b|] == ReplaceChar(b, x, y)
      && r[|a| + 1 + |b|] == '_'
      && r[|a| + 2 + |b|..] == ReplaceChar(c, x, y)
  {
    var s := a + "_" + b + "_" + c;
    assert s[..|a|] == a && s[|a|] == '_';
    assert s[|a| + 1..|a| + 1 + |b|] == b && s[|a| + 1 + |b|] == '_';
    assert s[|a| + 2 + |b|..] == c;
    ReplaceCharSlice(s, x, y, 0, |a|);
    ReplaceCharSlice(s, x, y, |a| + 1, |a| + 1 + |b|);
    ReplaceCharSlice(s, x, y, |a| + 2 + |b|, |s|);
  }

  /** Replacing a character commutes with taking a slice. */
  lemma ReplaceCharSlice(s: string, x: char, y: char, i: nat, j: nat)
    requires i <= j <= |s|
    ensures ReplaceChar(s, x, y)[i..j] == ReplaceChar(s[i..j], x, y)
  {
  }

  /** Only the last three parts of the path matter: the id does not depend on
      where the course directory itself lives. */
  lemma DocIdIgnoresPrefix(prefix: seq<string>, parts: seq<string>)
    requires |parts| >= 3
    ensures GenerateDocId(prefix + parts) == GenerateDocId(parts)
  {
    var q := prefix + parts;
    assert q[|q| - 3..] == parts[|parts| - 3..];
    assert q[|q| - 3] == parts[|parts| - 3] && q[|q| - 2] == parts[|parts| - 2] && q[|q| - 1] == parts[|parts| - 1];
  }

  /** For a PDF nested one directory below its category, the id is built from
      the category and that sub-directory, not from the level directory. */
  lemma NestedDocId()
    ensures GenerateDocId(["data", "m1", "stats", "tp", "a.pdf"]) == Some("STATS_tp_a")
  {
    var parts := ["data", "m1", "stats", "tp", "a.pdf"];
    Paths.StemOfExtension("a", "pdf");
    assert "a" + "." + "pdf" == "a.pdf";
    assert Paths.Stem(parts[4]) == "a";
    assert Upper(parts[2]) == "STATS";
    var joined := "STATS" + "_" + "tp" + "_" + "a";
    assert joined == "STATS_tp_a";
    assert ReplaceChar(joined, ' ', '_') == joined;
  }

  // ---------------------------------------------------------------------
  // title

  /** A line that looks like a title: 11 to 99 characters, and all-caps or
      containing one of the French/English course words. */
  predicate IsTitleLine(line: string) {
    var low := Lower(line);
    && 10 < |line| < 100
    && (|| IsUpperStr(line)
        || Contains(low, "chapitre") || Contains(low, "chapter")
        || Contains(low, "cours") || Contains(low, "introduction"))
  }

  /** The first line that is a title once stripped. */
  function FirstTitleLine(lines: seq<string>): (r: Option<string>)
    ensures r.None? <==> forall i :: 0 <= i < |lines| ==> !IsTitleLine(Strip(lines[i]))
    ensures r.Some? ==> exists i :: 0 <= i < |lines| && r.value == Strip(lines[i]) && IsTitleLine(r.value) &&
                                    forall j :: 0 <= j < i ==> !IsTitleLine(Strip(lines[j]))
  {
    if |lines| == 0 then None
    else if IsTitleLine(Strip(lines[0])) then Some(Strip(lines[0]))
    else
      var rest := FirstTitleLine(lines[1..]);
      assert forall i :: 0 < i < |lines| ==> lines[i] == lines[1..][i - 1];
      if rest.Some? then
        var i :| 0 <= i < |lines[1..]| && rest.value == Strip(lines[1..][i]) && IsTitleLine(rest.value) &&
                 forall j :: 0 <= j < i ==> !IsTitleLine(Strip(lines[1..][j]));
        assert forall j :: 0 <= j < i + 1 ==> !IsTitleLine(Strip(lines[j])) by {
          forall j | 0 <= j < i + 1 ensures !IsTitleLine(Strip(lines[j])) {
            if j > 0 { assert lines[j] == lines[1..][j - 1]; }
          }
        }
        rest
      else rest
  }

  /** The title made from the file name: '_' to ' ', ".pdf" removed, title case.
      It holds no underscore and is already in title case. */
  function FallbackTitle(filename: string): (r: string)
    ensures '_' !in r
    ensures Title(r) == r
  {
    var spaced := ReplaceChar(filename, '_', ' ');
    var r := Title(ReplaceAll(spaced, ".pdf", ""));
    UnderscoreFreeReplace(spaced, ".pdf", "");
    TitleIdempotent(ReplaceAll(spaced, ".pdf", ""));
    r
  }

  /** For the usual `<stem>.pdf` file name the title is the stem alone, its
      underscores turned into spaces, in title case. */
  lemma FallbackTitleOfPdf(stem: string)
    requires !Contains(stem, ".pdf")
    ensures FallbackTitle(stem + ".pdf") == Title(ReplaceChar(stem, '_', ' '))
  {
    var spaced := ReplaceChar(stem, '_', ' ');
    assert ReplaceChar(stem + ".pdf", '_', ' ') == spaced + ".pdf";
    ContainsReplaceChar(stem, '_', ' ', ".pdf");
    DropPdfSuffix(spaced);
  }

  /** A pattern free of both characters occurs after a one-character replace
      only where it already occurred. */
  lemma ContainsReplaceChar(s: string, a: char, b: char, pat: string)
    requires a !in pat && b !in pat
    ensures Contains(ReplaceChar(s, a, b), pat) ==> Contains(s, pat)
  {
    var r := ReplaceChar(s, a, b);
    if Contains(r, pat) {
      var i: nat :| i <= |r| - |pat| && OccursAt(r, pat, i);
      forall k | 0 <= k < |pat| ensures s[i + k] == pat[k] {
        assert r[i + k] == r[i..i + |pat|][k] == pat[k];
      }
      assert s[i..i + |pat|] == pat;
      assert OccursAt(s, pat, i);
    }
  }

  /** Removing ".pdf" from `s + ".pdf"` leaves `s` when `s` holds no ".pdf": the
      pattern cannot straddle the joint, since its first character, '.', does not
      occur again in it. */
  lemma {:induction false} DropPdfSuffix(s: string)
    requires !Contains(s, ".pdf")
    ensures ReplaceAll(s + ".pdf", ".pdf", "") == s
    decreases |s|
  {
    var t := s + ".pdf";
    if |s| == 0 {
      assert t[..4] == ".pdf" && t[4..] == "";
    } else {
      PdfNotAtFront(s);
      ContainsTail(s, ".pdf");
      DropPdfSuffix(s[1..]);
      assert t[1..] == s[1..] + ".pdf" && t[0] == s[0];
      ReplaceAllStep(t, ".pdf", "");
      assert [s[0]] + s[1..] == s;
    }
  }

  /** A non-empty `s` without ".pdf" does not start `s + ".pdf"` with ".pdf". */
  lemma PdfNotAtFront(s: string)
    requires |s| > 0 && !Contains(s, ".pdf")
    ensures (s + ".pdf")[..4] != ".pdf"
  {
    var t := s + ".pdf";
    if |s| >= 4 {
      assert t[..4] == s[..4];
      assert !OccursAt(s, ".pdf", 0);
    } else {
      assert t[|s|] == '.' && t[0] == s[0];
    }
  }

  /** Where the pattern does not start `s`, `replace` keeps the first character. */
  lemma ReplaceAllStep(s: string, pat: string, rep: string)
    requires |s| > 0 && |pat| > 0 && !(|pat| <= |s| && s[..|pat|] == pat)
    ensures ReplaceAll(s, pat, rep) == [s[0]] + ReplaceAll(s[1..], pat, rep)
  {
  }

  /** A pattern absent from `s` is absent from its tail. */
  lemma ContainsTail(s: string, pat: string)
    requires |s| > 0 && !Contains(s, pat)
    ensures !Contains(s[1..], pat)
  {
    if Contains(s[1..], pat) {
      var i: nat :| i <= |s[1..]| - |pat| && OccursAt(s[1..], pat, i);
      assert s[i + 1..i + 1 + |pat|] == s[1..][i..i + |pat|];
      assert OccursAt(s, pat, i + 1);
    }
  }

  lemma {:induction false} UnderscoreFreeReplace(s: string, pat: string, rep: string)
    requires |pat| > 0 && '_' !in s && '_' !in rep
    ensures '_' !in ReplaceAll(s, pat, rep)
    decreases |s|
  {
    if |s| > 0 {
      if |pat| <= |s| && s[..|pat|] == pat {
        UnderscoreFreeReplace(s[|pat|..], pat, rep);
      } else {
        UnderscoreFreeReplace(s[1..], pat, rep);
      }
    }
  }

  /** The title chosen from the candidate lines: the first that is title-like
      once stripped; only when none is does the file name serve. */
  function TitleFrom(lines: seq<string>, filename: string): (r: string)
    ensures || (exists i :: 0 <= i < |lines| && r == Strip(lines[i]) && IsTitleLine(r) &&
                            forall j :: 0 <= j < i ==> !IsTitleLine(Strip(lines[j])))
            || ((forall i :: 0 <= i < |lines| ==> !IsTitleLine(Strip(lines[i]))) && r == FallbackTitle(filename))
  {
    match FirstTitleLine(lines)
    case Some(line) => line
    case None => FallbackTitle(filename)
  }

  /** `_extract_title_from_content`: the candidates are the first twenty lines. */
  function ExtractTitle(content: string, filename: string): string {
    TitleFrom(Take(Split(content, '\n'), 20), filename)
  }

  /** A title-like first line is the title, whatever follows it. */
  lemma FirstLineTitle(line: string, rest: string, filename: string)
    requires '\n' !in line && IsTitleLine(Strip(line))
    ensures ExtractTitle(line + "\n" + rest, filename) == Strip(line)
  {
    var s := line + "\n" + rest;
    assert s[|line|] == '\n';
    assert forall j :: 0 <= j < |line| ==> s[j] == line[j];
    var i := Find(s, '\n');
    assert i == |line|;
    assert s[..i] == line;
    assert Split(s, '\n')[0] == line;
  }

  // ---------------------------------------------------------------------
  // metadata

  /** The 24 technical keywords searched for in a document. */
  const TechnicalKeywords: set<string> := {
    "regression", "classification", "clustering", "neural", "deep learning",
    "cnn", "rnn", "lstm", "transformer", "gradient", "optimization",
    "numpy", "pandas", "scikit-learn", "tensorflow", "pytorch",
    "supervised", "unsupervised", "reinforcement", "probability",
    "statistics", "variance", "covariance", "distribution"
  }

  /** An iteration order of the keyword set. Python's set order depends on the
      string hash seed, so the order is an input. */
  predicate IsKeywordOrder(order: seq<string>) {
    && (forall i :: 0 <= i < |order| ==> order[i] in TechnicalKeywords)
    && (forall i, j :: 0 <= i < j < |order| ==> order[i] != order[j])
    && (forall k :: k in TechnicalKeywords ==> k in order)
  }

  datatype Difficulty = Beginner | Intermediate | Advanced

  datatype Metadata = Metadata(keywords: seq<string>, topics: seq<string>, difficulty: Difficulty, duration: nat)

  /** The keywords of `order` occurring in `text`, in order. */
  function KeywordsIn(order: seq<string>, text: string): (r: seq<string>)
    ensures |r| <= |order|
    ensures forall k :: k in r <==> k in order && Contains(text, k)
    ensures (forall i, j :: 0 <= i < j < |order| ==> order[i] != order[j]) ==>
      forall a, b :: 0 <= a < b < |r| ==> r[a] != r[b]
  {
    if |order| == 0 then []
    else
      var rest := KeywordsIn(order[1..], text);
      if Contains(text, order[0]) then
        assert forall i :: 0 < i < |order| ==> order[i] == order[1..][i - 1];
        [order[0]] + rest
      else rest
  }

  predicate AnyIn(text: string, words: seq<string>) {
    exists i :: 0 <= i < |words| && Contains(text, words[i])
  }

  const DeepLearningWords: seq<string> := ["neural", "deep", "cnn", "rnn"]
  const MachineLearningWords: seq<string> := ["regression", "classification"]
  const PythonWords: seq<string> := ["numpy", "pandas", "python"]
  const StatisticsWords: seq<string> := ["probability", "statistics"]

  /** The four topic names in the order `_extract_topics` tests them. */
  const TopicOrder: seq<string> := ["Deep Learning", "Machine Learning", "Python", "Statistics"]

  function TopicIf(cond: bool, name: string): seq<string> {
    if cond then [name] else []
  }

  /** The topic list: each topic whose trigger words occur, in the fixed order,
      or `["General"]` when none does. */
  function Topics(lowered: string): (r: seq<string>)
    ensures |r| >= 1
    ensures "Deep Learning" in r <==> AnyIn(lowered, DeepLearningWords)
    ensures "Machine Learning" in r <==> AnyIn(lowered, MachineLearningWords)
    ensures "Python" in r <==> AnyIn(lowered, PythonWords)
    ensures "Statistics" in r <==> AnyIn(lowered, StatisticsWords)
    ensures r == ["General"] <==> !AnyIn(lowered, DeepLearningWords) && !AnyIn(lowered, MachineLearningWords) &&
                                  !AnyIn(lowered, PythonWords) && !AnyIn(lowered, StatisticsWords)
    ensures r != ["General"] ==> forall i :: 0 <= i < |r| ==> r[i] in TopicOrder
  {
    var found := TopicIf(AnyIn(lowered, DeepLearningWords), "Deep Learning")
      + TopicIf(AnyIn(lowered, MachineLearningWords), "Machine Learning")
      + TopicIf(AnyIn(lowered, PythonWords), "Python")
      + TopicIf(AnyIn(lowered, StatisticsWords), "Statistics");
    if |found| == 0 then ["General"] else found
  }

  /** The difficulty estimate: an "advanced" title or an "expert" in the first
      500 characters wins over an "introduction" title or "basics". */
  function EstimateDifficulty(content: string, title: string): (d: Difficulty)
    ensures d == Advanced <==> Contains(Lower(title), "advanced") || Contains(Take(Lower(content), 500), "expert")
    ensures d == Beginner <==> d != Advanced && (Contains(Lower(title), "introduction") || Contains(Take(Lower(content), 500), "basics"))
  {
    var head := Take(Lower(content), 500);
    if Contains(Lower(title), "advanced") || Contains(head, "expert") then Advanced
    else if Contains(Lower(title), "introduction") || Contains(head, "basics") then Beginner
    else Intermediate
  }

  /** Reading time at 250 words a minute, never under 10 minutes. */
  function EstimateDuration(content: string): (m: nat)
    ensures m >= 10
    ensures WordCount(content) < 2750 ==> m == 10
    ensures WordCount(content) >= 2500 ==> m * 250 <= WordCount(content) < (m + 1) * 250
  {
    var w := WordCount(content) / 250;
    if w < 10 then 10 else w
  }

  /** The first ten keywords found: only words of the fixed list that occur in the
      text, none twice, and all of them when fewer than ten are kept. */
  function TopKeywords(order: seq<string>, text: string): (r: seq<string>)
    requires IsKeywordOrder(order)
    ensures |r| <= 10
    ensures forall k :: k in r ==> k in TechnicalKeywords && Contains(text, k)
    ensures forall a, b :: 0 <= a < b < |r| ==> r[a] != r[b]
    ensures |r| < 10 ==> forall k :: k in TechnicalKeywords && Contains(text, k) ==> k in r
  {
    var found := KeywordsIn(order, text);
    var kept := Take(found, 10);
    assert forall k :: k in kept ==> k in found by {
      forall k | k in kept ensures k in found {
        var i :| 0 <= i < |kept| && kept[i] == k;
        assert found[i] == k;
      }
    }
    kept
  }

  /** `_extract_metadata`. */
  function ExtractMetadata(content: string, title: string, order: seq<string>): (r: Metadata)
    requires IsKeywordOrder(order)
    ensures |r.keywords| <= 10
    ensures forall k :: k in r.keywords ==> k in TechnicalKeywords && Contains(Lower(content), k)
    ensures forall a, b :: 0 <= a < b < |r.keywords| ==> r.keywords[a] != r.keywords[b]
    ensures |r.keywords| < 10 ==> forall k :: k in TechnicalKeywords && Contains(Lower(content), k) ==> k in r.keywords
    ensures r.topics == Topics(Lower(content))
    ensures r.difficulty == EstimateDifficulty(content, title)
    ensures r.duration == EstimateDuration(content)
  {
    Metadata(TopKeywords(order, Lower(content)), Topics(Lower(content)), EstimateDifficulty(content, title),
             EstimateDuration(content))
  }

  // ---------------------------------------------------------------------
  // catalog

  /** A row of the `documents` table (its key, the doc id, is the map key). */
  datatype DocRecord = DocRecord(
    filePath: string, level: string, category: string, filename: string,
    hash: string, pageCount: nat, title: string)

  /** A row of the `document_chunks` table (its key, the chunk id, is the map key). */
  datatype ChunkRow = ChunkRow(docId: string, index: nat, content: string, page: nat)

  /** The three tables of the index database. */
  datatype Catalog = Catalog(
    docs: map<string, DocRecord>,
    chunks: map<string, ChunkRow>,
    meta: map<string, Metadata>)

  const EmptyCatalog := Catalog(map[], map[], map[])

  /** `f"{doc_id}_chunk_{i}"` */
  function ChunkId(docId: string, i: nat): (r: string)
    ensures |r| > |docId| + 7
  {
    docId + "_chunk_" + NatToString(i)
  }

  /** Different (document, position) pairs never share a chunk id: the digits
      after the last '_' give back the position, what precedes "_chunk_" the document. */
  lemma ChunkIdInjective(d1: string, i1: nat, d2: string, i2: nat)
    requires ChunkId(d1, i1) == ChunkId(d2, i2)
    ensures d1 == d2 && i1 == i2
  {
    ChunkIdParts(d1, i1);
    ChunkIdParts(d2, i2);
    NatToStringInjective(i1, i2);
  }

  /** A chunk id splits at its last '_' into the document's part and the position's digits. */
  lemma ChunkIdParts(d: string, i: nat)
    ensures var s := ChunkId(d, i);
      && RFind(s, '_') == |d| + 6
      && s[..|d|] == d
      && s[|d| + 7..] == NatToString(i)
  {
    var n := NatToString(i);
    var s := ChunkId(d, i);
    assert s == (d + "_chunk") + ['_'] + n;
    LastUnderscore(d + "_chunk", n);
  }

  lemma LastUnderscore(a: string, digits: string)
    requires forall i :: 0 <= i < |digits| ==> IsDigit(digits[i])
    ensures RFind(a + ['_'] + digits, '_') == |a|
  {
    var p := a + ['_'];
    var s := p + digits;
    assert s[|a|] == p[|a|] == '_';
    forall j | |p| <= j < |s| ensures s[j] != '_' {
      assert s[j] == digits[j - |p|];
      assert IsDigit(digits[j - |p|]);
    }
    RFindAt(s, '_', |a|);
  }

  /** Catalog invariant: every chunk row sits under the id made from its own
      document and position. */
  predicate WellFormed(cat: Catalog) {
    forall k :: k in cat.chunks ==> k == ChunkId(cat.chunks[k].docId, cat.chunks[k].index)
  }

  /** The rows of `chunks` that do not belong to `docId`
      (`DELETE FROM document_chunks WHERE doc_id = ?`). */
  function DeleteChunks(chunks: map<string, ChunkRow>, docId: string): (r: map<string, ChunkRow>)
    ensures forall k :: k in r <==> k in chunks && chunks[k].docId != docId
    ensures forall k :: k in r ==> r[k] == chunks[k]
  {
    map k | k in chunks && chunks[k].docId != docId :: chunks[k]
  }

  /** Some new chunk id is already taken by a row left after the delete: the
      plain `INSERT` then fails on the primary key. */
  predicate InsertCollides(remaining: map<string, ChunkRow>, docId: string, n: nat) {
    exists i :: 0 <= i < n && ChunkId(docId, i) in remaining
  }

  /** In a well-formed catalog, the rows left after deleting a document's
      chunks never hold one of its new chunk ids. */
  lemma NoCollision(cat: Catalog, docId: string, n: nat)
    requires WellFormed(cat)
    ensures !InsertCollides(DeleteChunks(cat.chunks, docId), docId, n)
  {
    var remaining := DeleteChunks(cat.chunks, docId);
    forall i | 0 <= i < n ensures ChunkId(docId, i) !in remaining {
      var k := ChunkId(docId, i);
      if k in remaining {
        ChunkIdInjective(cat.chunks[k].docId, cat.chunks[k].index, docId, i);
      }
    }
  }

  /** The inserted rows `(chunk_id, doc_id, i, text, page)`. */
  function ChunkRows(docId: string, chunks: seq<Chunker.Chunk>): (r: map<string, ChunkRow>)
    ensures forall i :: 0 <= i < |chunks| ==>
              ChunkId(docId, i) in r && r[ChunkId(docId, i)] == ChunkRow(docId, i, chunks[i].text, chunks[i].page)
    ensures forall k :: k in r ==> exists i :: 0 <= i < |chunks| && k == ChunkId(docId, i)
  {
    ChunkIdsDistinct(docId);
    map i | 0 <= i < |chunks| :: ChunkId(docId, i) := ChunkRow(docId, i, chunks[i].text, chunks[i].page)
  }

  lemma ChunkIdsDistinct(docId: string)
    ensures forall i: nat, j: nat :: ChunkId(docId, i) == ChunkId(docId, j) ==> i == j
  {
    forall i: nat, j: nat | ChunkId(docId, i) == ChunkId(docId, j) ensures i == j {
      ChunkIdInjective(docId, i, docId, j);
    }
  }

  // ---------------------------------------------------------------------
  // indexing one document

  datatype Extraction = Extraction(text: string, pageCount: nat)

  /** A PDF found by the scan: its path parts, its path relative to the parent
      of the course directory, its MD5 hash (None when the file cannot be read)
      and the PDF reader's output (None when the reader fails). */
  datatype PdfFile = PdfFile(parts: seq<string>, relPath: string, hash: Option<string>, extraction: Option<Extraction>)

  datatype Outcome = New | Updated | Unchanged

  /** The exceptions `_index_document` can raise; none of them commits anything. */
  datatype IndexError = UnreadableFile | NoDocId | ExtractionFailed | DuplicateChunkId

  /** Deleting a document's chunks and inserting new ones: afterwards its
      chunks are exactly the new list under ids `doc_id_chunk_i`, and every
      other document's chunks are as before. */
  lemma ReplaceChunksEffects(cat: Catalog, docId: string, chunks: seq<Chunker.Chunk>)
    requires WellFormed(cat)
    ensures var after := DeleteChunks(cat.chunks, docId) + ChunkRows(docId, chunks);
      && (forall i :: 0 <= i < |chunks| ==>
            ChunkId(docId, i) in after && after[ChunkId(docId, i)] == ChunkRow(docId, i, chunks[i].text, chunks[i].page))
      && (forall k :: k in after && after[k].docId == docId ==> exists i :: 0 <= i < |chunks| && k == ChunkId(docId, i))
      && (forall k :: k in cat.chunks && cat.chunks[k].docId != docId ==> k in after && after[k] == cat.chunks[k])
      && (forall k :: k in after && after[k].docId != docId ==> k in cat.chunks && after[k] == cat.chunks[k])
  {
    var remaining := DeleteChunks(cat.chunks, docId);
    var rows := ChunkRows(docId, chunks);
    var after := remaining + rows;
    NoCollision(cat, docId, |chunks|);
    forall k | k in rows ensures rows[k].docId == docId && k !in remaining {
      var i :| 0 <= i < |chunks| && k == ChunkId(docId, i);
    }
    forall k | k in after && after[k].docId == docId ensures exists i :: 0 <= i < |chunks| && k == ChunkId(docId, i) {
      assert k in rows;
    }
    forall k | k in after && after[k].docId != docId ensures k in cat.chunks && after[k] == cat.chunks[k] {
      assert k !in rows;
    }
  }

  /** The writes of `_index_document` once it has decided to (re)index `docId`
      with document row `rec` and extracted text `text`: `INSERT OR REPLACE` of
      the row and of the metadata, `DELETE` of the document's chunks, then a
      plain `INSERT` of each new chunk, which fails on a taken chunk id. */
  function WriteDocument(cat: Catalog, docId: string, rec: DocRecord, text: string, order: seq<string>)
    : (r: Result<Catalog, IndexError>)
    requires IsKeywordOrder(order)
    ensures WellFormed(cat) ==> r.Ok? && WellFormed(r.value)
    ensures r.Err? ==> r.error == DuplicateChunkId
  {
    var chunks := Chunker.CreateTextChunks(text, Chunker.DefaultChunkSize, Chunker.DefaultOverlap);
    var remaining := DeleteChunks(cat.chunks, docId);
    if InsertCollides(remaining, docId, |chunks|) then
      if WellFormed(cat) then NoCollision(cat, docId, |chunks|); Err(DuplicateChunkId)
      else Err(DuplicateChunkId)
    else
      var meta := ExtractMetadata(text, rec.title, order);
      ReindexedWellFormed(cat, docId, rec, chunks, meta);
      Ok(Reindexed(cat, docId, rec, chunks, meta))
  }

  /** The catalog after the writes. */
  function Reindexed(cat: Catalog, docId: string, rec: DocRecord, chunks: seq<Chunker.Chunk>, meta: Metadata): Catalog {
    Catalog(cat.docs[docId := rec], DeleteChunks(cat.chunks, docId) + ChunkRows(docId, chunks), cat.meta[docId := meta])
  }

  lemma ReindexedWellFormed(cat: Catalog, docId: string, rec: DocRecord, chunks: seq<Chunker.Chunk>, meta: Metadata)
    ensures WellFormed(cat) ==> WellFormed(Reindexed(cat, docId, rec, chunks, meta))
  {
    var rows := ChunkRows(docId, chunks);
    forall k | k in rows ensures k == ChunkId(rows[k].docId, rows[k].index) {
      var i :| 0 <= i < |chunks| && k == ChunkId(docId, i);
    }
  }

  /** The writes put the new row and the metadata of the text under the document's
      id; every other document's row and metadata stay as they were. */
  lemma WriteDocumentRows(cat: Catalog, docId: string, rec: DocRecord, text: string, order: seq<string>)
    requires IsKeywordOrder(order) && WriteDocument(cat, docId, rec, text, order).Ok?
    ensures WriteDocument(cat, docId, rec, text, order).value.docs == cat.docs[docId := rec]
    ensures WriteDocument(cat, docId, rec, text, order).value.meta == cat.meta[docId := ExtractMetadata(text, rec.title, order)]
  {
    var chunks := Chunker.CreateTextChunks(text, Chunker.DefaultChunkSize, Chunker.DefaultOverlap);
    assert !InsertCollides(DeleteChunks(cat.chunks, docId), docId, |chunks|);
    var meta := ExtractMetadata(text, rec.title, order);
    assert WriteDocument(cat, docId, rec, text, order) == Ok(Reindexed(cat, docId, rec, chunks, meta));
  }

  /** The writes leave the chunk rows of any other document `d` alone, whether or
      not the catalog is well formed: a successful insert collides with no row
      that survives the delete. */
  lemma WriteDocumentOtherChunks(cat: Catalog, docId: string, rec: DocRecord, text: string, order: seq<string>, d: string)
    requires IsKeywordOrder(order) && WriteDocument(cat, docId, rec, text, order).Ok? && d != docId
    ensures var after := WriteDocument(cat, docId, rec, text, order).value.chunks;
      && (forall k :: k in cat.chunks && cat.chunks[k].docId == d ==> k in after && after[k] == cat.chunks[k])
      && (forall k :: k in after && after[k].docId == d ==> k in cat.chunks && after[k] == cat.chunks[k])
  {
    var chunks := Chunker.CreateTextChunks(text, Chunker.DefaultChunkSize, Chunker.DefaultOverlap);
    var remaining := DeleteChunks(cat.chunks, docId);
    var rows := ChunkRows(docId, chunks);
    assert !InsertCollides(remaining, docId, |chunks|);
    var meta := ExtractMetadata(text, rec.title, order);
    assert WriteDocument(cat, docId, rec, text, order) == Ok(Reindexed(cat, docId, rec, chunks, meta));
    forall k | k in rows ensures rows[k].docId == docId && k !in remaining {
      var i :| 0 <= i < |chunks| && k == ChunkId(docId, i);
    }
  }

  /** The writes replace the document's chunks by exactly the chunks of the text,
      under ids `doc_id_chunk_i` in order, and leave every other document's
      chunks as they were. */
  lemma WriteDocumentChunks(cat: Catalog, docId: string, rec: DocRecord, text: string, order: seq<string>)
    requires IsKeywordOrder(order) && WellFormed(cat)
    ensures var after := WriteDocument(cat, docId, rec, text, order).value.chunks;
      var chunks := Chunker.CreateTextChunks(text, Chunker.DefaultChunkSize, Chunker.DefaultOverlap);
      && (forall i :: 0 <= i < |chunks| ==>
            ChunkId(docId, i) in after && after[ChunkId(docId, i)] == ChunkRow(docId, i, chunks[i].text, 0))
      && (forall k :: k in after && after[k].docId == docId ==> exists i :: 0 <= i < |chunks| && k == ChunkId(docId, i))
      && (forall k :: k in cat.chunks && cat.chunks[k].docId != docId ==> k in after && after[k] == cat.chunks[k])
      && (forall k :: k in after && after[k].docId != docId ==> k in cat.chunks && after[k] == cat.chunks[k])
  {
    var chunks := Chunker.CreateTextChunks(text, Chunker.DefaultChunkSize, Chunker.DefaultOverlap);
    NoCollision(cat, docId, |chunks|);
    ReplaceChunksEffects(cat, docId, chunks);
  }

  /** The document row `_index_document` writes for a file. */
  function RowFor(f: PdfFile, x: Extraction, level: string, category: string): DocRecord
    requires |f.parts| >= 1 && f.hash.Some?
  {
    var filename := f.parts[|f.parts| - 1];
    DocRecord(f.relPath, level, category, filename, f.hash.value, x.pageCount, ExtractTitle(x.text, filename))
  }

  /** `_index_document`: 'unchanged', writing nothing, exactly when the stored
      hash is the file's hash; otherwise the writes above, reporting 'new' when
      no row existed and 'updated' when one did. Every exception leaves the
      catalog as it was. */
  function IndexDocument(cat: Catalog, f: PdfFile, level: string, category: string, order: seq<string>)
    : (r: Result<(Catalog, Outcome), IndexError>)
    requires IsKeywordOrder(order)
    ensures r.Ok? ==> f.hash.Some? && GenerateDocId(f.parts).Some?
    ensures r.Ok? ==> var docId := GenerateDocId(f.parts).value;
      && (r.value.1 == Unchanged <==> docId in cat.docs && cat.docs[docId].hash == f.hash.value)
      && (r.value.1 == New <==> docId !in cat.docs)
    ensures r.Ok? && r.value.1 == Unchanged ==> r.value.0 == cat
    ensures r.Ok? && r.value.1 != Unchanged ==>
              && f.extraction.Some? && |f.parts| >= 3
              && Ok(r.value.0) == WriteDocument(cat, GenerateDocId(f.parts).value,
                                                RowFor(f, f.extraction.value, level, category), f.extraction.value.text, order)
    ensures r.Err? ==> r.error == DuplicateChunkId || f.hash.None? || GenerateDocId(f.parts).None? || f.extraction.None?
    ensures WellFormed(cat) ==> r.Err? ==> r.error != DuplicateChunkId
    ensures r.Ok? && WellFormed(cat) ==> WellFormed(r.value.0)
  {
    if f.hash.None? then Err(UnreadableFile)
    else match GenerateDocId(f.parts)
      case None => Err(NoDocId)
      case Some(docId) =>
        if docId in cat.docs && cat.docs[docId].hash == f.hash.value then Ok((cat, Unchanged))
        else match f.extraction
          case None => Err(ExtractionFailed)
          case Some(x) =>
            match WriteDocument(cat, docId, RowFor(f, x, level, category), x.text, order)
            case Err(e) => Err(e)
            case Ok(cat') => Ok((cat', if docId in cat.docs then Updated else New))
  }

  /** Indexing the same file again right after a successful index finds it unchanged. */
  lemma ReindexIdempotent(cat: Catalog, f: PdfFile, level: string, category: string, order: seq<string>,
                          level2: string, category2: string)
    requires IsKeywordOrder(order)
    requires IndexDocument(cat, f, level, category, order).Ok?
    ensures var cat' := IndexDocument(cat, f, level, category, order).value.0;
      IndexDocument(cat', f, level2, category2, order) == Ok((cat', Unchanged))
  {
    var cat' := IndexDocument(cat, f, level, category, order).value.0;
    var docId := GenerateDocId(f.parts).value;
    IndexDocumentStores(cat, f, level, category, order);
    assert docId in cat'.docs && cat'.docs[docId].hash == f.hash.value;
  }

  // ---------------------------------------------------------------------
  // scanning

  /** The counters of `scan_and_index_all`; files found unchanged count only in the total. */
  datatype Stats = Stats(totalFiles: nat, newIndexed: nat, updated: nat, errors: nat) {
    function Plus(other: Stats): Stats {
      Stats(totalFiles + other.totalFiles, newIndexed + other.newIndexed, updated + other.updated, errors + other.errors)
    }
  }

  const NoStats := Stats(0, 0, 0, 0)

  /** A PDF found under a category directory. */
  datatype FoundFile = FoundFile(category: string, file: PdfFile)

  /** The counters one file contributes. */
  function StepStats(r: Result<(Catalog, Outcome), IndexError>): (s: Stats)
    ensures s.totalFiles == 1 && s.newIndexed + s.updated + s.errors <= 1
    ensures s.errors == 1 <==> r.Err?
    ensures s.newIndexed == 1 <==> r.Ok? && r.value.1 == New
    ensures s.updated == 1 <==> r.Ok? && r.value.1 == Updated
  {
    match r
    case Err(_) => Stats(1, 0, 0, 1)
    case Ok((_, o)) => Stats(1, if o == New then 1 else 0, if o == Updated then 1 else 0, 0)
  }

  /** How one file is indexed against a catalog. */
  type IndexStep = (Catalog, FoundFile) -> Result<(Catalog, Outcome), IndexError>

  /** `_index_document` with a fixed level, as the scan calls it for each file. */
  function IndexAt(level: string, order: seq<string>): IndexStep
    requires IsKeywordOrder(order)
  {
    (c: Catalog, f: FoundFile) => IndexDocument(c, f.file, level, f.category, order)
  }

  /** The catalog after one step: an exception leaves it as it was. */
  function After(cat: Catalog, r: Result<(Catalog, Outcome), IndexError>): Catalog {
    if r.Ok? then r.value.0 else cat
  }

  /** Indexing a list of files in order, counting outcomes. */
  function IndexAll(cat: Catalog, files: seq<FoundFile>, step: IndexStep): (r: (Catalog, Stats))
    ensures r.1.totalFiles == |files|
    ensures r.1.newIndexed + r.1.updated + r.1.errors <= r.1.totalFiles
    decreases |files|
  {
    if |files| == 0 then (cat, NoStats)
    else
      var res := step(cat, files[0]);
      var rest := IndexAll(After(cat, res), files[1..], step);
      (rest.0, StepStats(res).Plus(rest.1))
  }

  /** `scan_and_index_all`: the files under `m1/` with level "M1", then those
      under `m2/` with level "M2" (a missing level directory contributes none). */
  function ScanAndIndexAll(cat: Catalog, m1Files: seq<FoundFile>, m2Files: seq<FoundFile>, order: seq<string>)
    : (r: (Catalog, Stats))
    requires IsKeywordOrder(order)
    ensures r.1.totalFiles == |m1Files| + |m2Files|
    ensures r.1.newIndexed + r.1.updated + r.1.errors <= r.1.totalFiles
  {
    var a := IndexAll(cat, m1Files, IndexAt("M1", order));
    var b := IndexAll(a.0, m2Files, IndexAt("M2", order));
    (b.0, a.1.Plus(b.1))
  }

  /** Splitting the file list splits the scan: the counters add up. */
  lemma {:induction false} IndexAllAppend(cat: Catalog, a: seq<FoundFile>, b: seq<FoundFile>, step: IndexStep)
    ensures var ra := IndexAll(cat, a, step);
      var rb := IndexAll(ra.0, b, step);
      IndexAll(cat, a + b, step) == (rb.0, ra.1.Plus(rb.1))
    decreases |a|
  {
    if |a| == 0 {
      assert a + b == b;
      var rb := IndexAll(cat, b, step);
      assert IndexAll(cat, a, step) == (cat, NoStats);
      assert NoStats.Plus(rb.1) == rb.1;
    } else {
      var ab := a + b;
      assert ab[0] == a[0] && ab[1..] == a[1..] + b;
      var s0 := StepStats(step(cat, a[0]));
      var next := After(cat, step(cat, a[0]));
      IndexAllAppend(next, a[1..], b, step);
      var ra' := IndexAll(next, a[1..], step);
      var rb := IndexAll(ra'.0, b, step);
      IndexAllCons(cat, a, step);
      IndexAllCons(cat, ab, step);
      var ra := IndexAll(cat, a, step);
      assert ra == (ra'.0, s0.Plus(ra'.1));
      assert IndexAll(ra.0, b, step) == rb;
      PlusAssociative(s0, ra'.1, rb.1);
      assert IndexAll(cat, ab, step) == (rb.0, ra.1.Plus(rb.1));
    }
  }

  lemma PlusAssociative(x: Stats, y: Stats, z: Stats)
    ensures x.Plus(y.Plus(z)) == x.Plus(y).Plus(z)
  {
  }

  /** One step of the scan: the first file's counters, then the rest's. */
  lemma IndexAllCons(cat: Catalog, files: seq<FoundFile>, step: IndexStep)
    requires |files| > 0
    ensures var rest := IndexAll(After(cat, step(cat, files[0])), files[1..], step);
      IndexAll(cat, files, step) == (rest.0, StepStats(step(cat, files[0])).Plus(rest.1))
  {
  }

  /** The properties of one indexing step the scan lemmas rely on. */
  ghost predicate KeepsWellFormed(step: IndexStep) {
    forall c, f :: WellFormed(c) && step(c, f).Ok? ==> WellFormed(step(c, f).value.0)
  }

  /** A step leaves the rows of other ids alone. */
  ghost predicate Frames(step: IndexStep) {
    forall c, f, d :: step(c, f).Ok? && GenerateDocId(f.file.parts) != Some(d) ==>
      (d in step(c, f).value.0.docs <==> d in c.docs) && (d in c.docs ==> step(c, f).value.0.docs[d] == c.docs[d])
  }

  /** A successful step stores the file's hash under its id. */
  ghost predicate Stores(step: IndexStep) {
    forall c, f :: step(c, f).Ok? ==> Stored(step(c, f).value.0, f)
  }

  /** A step finds a file whose hash is stored unchanged. */
  ghost predicate SkipsStored(step: IndexStep) {
    forall c, f :: Stored(c, f) ==> step(c, f) == Ok((c, Unchanged))
  }

  /** The file's hash is the one stored under its id. */
  predicate Stored(cat: Catalog, f: FoundFile) {
    && f.file.hash.Some?
    && GenerateDocId(f.file.parts).Some?
    && GenerateDocId(f.file.parts).value in cat.docs
    && cat.docs[GenerateDocId(f.file.parts).value].hash == f.file.hash.value
  }

  /** Ids of a file list are pairwise different. */
  predicate DistinctIds(files: seq<FoundFile>) {
    forall i, j :: 0 <= i < j < |files| ==> GenerateDocId(files[i].file.parts) != GenerateDocId(files[j].file.parts)
  }

  /** `_index_document` has all four properties. */
  lemma IndexAtProperties(level: string, order: seq<string>)
    requires IsKeywordOrder(order)
    ensures KeepsWellFormed(IndexAt(level, order))
    ensures Frames(IndexAt(level, order))
    ensures Stores(IndexAt(level, order))
    ensures SkipsStored(IndexAt(level, order))
  {
    var step := IndexAt(level, order);
    forall c, f, d | step(c, f).Ok? && GenerateDocId(f.file.parts) != Some(d)
      ensures (d in step(c, f).value.0.docs <==> d in c.docs) && (d in c.docs ==> step(c, f).value.0.docs[d] == c.docs[d])
    {
      IndexDocumentFrame(c, f.file, level, f.category, order, d);
    }
    forall c, f | step(c, f).Ok? ensures Stored(step(c, f).value.0, f) {
      IndexDocumentStores(c, f.file, level, f.category, order);
    }
  }

  /** Every step keeps the catalog invariant, so the whole scan does. */
  lemma {:induction false} IndexAllWellFormed(cat: Catalog, files: seq<FoundFile>, step: IndexStep)
    requires KeepsWellFormed(step) && WellFormed(cat)
    ensures WellFormed(IndexAll(cat, files, step).0)
    decreases |files|
  {
    if |files| > 0 {
      IndexAllWellFormed(After(cat, step(cat, files[0])), files[1..], step);
    }
  }

  /** A file whose id is not `d` leaves the row of `d` alone. */
  lemma IndexDocumentFrame(cat: Catalog, f: PdfFile, level: string, category: string, order: seq<string>, d: string)
    requires IsKeywordOrder(order) && GenerateDocId(f.parts) != Some(d)
    requires IndexDocument(cat, f, level, category, order).Ok?
    ensures var c' := IndexDocument(cat, f, level, category, order).value.0;
      && (d in c'.docs <==> d in cat.docs) && (d in cat.docs ==> c'.docs[d] == cat.docs[d])
      && (d in c'.meta <==> d in cat.meta) && (d in cat.meta ==> c'.meta[d] == cat.meta[d])
      && (forall k :: k in cat.chunks && cat.chunks[k].docId == d ==> k in c'.chunks && c'.chunks[k] == cat.chunks[k])
      && (forall k :: k in c'.chunks && c'.chunks[k].docId == d ==> k in cat.chunks && c'.chunks[k] == cat.chunks[k])
  {
    var r := IndexDocument(cat, f, level, category, order);
    if r.value.1 != Unchanged {
      var x := f.extraction.value;
      var id := GenerateDocId(f.parts).value;
      WriteDocumentRows(cat, id, RowFor(f, x, level, category), x.text, order);
      WriteDocumentOtherChunks(cat, id, RowFor(f, x, level, category), x.text, order, d);
    }
  }

  /** A successful index leaves the file's hash stored under its id. */
  lemma IndexDocumentStores(cat: Catalog, f: PdfFile, level: string, category: string, order: seq<string>)
    requires IsKeywordOrder(order)
    requires IndexDocument(cat, f, level, category, order).Ok?
    ensures var c' := IndexDocument(cat, f, level, category, order).value.0;
      var d := GenerateDocId(f.parts).value;
      d in c'.docs && c'.docs[d].hash == f.hash.value
  {
    var r := IndexDocument(cat, f, level, category, order);
    if r.value.1 != Unchanged {
      var x := f.extraction.value;
      WriteDocumentRows(cat, GenerateDocId(f.parts).value, RowFor(f, x, level, category), x.text, order);
    }
  }

  /** Files with other ids leave the row of `d` alone, failed steps included. */
  lemma {:induction false} IndexAllFrame(cat: Catalog, files: seq<FoundFile>, step: IndexStep, d: string)
    requires Frames(step)
    requires forall i :: 0 <= i < |files| ==> GenerateDocId(files[i].file.parts) != Some(d)
    ensures var c' := IndexAll(cat, files, step).0;
      (d in c'.docs <==> d in cat.docs) && (d in cat.docs ==> c'.docs[d] == cat.docs[d])
    decreases |files|
  {
    if |files| > 0 {
      var res := step(cat, files[0]);
      assert forall i :: 0 <= i < |files| - 1 ==> files[1..][i] == files[i + 1];
      IndexAllFrame(After(cat, res), files[1..], step, d);
    }
  }

  /** A scan without errors over files with distinct ids stores every file's hash. */
  lemma {:induction false} IndexAllStores(cat: Catalog, files: seq<FoundFile>, step: IndexStep)
    requires Frames(step) && Stores(step) && DistinctIds(files)
    requires IndexAll(cat, files, step).1.errors == 0
    ensures forall i :: 0 <= i < |files| ==> Stored(IndexAll(cat, files, step).0, files[i])
    decreases |files|
  {
    if |files| > 0 {
      var res := step(cat, files[0]);
      assert res.Ok?;
      var next := res.value.0;
      var rest := files[1..];
      assert forall i :: 0 <= i < |rest| ==> rest[i] == files[i + 1];
      assert Stored(next, files[0]);
      IndexAllFrame(next, rest, step, GenerateDocId(files[0].file.parts).value);
      IndexAllStores(next, rest, step);
      var c' := IndexAll(cat, files, step).0;
      forall i | 0 <= i < |files| ensures Stored(c', files[i]) {
        if i > 0 { assert files[i] == rest[i - 1]; }
      }
    }
  }

  /** When every file's hash is already stored, a scan finds them all unchanged and writes nothing. */
  lemma {:induction false} IndexAllUnchanged(cat: Catalog, files: seq<FoundFile>, step: IndexStep)
    requires SkipsStored(step)
    requires forall i :: 0 <= i < |files| ==> Stored(cat, files[i])
    ensures IndexAll(cat, files, step) == (cat, Stats(|files|, 0, 0, 0))
    decreases |files|
  {
    if |files| > 0 {
      var rest := files[1..];
      assert forall i :: 0 <= i < |rest| ==> rest[i] == files[i + 1];
      assert step(cat, files[0]) == Ok((cat, Unchanged));
      IndexAllUnchanged(cat, rest, step);
    }
  }

  /** Scanning again right after an error-free scan over files with distinct ids
      reports every file unchanged and leaves the catalog as it is. */
  lemma Rescan(cat: Catalog, files: seq<FoundFile>, order: seq<string>, level: string)
    requires IsKeywordOrder(order) && DistinctIds(files)
    requires IndexAll(cat, files, IndexAt(level, order)).1.errors == 0
    ensures var c' := IndexAll(cat, files, IndexAt(level, order)).0;
      IndexAll(c', files, IndexAt(level, order)) == (c', Stats(|files|, 0, 0, 0))
  {
    var step := IndexAt(level, order);
    IndexAtProperties(level, order);
    IndexAllStores(cat, files, step);
    IndexAllUnchanged(IndexAll(cat, files, step).0, files, step);
  }

  /** A scan keeps the catalog invariant. */
  lemma ScanWellFormed(cat: Catalog, m1Files: seq<FoundFile>, m2Files: seq<FoundFile>, order: seq<string>)
    requires IsKeywordOrder(order) && WellFormed(cat)
    ensures WellFormed(ScanAndIndexAll(cat, m1Files, m2Files, order).0)
  {
    IndexAtProperties("M1", order);
    IndexAtProperties("M2", order);
    IndexAllWellFormed(cat, m1Files, IndexAt("M1", order));
    IndexAllWellFormed(IndexAll(cat, m1Files, IndexAt("M1", order)).0, m2Files, IndexAt("M2", order));
  }
}

=== FILE: dedup.dfy ===
/**
 * First-seen deduplication by key, the loop shape
 * `seen = set(); for x in xs: if key(x) not in seen: out.append(x); seen.add(key(x))`
 * that the application uses to collapse retrieved chunks into one entry per document.
 */
module Dedup {

  /** The keys occurring in `xs`. */
  function KeysOf<T, K(==)>(xs: seq<T>, key: T -> K): set<K> {
    set i | 0 <= i < |xs| :: key(xs[i])
  }

  /** The loop with its `seen` set: keeps an element when its key was not seen before. */
  function DedupFrom<T, K(==)>(xs: seq<T>, key: T -> K, seen: set<K>): (r: seq<T>)
    ensures |r| <= |xs|
    ensures forall i :: 0 <= i < |r| ==> r[i] in xs && key(r[i]) !in seen
    ensures forall i, j :: 0 <= i < j < |r| ==> key(r[i]) != key(r[j])
    ensures KeysOf(r, key) == KeysOf(xs, key) - seen
  {
    if |xs| == 0 then []
    else
      var k := key(xs[0]);
      KeysOfCons(xs, key);
      if k in seen then DedupFrom(xs[1..], key, seen)
      else
        var rest := DedupFrom(xs[1..], key, seen + {k});
        var r := [xs[0]] + rest;
        assert r[1..] == rest;
        KeysOfCons(r, key);
        assert forall i :: 0 < i < |r| ==> r[i] == rest[i - 1];
        r
  }

  /** The keys of a non-empty sequence: its head's and those of its tail. */
  lemma KeysOfCons<T, K>(xs: seq<T>, key: T -> K)
    requires |xs| > 0
    ensures KeysOf(xs, key) == {key(xs[0])} + KeysOf(xs[1..], key)
  {
    var k := key(xs[0]);
    forall y | y in KeysOf(xs, key) ensures y in {k} + KeysOf(xs[1..], key) {
      var i :| 0 <= i < |xs| && key(xs[i]) == y;
      if i > 0 { assert xs[i] == xs[1..][i - 1]; }
    }
    forall y | y in KeysOf(xs[1..], key) ensures y in KeysOf(xs, key) {
      var i :| 0 <= i < |xs[1..]| && key(xs[1..][i]) == y;
      assert xs[1..][i] == xs[i + 1];
    }
  }

  /** One element per distinct key, each the first element carrying that key. */
  function FirstByKey<T, K(==)>(xs: seq<T>, key: T -> K): (r: seq<T>)
    ensures |r| <= |xs|
    ensures forall i :: 0 <= i < |r| ==> r[i] in xs
    ensures forall i, j :: 0 <= i < j < |r| ==> key(r[i]) != key(r[j])
    ensures KeysOf(r, key) == KeysOf(xs, key)
    ensures |r| == |KeysOf(xs, key)|
  {
    var r := DedupFrom(xs, key, {});
    DistinctKeysCount(r, key);
    r
  }

  /** Distinct keys: as many keys as elements. */
  lemma {:induction false} DistinctKeysCount<T, K>(xs: seq<T>, key: T -> K)
    requires forall i, j :: 0 <= i < j < |xs| ==> key(xs[i]) != key(xs[j])
    ensures |KeysOf(xs, key)| == |xs|
  {
    if |xs| > 0 {
      var init := xs[..|xs| - 1];
      DistinctKeysCount(init, key);
      assert KeysOf(xs, key) == KeysOf(init, key) + {key(xs[|xs| - 1])} by {
        forall y | y in KeysOf(xs, key) ensures y in KeysOf(init, key) + {key(xs[|xs| - 1])} {
          var i :| 0 <= i < |xs| && key(xs[i]) == y;
          if i < |xs| - 1 { assert xs[i] == init[i]; }
        }
      }
      assert key(xs[|xs| - 1]) !in KeysOf(init, key);
    }
  }

  /** Reference definition, read from the back: element `i` survives exactly
      when no earlier element has its key. */
  function FirstOccurrences<T, K(==)>(xs: seq<T>, key: T -> K): seq<T> {
    if |xs| == 0 then []
    else
      var init := xs[..|xs| - 1];
      var last := xs[|xs| - 1];
      FirstOccurrences(init, key) + (if key(last) in KeysOf(init, key) then [] else [last])
  }

  lemma {:induction false} DedupFromAppend<T, K>(a: seq<T>, b: seq<T>, key: T -> K, seen: set<K>)
    ensures DedupFrom(a + b, key, seen) == DedupFrom(a, key, seen) + DedupFrom(b, key, seen + KeysOf(a, key))
  {
    if |a| == 0 {
      assert a + b == b;
      assert KeysOf(a, key) == {};
      assert seen + KeysOf(a, key) == seen;
    } else {
      var k := key(a[0]);
      assert (a + b)[1..] == a[1..] + b;
      assert (a + b)[0] == a[0];
      KeysOfCons(a, key);
      if k in seen {
        DedupFromAppend(a[1..], b, key, seen);
        assert seen + KeysOf(a[1..], key) == seen + KeysOf(a, key);
      } else {
        DedupFromAppend(a[1..], b, key, seen + {k});
        assert seen + {k} + KeysOf(a[1..], key) == seen + KeysOf(a, key);
      }
    }
  }

  /** The loop with a `seen` set computes exactly the first occurrences of every key. */
  lemma {:induction false} FirstByKeyIsFirstOccurrences<T, K>(xs: seq<T>, key: T -> K)
    ensures FirstByKey(xs, key) == FirstOccurrences(xs, key)
  {
    if |xs| > 0 {
      var init := xs[..|xs| - 1];
      var last := xs[|xs| - 1];
      assert xs == init + [last];
      DedupFromAppend(init, [last], key, {});
      FirstByKeyIsFirstOccurrences(init, key);
      assert {} + KeysOf(init, key) == KeysOf(init, key);
      DedupFromSingle(last, key, KeysOf(init, key));
    }
  }

  /** The loop on one element keeps it exactly when its key was not seen. */
  lemma DedupFromSingle<T, K>(x: T, key: T -> K, seen: set<K>)
    ensures DedupFrom([x], key, seen) == if key(x) in seen then [] else [x]
  {
    assert [x][1..] == [];
  }
}

=== FILE: knowledge_base.dfy ===
/**
 * The course-corpus knowledge base: the corpus flattened into parallel lists of
 * chunk texts and metadata dictionaries, the metadata filter, the post-filter
 * loop over the nearest-neighbour candidates, and the token-budgeted context
 * built from the search results. The nearest-neighbour search itself is an
 * input: the candidate indices (with -1 for "no result") and their distances.
 */
module KnowledgeBase {
  import opened Wrappers
  import opened Text

  /** The JSON values a corpus entry or a filter can carry. */
  datatype Value = Str(s: string) | Int(n: int) | List(items: seq<Value>)

  type Meta = map<string, Value>

  datatype Concept = Concept(term: string, definition: string, example: string)
  datatype Material = Material(content: string, week: Value, title: Value, topics: Value, concepts: seq<Concept>)
  /** A common question; `week` and `relatedTopics` may be absent from the JSON. */
  datatype Qa = Qa(question: string, answer: string, week: Option<Value>, relatedTopics: Option<Value>)
  /** A missing corpus file, or a missing list, reads as empty lists. */
  datatype Corpus = Corpus(materials: seq<Material>, questions: seq<Qa>)

  /** `self.chunks` and `self.metadata`; the vector index exists exactly when there are chunks. */
  datatype KB = KB(chunks: seq<string>, metadata: seq<Meta>)

  // ---------------------------------------------------------------------
  // flattening the corpus

  function CourseMeta(m: Material): Meta {
    map["type" := Str("course_content"), "week" := m.week, "title" := m.title, "topics" := m.topics]
  }

  function ConceptText(c: Concept): string {
    c.term + ": " + c.definition + ". Exemple: " + c.example
  }

  function ConceptMeta(week: Value, c: Concept): Meta {
    map["type" := Str("concept"), "week" := week, "term" := Str(c.term), "topics" := List([Str(Lower(c.term))])]
  }

  function QaText(q: Qa): string {
    "Question: " + q.question + "\nRéponse: " + q.answer
  }

  function QaMeta(q: Qa): Meta {
    map["type" := Str("qa"), "week" := q.week.GetOr(Int(0)), "topics" := q.relatedTopics.GetOr(List([]))]
  }

  /** How many entries the materials contribute: one per material and one per key concept. */
  function Size(ms: seq<Material>): nat {
    if |ms| == 0 then 0 else 1 + |ms[0].concepts| + Size(ms[1..])
  }

  /** One material: its full content, then one entry per key concept. */
  function AddMaterial(kb: KB, m: Material): KB {
    var cs := m.concepts;
    KB(kb.chunks + [m.content] + seq(|cs|, k requires 0 <= k < |cs| => ConceptText(cs[k])),
       kb.metadata + [CourseMeta(m)] + seq(|cs|, k requires 0 <= k < |cs| => ConceptMeta(m.week, cs[k])))
  }

  /** The loop over `course_materials`: both lists grow by the materials' size and
      what was there before stays in front. */
  function AddMaterials(kb: KB, ms: seq<Material>): (r: KB)
    ensures |r.chunks| == |kb.chunks| + Size(ms) && |r.metadata| == |kb.metadata| + Size(ms)
    ensures r.chunks[..|kb.chunks|] == kb.chunks && r.metadata[..|kb.metadata|] == kb.metadata
    decreases |ms|
  {
    if |ms| == 0 then kb
    else
      var kb' := AddMaterial(kb, ms[0]);
      var r := AddMaterials(kb', ms[1..]);
      assert r.chunks[..|kb.chunks|] == r.chunks[..|kb'.chunks|][..|kb.chunks|];
      assert r.metadata[..|kb.metadata|] == r.metadata[..|kb'.metadata|][..|kb.metadata|];
      r
  }

  /** The loop over `common_questions`. */
  function AddQuestions(kb: KB, qs: seq<Qa>): KB {
    KB(kb.chunks + seq(|qs|, j requires 0 <= j < |qs| => QaText(qs[j])),
       kb.metadata + seq(|qs|, j requires 0 <= j < |qs| => QaMeta(qs[j])))
  }

  /** Every metadata entry has a week, and there is one per chunk. */
  predicate WellBuilt(kb: KB) {
    && |kb.chunks| == |kb.metadata|
    && forall i :: 0 <= i < |kb.metadata| ==> "week" in kb.metadata[i]
  }

  /** `_build_index`: chunks and metadata stay parallel, every material contributes
      one entry plus one per key concept and every question one, and the questions
      come last, in corpus order. */
  function BuildIndex(c: Corpus): (r: KB)
    ensures WellBuilt(r)
    ensures |r.chunks| == Size(c.materials) + |c.questions|
    ensures forall j :: 0 <= j < |c.questions| ==>
              r.chunks[Size(c.materials) + j] == QaText(c.questions[j])
              && r.metadata[Size(c.materials) + j] == QaMeta(c.questions[j])
  {
    var kb := AddMaterials(KB([], []), c.materials);
    MaterialsWellBuilt(KB([], []), c.materials);
    AddQuestions(kb, c.questions)
  }

  lemma {:induction false} MaterialsWellBuilt(kb: KB, ms: seq<Material>)
    requires WellBuilt(kb)
    ensures WellBuilt(AddMaterials(kb, ms))
    decreases |ms|
  {
    if |ms| > 0 {
      var kb' := AddMaterial(kb, ms[0]);
      assert forall i :: 0 <= i < |kb.metadata| ==> kb'.metadata[i] == kb.metadata[i];
      MaterialsWellBuilt(kb', ms[1..]);
    }
  }

  /** Flattening is a fold: the materials `a + b` give what `a` gives, continued by `b`. */
  lemma {:induction false} AddMaterialsAppend(kb: KB, a: seq<Material>, b: seq<Material>)
    ensures AddMaterials(kb, a + b) == AddMaterials(AddMaterials(kb, a), b)
    decreases |a|
  {
    if |a| == 0 {
      assert a + b == b;
    } else {
      assert (a + b)[1..] == a[1..] + b;
      AddMaterialsAppend(AddMaterial(kb, a[0]), a[1..], b);
    }
  }

  /** Entry `o` holds the material's content with its course metadata, and the
      entries after it each key concept, formatted, with its concept metadata. */
  predicate EntriesAt(r: KB, o: nat, m: Material) {
    && o + |m.concepts| < |r.chunks| && o + |m.concepts| < |r.metadata|
    && r.chunks[o] == m.content && r.metadata[o] == CourseMeta(m)
    && forall k :: 0 <= k < |m.concepts| ==>
         r.chunks[o + 1 + k] == ConceptText(m.concepts[k])
         && r.metadata[o + 1 + k] == ConceptMeta(m.week, m.concepts[k])
  }

  /** Material `i` of `ms`, added after `kb`, sits at the offset of the materials
      before it. */
  lemma {:induction false} AddMaterialsAt(kb: KB, ms: seq<Material>, i: nat)
    requires |kb.chunks| == |kb.metadata| && i < |ms|
    ensures EntriesAt(AddMaterials(kb, ms), |kb.chunks| + Size(ms[..i]), ms[i])
    decreases i
  {
    var mid := AddMaterial(kb, ms[0]);
    var r := AddMaterials(kb, ms);
    assert r == AddMaterials(mid, ms[1..]);
    if i == 0 {
      assert ms[..0] == [];
      AddMaterialEntries(kb, ms[0]);
      EntriesAtPrefix(r, mid, |kb.chunks|, ms[0]);
    } else {
      AddMaterialsAt(mid, ms[1..], i - 1);
      assert ms[..i][1..] == ms[1..][..i - 1];
      assert Size(ms[..i]) == 1 + |ms[0].concepts| + Size(ms[1..][..i - 1]);
      assert ms[1..][i - 1] == ms[i];
    }
  }

  /** One material's entries follow whatever was there before. */
  lemma AddMaterialEntries(kb: KB, m: Material)
    requires |kb.chunks| == |kb.metadata|
    ensures EntriesAt(AddMaterial(kb, m), |kb.chunks|, m)
  {
  }

  lemma PrefixIndex<T>(a: seq<T>, b: seq<T>)
    requires |b| <= |a| && a[..|b|] == b
    ensures forall x :: 0 <= x < |b| ==> a[x] == b[x]
  {
    assert forall x :: 0 <= x < |b| ==> a[..|b|][x] == a[x];
  }

  /** Entries stay where they are when more is appended. */
  lemma EntriesAtPrefix(r: KB, mid: KB, o: nat, m: Material)
    requires |mid.chunks| <= |r.chunks| && r.chunks[..|mid.chunks|] == mid.chunks
    requires |mid.metadata| <= |r.metadata| && r.metadata[..|mid.metadata|] == mid.metadata
    requires EntriesAt(mid, o, m)
    ensures EntriesAt(r, o, m)
  {
    PrefixIndex(r.chunks, mid.chunks);
    PrefixIndex(r.metadata, mid.metadata);
  }

  /** Material `i` of the corpus sits at the offset of the materials before it. */
  lemma BuildIndexMaterialAt(c: Corpus, i: nat)
    requires i < |c.materials|
    ensures EntriesAt(BuildIndex(c), Size(c.materials[..i]), c.materials[i])
  {
    var kb := AddMaterials(KB([], []), c.materials);
    AddMaterialsAt(KB([], []), c.materials, i);
    var r := BuildIndex(c);
    EntriesAtPrefix(r, kb, Size(c.materials[..i]), c.materials[i]);
  }

  // ---------------------------------------------------------------------
  // the metadata filter

  datatype FilterError = TypeError

  /** Python's `v in container` on JSON values: list membership, or a substring test
      between strings; anything else raises. */
  function In(v: Value, container: Value): (r: Result<bool, FilterError>)
    ensures container.List? ==> r == Ok(v in container.items)
    ensures r.Err? <==> !container.List? && !(container.Str? && v.Str?)
  {
    match container
    case List(items) => Ok(v in items)
    case Str(s) => if v.Str? then Ok(Contains(s, v.s)) else Err(TypeError)
    case Int(_) => Err(TypeError)
  }

  /** `any(v in container for v in vs)`, which stops at the first true test and
      raises at the first test that raises before one. */
  function AnyIn(vs: seq<Value>, container: Value): (r: Result<bool, FilterError>)
    ensures r == Ok(false) <==> forall j :: 0 <= j < |vs| ==> In(vs[j], container) == Ok(false)
    ensures r == Ok(true) <==> exists j :: 0 <= j < |vs| && In(vs[j], container) == Ok(true)
                                          && forall l :: 0 <= l < j ==> In(vs[l], container) == Ok(false)
  {
    if |vs| == 0 then Ok(false)
    else
      var first := In(vs[0], container);
      var rest := AnyIn(vs[1..], container);
      assert forall j :: 0 < j < |vs| ==> vs[j] == vs[1..][j - 1];
      if first.Err? then first
      else if first.value then
        Ok(true)
      else
        assert rest == Ok(true) ==> exists j :: 0 <= j < |vs| && In(vs[j], container) == Ok(true)
                                     && forall l :: 0 <= l < j ==> In(vs[l], container) == Ok(false) by {
          if rest == Ok(true) {
            var j :| 0 <= j < |vs[1..]| && In(vs[1..][j], container) == Ok(true)
                     && forall l :: 0 <= l < j ==> In(vs[1..][l], container) == Ok(false);
            assert In(vs[j + 1], container) == Ok(true);
            assert forall l :: 0 <= l < j + 1 ==> In(vs[l], container) == Ok(false);
          }
        }
        rest
  }

  /** One filter entry holds for the metadata. */
  predicate Holds(meta: Meta, key: string, value: Value) {
    key in meta && if value.List? then AnyIn(value.items, meta[key]) == Ok(true) else meta[key] == value
  }

  /** One filter entry fails without raising. */
  predicate Fails(meta: Meta, key: string, value: Value) {
    key !in meta || (if value.List? then AnyIn(value.items, meta[key]) == Ok(false) else meta[key] != value)
  }

  /** `_matches_filters`, with the filters in the dictionary's iteration order:
      true exactly when every entry holds, false exactly when some entry fails
      after all earlier ones held. */
  function MatchesFilters(meta: Meta, filters: seq<(string, Value)>): (r: Result<bool, FilterError>)
    ensures r == Ok(true) <==> forall j :: 0 <= j < |filters| ==> Holds(meta, filters[j].0, filters[j].1)
    ensures r == Ok(false) <==> exists j :: 0 <= j < |filters| && Fails(meta, filters[j].0, filters[j].1)
                                            && forall l :: 0 <= l < j ==> Holds(meta, filters[l].0, filters[l].1)
  {
    if |filters| == 0 then Ok(true)
    else
      var (key, value) := filters[0];
      var rest := MatchesFilters(meta, filters[1..]);
      assert forall j :: 0 < j < |filters| ==> filters[j] == filters[1..][j - 1];
      if key !in meta then
        assert Fails(meta, filters[0].0, filters[0].1);
        Ok(false)
      else if value.List? then
        var any := AnyIn(value.items, meta[key]);
        if any.Err? then any
        else if !any.value then
          assert Fails(meta, filters[0].0, filters[0].1);
          Ok(false)
        else
          MatchesFiltersStep(meta, filters, rest);
          rest
      else if meta[key] != value then
        assert Fails(meta, filters[0].0, filters[0].1);
        Ok(false)
      else
        MatchesFiltersStep(meta, filters, rest);
        rest
  }

  /** When the first entry holds, the verdict is that of the remaining entries. */
  lemma MatchesFiltersStep(meta: Meta, filters: seq<(string, Value)>, rest: Result<bool, FilterError>)
    requires |filters| > 0 && Holds(meta, filters[0].0, filters[0].1)
    requires rest == Ok(true) <==> forall j :: 0 <= j < |filters[1..]| ==> Holds(meta, filters[1..][j].0, filters[1..][j].1)
    requires rest == Ok(false) <==> exists j :: 0 <= j < |filters[1..]| && Fails(meta, filters[1..][j].0, filters[1..][j].1)
                                               && forall l :: 0 <= l < j ==> Holds(meta, filters[1..][l].0, filters[1..][l].1)
    ensures rest == Ok(true) <==> forall j :: 0 <= j < |filters| ==> Holds(meta, filters[j].0, filters[j].1)
    ensures rest == Ok(false) <==> exists j :: 0 <= j < |filters| && Fails(meta, filters[j].0, filters[j].1)
                                              && forall l :: 0 <= l < j ==> Holds(meta, filters[l].0, filters[l].1)
  {
    assert forall j :: 0 < j < |filters| ==> filters[j] == filters[1..][j - 1];
    assert !Fails(meta, filters[0].0, filters[0].1);
    if rest == Ok(false) {
      var j :| 0 <= j < |filters[1..]| && Fails(meta, filters[1..][j].0, filters[1..][j].1)
               && forall l :: 0 <= l < j ==> Holds(meta, filters[1..][l].0, filters[1..][l].1);
      assert Fails(meta, filters[j + 1].0, filters[j + 1].1);
      assert forall l :: 0 <= l < j + 1 ==> Holds(meta, filters[l].0, filters[l].1);
    }
    if exists j :: 0 <= j < |filters| && Fails(meta, filters[j].0, filters[j].1)
                   && forall l :: 0 <= l < j ==> Holds(meta, filters[l].0, filters[l].1) {
      var j :| 0 <= j < |filters| && Fails(meta, filters[j].0, filters[j].1)
               && forall l :: 0 <= l < j ==> Holds(meta, filters[l].0, filters[l].1);
      assert j != 0;
      assert Fails(meta, filters[1..][j - 1].0, filters[1..][j - 1].1);
    }
  }

  /** A list filter with no elements matches nothing, and a missing key fails. */
  lemma FilterEdgeCases(meta: Meta, key: string, value: Value)
    ensures key in meta && (meta[key].List? || meta[key].Str?) ==> MatchesFilters(meta, [(key, List([]))]) == Ok(false)
    ensures key !in meta ==> MatchesFilters(meta, [(key, value)]) == Ok(false)
  {
    if key in meta && (meta[key].List? || meta[key].Str?) {
      assert Fails(meta, [(key, List([]))][0].0, [(key, List([]))][0].1);
    }
    if key !in meta {
      assert Fails(meta, [(key, value)][0].0, [(key, value)][0].1);
    }
  }

  // ---------------------------------------------------------------------
  // search

  /** One search result; `rank` is the candidate's position plus one. */
  datatype Hit = Hit(text: string, metadata: Meta, score: real, rank: nat)

  /** `min(top_k * 3, len(chunks))`, never below zero. */
  function SearchK(topK: int, n: nat): nat {
    var k := if topK * 3 < n then topK * 3 else n;
    if k < 0 then 0 else k
  }

  /** A nearest-neighbour answer: candidate indices (-1 for none) with their distances. */
  predicate Candidates(kb: KB, cands: seq<int>, dists: seq<real>) {
    && |kb.metadata| == |kb.chunks|
    && |dists| == |cands|
    && forall p :: 0 <= p < |cands| ==> cands[p] == -1 || 0 <= cands[p] < |kb.chunks|
  }

  /** The answer to a search for `min(top_k * 3, len(chunks))` neighbours. */
  predicate Answer(kb: KB, cands: seq<int>, dists: seq<real>, topK: int) {
    Candidates(kb, cands, dists) && |cands| <= SearchK(topK, |kb.chunks|)
  }

  function HitAt(kb: KB, cands: seq<int>, dists: seq<real>, p: nat): Hit
    requires |dists| == |cands| && |kb.metadata| == |kb.chunks|
    requires p < |cands| && 0 <= cands[p] < |kb.chunks|
  {
    Hit(kb.chunks[cands[p]], kb.metadata[cands[p]], dists[p], p + 1)
  }

  /** `filters` is truthy: a non-empty dictionary. */
  predicate Filtering(filters: seq<(string, Value)>) {
    |filters| > 0
  }

  /** What the loop decides for candidate `p` once it gets there: skip a -1, keep it
      when no filter applies, else whatever the filter says (or raises). */
  function Verdicts(kb: KB, cands: seq<int>, filters: seq<(string, Value)>): (vs: seq<Result<bool, FilterError>>)
    requires |kb.metadata| == |kb.chunks|
    requires forall p :: 0 <= p < |cands| ==> cands[p] == -1 || 0 <= cands[p] < |kb.chunks|
    ensures |vs| == |cands|
    ensures forall p :: 0 <= p < |cands| && vs[p] != Ok(false) ==> 0 <= cands[p] < |kb.chunks|
    ensures forall p :: 0 <= p < |cands| && vs[p].Err? ==> Filtering(filters)
  {
    seq(|cands|, p requires 0 <= p < |cands| =>
      if cands[p] == -1 then Ok(false)
      else if Filtering(filters) then MatchesFilters(kb.metadata[cands[p]], filters)
      else Ok(true))
  }

  /** Candidate `p` is a real one that passes the filters. */
  predicate Passes(kb: KB, cands: seq<int>, p: nat, filters: seq<(string, Value)>)
    requires |kb.metadata| == |kb.chunks| && p < |cands|
  {
    cands[p] != -1 && 0 <= cands[p] < |kb.chunks|
    && (!Filtering(filters) || MatchesFilters(kb.metadata[cands[p]], filters) == Ok(true))
  }

  lemma VerdictsPass(kb: KB, cands: seq<int>, filters: seq<(string, Value)>)
    requires |kb.metadata| == |kb.chunks|
    requires forall p :: 0 <= p < |cands| ==> cands[p] == -1 || 0 <= cands[p] < |kb.chunks|
    ensures forall p :: 0 <= p < |cands| ==> (Verdicts(kb, cands, filters)[p] == Ok(true) <==> Passes(kb, cands, p, filters))
  {
  }

  /** The result loop from candidate `p` on, with `budget` results still wanted:
      skips what its verdict rejects, raises what its verdict raises, and stops once
      the budget is used up. Ranks grow strictly and every hit is its candidate's. */
  function Collect(kb: KB, cands: seq<int>, dists: seq<real>, vs: seq<Result<bool, FilterError>>, p: nat, budget: int)
    : (r: Result<seq<Hit>, FilterError>)
    requires |dists| == |cands| && |kb.metadata| == |kb.chunks| && |vs| == |cands|
    requires forall q :: 0 <= q < |cands| && vs[q] != Ok(false) ==> 0 <= cands[q] < |kb.chunks|
    ensures r.Ok? ==> budget >= 1 ==> |r.value| <= budget
    ensures r.Ok? ==> forall j :: 0 <= j < |r.value| ==>
              p < r.value[j].rank <= |cands| && vs[r.value[j].rank - 1] == Ok(true)
              && r.value[j] == HitAt(kb, cands, dists, r.value[j].rank - 1)
    ensures r.Ok? ==> forall i, j :: 0 <= i < j < |r.value| ==> r.value[i].rank < r.value[j].rank
    ensures r.Err? ==> exists q :: p <= q < |vs| && vs[q].Err?
    decreases |cands| - p
  {
    if p >= |cands| then Ok([])
    else if vs[p].Err? then Err(vs[p].error)
    else if !vs[p].value then Collect(kb, cands, dists, vs, p + 1, budget)
    else
      var hit := HitAt(kb, cands, dists, p);
      if budget <= 1 then Ok([hit])
      else
        match Collect(kb, cands, dists, vs, p + 1, budget - 1)
        case Err(e) => Err(e)
        case Ok(rest) =>
          var r := [hit] + rest;
          assert forall j :: 0 < j < |r| ==> r[j] == rest[j - 1];
          Ok(r)
  }

  /** When the budget is not used up, no kept candidate from `p` on was left out. */
  lemma {:induction false} CollectComplete(kb: KB, cands: seq<int>, dists: seq<real>, vs: seq<Result<bool, FilterError>>, p: nat, budget: int)
    requires |dists| == |cands| && |kb.metadata| == |kb.chunks| && |vs| == |cands|
    requires forall q :: 0 <= q < |cands| && vs[q] != Ok(false) ==> 0 <= cands[q] < |kb.chunks|
    ensures var r := Collect(kb, cands, dists, vs, p, budget);
      r.Ok? && |r.value| < budget ==>
        forall q :: p <= q < |cands| && vs[q] == Ok(true) ==> HitAt(kb, cands, dists, q) in r.value
    decreases |cands| - p
  {
    var c := Collect(kb, cands, dists, vs, p, budget);
    if p < |cands| && c.Ok? && |c.value| < budget {
      if vs[p] != Ok(true) {
        CollectComplete(kb, cands, dists, vs, p + 1, budget);
      } else {
        var rest := Collect(kb, cands, dists, vs, p + 1, budget - 1);
        assert c.value == [HitAt(kb, cands, dists, p)] + rest.value;
        CollectComplete(kb, cands, dists, vs, p + 1, budget - 1);
      }
    }
  }

  /** The results are the first kept candidates: every kept candidate from `p` on
      that comes before a returned one was returned too. */
  lemma {:induction false} CollectPrefix(kb: KB, cands: seq<int>, dists: seq<real>, vs: seq<Result<bool, FilterError>>, p: nat, budget: int)
    requires |dists| == |cands| && |kb.metadata| == |kb.chunks| && |vs| == |cands|
    requires forall q :: 0 <= q < |cands| && vs[q] != Ok(false) ==> 0 <= cands[q] < |kb.chunks|
    ensures var r := Collect(kb, cands, dists, vs, p, budget);
      r.Ok? ==> forall q, j :: 0 <= j < |r.value| && p <= q < r.value[j].rank - 1 && vs[q] == Ok(true) ==>
        HitAt(kb, cands, dists, q) in r.value
    decreases |cands| - p
  {
    var c := Collect(kb, cands, dists, vs, p, budget);
    if p < |cands| && c.Ok? && vs[p].Ok? {
      if !vs[p].value {
        CollectPrefix(kb, cands, dists, vs, p + 1, budget);
      } else if budget > 1 {
        var rest := Collect(kb, cands, dists, vs, p + 1, budget - 1);
        assert c.value == [HitAt(kb, cands, dists, p)] + rest.value;
        CollectPrefix(kb, cands, dists, vs, p + 1, budget - 1);
        PrefixCons(kb, cands, dists, vs, p, rest.value);
      }
    }
  }

  /** Putting candidate `p`'s hit in front of results that hold every kept candidate
      from `p + 1` up to each of their ranks gives results that hold every kept
      candidate from `p` up to each of theirs. */
  lemma PrefixCons(kb: KB, cands: seq<int>, dists: seq<real>, vs: seq<Result<bool, FilterError>>, p: nat, rest: seq<Hit>)
    requires |dists| == |cands| && |kb.metadata| == |kb.chunks| && |vs| == |cands|
    requires forall q :: 0 <= q < |cands| && vs[q] != Ok(false) ==> 0 <= cands[q] < |kb.chunks|
    requires p < |cands| && vs[p] == Ok(true)
    requires forall j :: 0 <= j < |rest| ==> rest[j].rank <= |cands|
    requires forall q, j :: 0 <= j < |rest| && p + 1 <= q < rest[j].rank - 1 && vs[q] == Ok(true) ==>
               HitAt(kb, cands, dists, q) in rest
    ensures var c := [HitAt(kb, cands, dists, p)] + rest;
      forall q, j :: 0 <= j < |c| && p <= q < c[j].rank - 1 && vs[q] == Ok(true) ==> HitAt(kb, cands, dists, q) in c
  {
    var c := [HitAt(kb, cands, dists, p)] + rest;
    forall q, j | 0 <= j < |c| && p <= q < c[j].rank - 1 && vs[q] == Ok(true)
      ensures HitAt(kb, cands, dists, q) in c
    {
      if q > p {
        assert j > 0 && c[j] == rest[j - 1];
      }
    }
  }

  /** How many candidates in `[p, q)` the verdicts keep. */
  function Kept(vs: seq<Result<bool, FilterError>>, p: nat, q: nat): nat
    requires q <= |vs|
    decreases q - p
  {
    if p >= q then 0 else (if vs[p] == Ok(true) then 1 else 0) + Kept(vs, p + 1, q)
  }

  /** The loop raises only for the first candidate whose filter raises, and only if
      it gets there: every earlier verdict is a plain yes or no, and fewer of them
      are yes than the budget (at least one result is always taken). */
  lemma {:induction false} CollectRaises(kb: KB, cands: seq<int>, dists: seq<real>, vs: seq<Result<bool, FilterError>>, p: nat, budget: int)
    requires |dists| == |cands| && |kb.metadata| == |kb.chunks| && |vs| == |cands|
    requires forall q :: 0 <= q < |cands| && vs[q] != Ok(false) ==> 0 <= cands[q] < |kb.chunks|
    ensures var r := Collect(kb, cands, dists, vs, p, budget);
      r.Err? ==>
        exists q ::
          && p <= q < |vs| && vs[q] == Err(r.error)
          && (forall q' :: p <= q' < q ==> vs[q'].Ok?)
          && Kept(vs, p, q) < (if budget >= 1 then budget else 1)
    decreases |cands| - p
  {
    var c := Collect(kb, cands, dists, vs, p, budget);
    if p < |cands| && c.Err? && vs[p].Ok? {
      var b := if vs[p].value then budget - 1 else budget;
      CollectRaises(kb, cands, dists, vs, p + 1, b);
      var q :| p + 1 <= q < |vs| && vs[q] == Err(c.error)
        && (forall q' :: p + 1 <= q' < q ==> vs[q'].Ok?)
        && Kept(vs, p + 1, q) < (if b >= 1 then b else 1);
      assert Kept(vs, p, q) == (if vs[p] == Ok(true) then 1 else 0) + Kept(vs, p + 1, q);
    } else if p < |cands| && c.Err? {
      assert Kept(vs, p, p) == 0;
    }
  }

  /** Conversely, the loop raises once it reaches a raising verdict: every earlier
      verdict is a plain yes or no and fewer of them are yes than the budget. */
  lemma {:induction false} CollectReachesRaise(kb: KB, cands: seq<int>, dists: seq<real>, vs: seq<Result<bool, FilterError>>,
                                               p: nat, budget: int, q: nat)
    requires |dists| == |cands| && |kb.metadata| == |kb.chunks| && |vs| == |cands|
    requires forall q :: 0 <= q < |cands| && vs[q] != Ok(false) ==> 0 <= cands[q] < |kb.chunks|
    requires p <= q < |vs| && vs[q].Err?
    requires forall q' :: p <= q' < q ==> vs[q'].Ok?
    requires Kept(vs, p, q) < (if budget >= 1 then budget else 1)
    ensures Collect(kb, cands, dists, vs, p, budget) == Err(vs[q].error)
    decreases q - p
  {
    if p < q {
      assert Kept(vs, p, q) == (if vs[p] == Ok(true) then 1 else 0) + Kept(vs, p + 1, q);
      if vs[p].value {
        CollectReachesRaise(kb, cands, dists, vs, p + 1, budget - 1, q);
      } else {
        CollectReachesRaise(kb, cands, dists, vs, p + 1, budget, q);
      }
    }
  }

  /** Every hit is the hit of a real candidate that passes the filters. */
  predicate AllPass(kb: KB, cands: seq<int>, dists: seq<real>, filters: seq<(string, Value)>, hs: seq<Hit>)
    requires Candidates(kb, cands, dists)
  {
    forall j :: 0 <= j < |hs| ==>
      1 <= hs[j].rank <= |cands| && Passes(kb, cands, hs[j].rank - 1, filters)
      && hs[j] == HitAt(kb, cands, dists, hs[j].rank - 1)
  }

  predicate RanksIncrease(hs: seq<Hit>) {
    forall i, j :: 0 <= i < j < |hs| ==> hs[i].rank < hs[j].rank
  }

  /** Every passing candidate before the candidate of some hit has its hit among
      them: the hits are the first passing candidates. */
  predicate FirstPassing(kb: KB, cands: seq<int>, dists: seq<real>, filters: seq<(string, Value)>, hs: seq<Hit>)
    requires Candidates(kb, cands, dists)
  {
    forall q, j :: 0 <= j < |hs| && 0 <= q < |cands| && q < hs[j].rank - 1 && Passes(kb, cands, q, filters) ==>
      HitAt(kb, cands, dists, q) in hs
  }

  /** Every passing candidate has its hit among them. */
  predicate AllPassing(kb: KB, cands: seq<int>, dists: seq<real>, filters: seq<(string, Value)>, hs: seq<Hit>)
    requires Candidates(kb, cands, dists)
  {
    forall q :: 0 <= q < |cands| && Passes(kb, cands, q, filters) ==> HitAt(kb, cands, dists, q) in hs
  }

  /** The error `e` is what the filter of candidate `q` raises, and the loop gets
      there: no earlier filter raises, and fewer earlier candidates pass than the
      budget (at least one result is always taken). */
  predicate RaisesAt(kb: KB, cands: seq<int>, filters: seq<(string, Value)>, topK: int, q: int, e: FilterError)
    requires |kb.metadata| == |kb.chunks|
    requires forall p :: 0 <= p < |cands| ==> cands[p] == -1 || 0 <= cands[p] < |kb.chunks|
  {
    && 0 <= q < |cands| && 0 <= cands[q] < |kb.chunks| && Filtering(filters)
    && MatchesFilters(kb.metadata[cands[q]], filters) == Err(e)
    && (forall p :: 0 <= p < q ==> Verdicts(kb, cands, filters)[p].Ok?)
    && Kept(Verdicts(kb, cands, filters), 0, q) < (if topK >= 1 then topK else 1)
  }

  /** `search` with the nearest-neighbour answer as input: an empty index gives no
      results; otherwise at most `top_k` (for `top_k >= 1`) hits in candidate order,
      ranks strictly increasing, each a real candidate that passes the filters,
      the first passing candidates and, when fewer than `top_k` come back, every
      passing candidate. Only a filter that compares incompatible values raises,
      and only the first one the loop reaches. */
  function Search(kb: KB, cands: seq<int>, dists: seq<real>, topK: int, filters: seq<(string, Value)>)
    : (r: Result<seq<Hit>, FilterError>)
    requires Answer(kb, cands, dists, topK)
    ensures |kb.chunks| == 0 ==> r == Ok([])
    ensures r.Ok? && topK >= 1 ==> |r.value| <= topK
    ensures r.Ok? ==> AllPass(kb, cands, dists, filters, r.value) && RanksIncrease(r.value)
    ensures r.Ok? ==> FirstPassing(kb, cands, dists, filters, r.value)
    ensures r.Ok? && |r.value| < topK ==> AllPassing(kb, cands, dists, filters, r.value)
    ensures r.Err? ==> exists q :: RaisesAt(kb, cands, filters, topK, q, r.error)
    ensures forall q, e :: RaisesAt(kb, cands, filters, topK, q, e) ==> r == Err(e)
  {
    if |kb.chunks| == 0 then Ok([])
    else
      var r := Collect(kb, cands, dists, Verdicts(kb, cands, filters), 0, topK);
      CollectPasses(kb, cands, dists, topK, filters);
      CollectFirst(kb, cands, dists, topK, filters);
      CollectRaisesWhenReached(kb, cands, dists, topK, filters);
      r
  }

  /** A raising filter the loop reaches makes the search fail with its error. */
  lemma CollectRaisesWhenReached(kb: KB, cands: seq<int>, dists: seq<real>, topK: int, filters: seq<(string, Value)>)
    requires Answer(kb, cands, dists, topK)
    ensures forall q, e :: RaisesAt(kb, cands, filters, topK, q, e) ==>
              Collect(kb, cands, dists, Verdicts(kb, cands, filters), 0, topK) == Err(e)
  {
    var vs := Verdicts(kb, cands, filters);
    forall q, e | RaisesAt(kb, cands, filters, topK, q, e)
      ensures Collect(kb, cands, dists, vs, 0, topK) == Err(e)
    {
      assert vs[q] == Err(e);
      CollectReachesRaise(kb, cands, dists, vs, 0, topK, q);
    }
  }

  /** The result loop over the filter verdicts returns the first passing candidates,
      and raises only at the first raising filter it reaches. */
  lemma CollectFirst(kb: KB, cands: seq<int>, dists: seq<real>, topK: int, filters: seq<(string, Value)>)
    requires Answer(kb, cands, dists, topK)
    ensures var r := Collect(kb, cands, dists, Verdicts(kb, cands, filters), 0, topK);
      && (r.Ok? ==> FirstPassing(kb, cands, dists, filters, r.value))
      && (r.Err? ==> exists q :: RaisesAt(kb, cands, filters, topK, q, r.error))
  {
    var vs := Verdicts(kb, cands, filters);
    var r := Collect(kb, cands, dists, vs, 0, topK);
    VerdictsPass(kb, cands, filters);
    CollectPrefix(kb, cands, dists, vs, 0, topK);
    CollectRaises(kb, cands, dists, vs, 0, topK);
    if r.Err? {
      var q :| && 0 <= q < |vs| && vs[q] == Err(r.error)
               && (forall q' :: 0 <= q' < q ==> vs[q'].Ok?)
               && Kept(vs, 0, q) < (if topK >= 1 then topK else 1);
      assert RaisesAt(kb, cands, filters, topK, q, r.error);
    }
  }

  /** The result loop over the filter verdicts keeps exactly the passing candidates,
      all of them when the budget is not used up. */
  lemma CollectPasses(kb: KB, cands: seq<int>, dists: seq<real>, topK: int, filters: seq<(string, Value)>)
    requires Answer(kb, cands, dists, topK)
    ensures var r := Collect(kb, cands, dists, Verdicts(kb, cands, filters), 0, topK);
      && (r.Ok? ==> AllPass(kb, cands, dists, filters, r.value) && RanksIncrease(r.value))
      && (r.Ok? && |r.value| < topK ==> AllPassing(kb, cands, dists, filters, r.value))
  {
    var vs := Verdicts(kb, cands, filters);
    var r := Collect(kb, cands, dists, vs, 0, topK);
    VerdictsPass(kb, cands, filters);
    CollectComplete(kb, cands, dists, vs, 0, topK);
    if r.Ok? {
      KeptPass(kb, cands, dists, filters, vs, r.value);
      if |r.value| < topK {
        PassingKept(kb, cands, dists, filters, vs, r.value);
      }
    }
  }

  /** Hits of candidates whose verdict is yes are hits of passing candidates. */
  lemma KeptPass(kb: KB, cands: seq<int>, dists: seq<real>, filters: seq<(string, Value)>,
                 vs: seq<Result<bool, FilterError>>, hs: seq<Hit>)
    requires Candidates(kb, cands, dists) && |vs| == |cands|
    requires forall p :: 0 <= p < |cands| ==> (vs[p] == Ok(true) <==> Passes(kb, cands, p, filters))
    requires forall p :: 0 <= p < |cands| && vs[p] != Ok(false) ==> 0 <= cands[p] < |kb.chunks|
    requires forall j :: 0 <= j < |hs| ==>
               0 < hs[j].rank <= |cands| && vs[hs[j].rank - 1] == Ok(true)
               && hs[j] == HitAt(kb, cands, dists, hs[j].rank - 1)
    requires forall i, j :: 0 <= i < j < |hs| ==> hs[i].rank < hs[j].rank
    ensures AllPass(kb, cands, dists, filters, hs) && RanksIncrease(hs)
  {
  }

  /** When every candidate whose verdict is yes has its hit kept, so does every
      passing candidate. */
  lemma PassingKept(kb: KB, cands: seq<int>, dists: seq<real>, filters: seq<(string, Value)>,
                    vs: seq<Result<bool, FilterError>>, hs: seq<Hit>)
    requires Candidates(kb, cands, dists) && |vs| == |cands|
    requires forall p :: 0 <= p < |cands| ==> (vs[p] == Ok(true) <==> Passes(kb, cands, p, filters))
    requires forall p :: 0 <= p < |cands| && vs[p] != Ok(false) ==> 0 <= cands[p] < |kb.chunks|
    requires forall q :: 0 <= q < |cands| && vs[q] == Ok(true) ==> HitAt(kb, cands, dists, q) in hs
    ensures AllPassing(kb, cands, dists, filters, hs)
  {
  }

  // ---------------------------------------------------------------------
  // context assembly

  const NoContext := "Aucun contexte pertinent trouvé dans la base de cours."

  /** The rough token estimate: one token per four characters. */
  function Tokens(h: Hit): nat {
    |h.text| / 4
  }

  function TokenSum(hs: seq<Hit>): nat {
    if |hs| == 0 then 0 else Tokens(hs[0]) + TokenSum(hs[1..])
  }

  /** How many leading results the budget loop keeps, having used `used` tokens:
      the longest prefix that fits, stopping at the first result that would overflow. */
  function Fitting(hs: seq<Hit>, used: int, maxTokens: int): (n: nat)
    ensures n <= |hs|
    ensures used <= maxTokens ==> used + TokenSum(hs[..n]) <= maxTokens
    ensures n < |hs| ==> used + TokenSum(hs[..n + 1]) > maxTokens
    ensures used > maxTokens ==> n == 0
    decreases |hs|
  {
    if |hs| == 0 || used + Tokens(hs[0]) > maxTokens then
      assert |hs| > 0 ==> TokenSum(hs[..1]) == Tokens(hs[0]) by {
        if |hs| > 0 { assert hs[..1][1..] == []; }
      }
      0
    else
      var n := 1 + Fitting(hs[1..], used + Tokens(hs[0]), maxTokens);
      assert hs[..n][1..] == hs[1..][..n - 1];
      assert n < |hs| ==> hs[..n + 1][1..] == hs[1..][..n];
      n
  }

  /** Python's `str()` of a metadata value; lists are shown with their items
      quoted, without escaping. */
  function Show(v: Value): string
    decreases v, 0
  {
    match v
    case Str(s) => s
    case Int(n) => IntToString(n)
    case List(items) => "[" + Join(seq(|items|, i requires 0 <= i < |items| => ShowItem(items[i])), ", ") + "]"
  }

  function ShowItem(v: Value): string
    decreases v, 1
  {
    match v
    case Str(s) => "'" + s + "'"
    case Int(n) => IntToString(n)
    case List(_) => Show(v)
  }

  /** The source label: the title when there is one, else the type, else "Source". */
  function Label(meta: Meta): string {
    if "title" in meta then Show(meta["title"])
    else if "type" in meta then Show(meta["type"])
    else "Source"
  }

  function Part(h: Hit): string
    requires "week" in h.metadata
  {
    "[Semaine " + Show(h.metadata["week"]) + " - " + Label(h.metadata) + "]\n" + h.text + "\n"
  }

  /** `week_filter` is truthy: given and not 0. */
  function WeekFilters(week: Option<int>): (f: seq<(string, Value)>)
    ensures Filtering(f) <==> week.Some? && week.value != 0
  {
    if week.Some? && week.value != 0 then [("week", Int(week.value))] else []
  }

  /** `n` results are what the budget loop keeps, having used no tokens yet: they
      fit in `max_tokens` (none fit a negative budget), and one more would not. */
  predicate KeepsWithin(hs: seq<Hit>, n: nat, maxTokens: int) {
    && n <= |hs|
    && (maxTokens >= 0 ==> TokenSum(hs[..n]) <= maxTokens)
    && (maxTokens < 0 ==> n == 0)
    && (n < |hs| ==> TokenSum(hs[..n + 1]) > maxTokens)
  }

  /** The parts of the first `n` results. */
  function Parts(hs: seq<Hit>, n: nat): (ps: seq<string>)
    requires n <= |hs| && HasWeeks(hs)
    ensures |ps| == n && forall i :: 0 <= i < n ==> ps[i] == Part(hs[i])
  {
    seq(n, i requires 0 <= i < n => Part(hs[i]))
  }

  /** `get_context` with the nearest-neighbour answer for five results as input:
      the fixed message when nothing is found; otherwise the parts of the longest
      prefix of the results whose token estimates fit in `max_tokens`, joined by
      separators — empty when the first result alone does not fit. */
  function GetContext(kb: KB, cands: seq<int>, dists: seq<real>, maxTokens: int, week: Option<int>)
    : (r: Result<string, FilterError>)
    requires WellBuilt(kb) && Answer(kb, cands, dists, 5)
    ensures var found := Search(kb, cands, dists, 5, WeekFilters(week));
      && (found.Err? <==> r.Err?)
      && (found.Ok? && |found.value| == 0 ==> r == Ok(NoContext))
      && (found.Ok? && |found.value| > 0 ==>
            && HasWeeks(found.value)
            && exists n: nat :: KeepsWithin(found.value, n, maxTokens) && r == Ok(Join(Parts(found.value, n), "\n---\n")))
  {
    var found := Search(kb, cands, dists, 5, WeekFilters(week));
    if found.Err? then Err(found.error)
    else
      var hs := found.value;
      if |hs| == 0 then Ok(NoContext)
      else
        SearchHasWeeks(kb, cands, dists, 5, WeekFilters(week));
        Ok(Assemble(hs, maxTokens))
  }

  /** The budget loop and the join: the parts of the longest prefix of the results
      whose token estimates fit in `max_tokens`, none when the budget is negative. */
  function Assemble(hs: seq<Hit>, maxTokens: int): (r: string)
    requires HasWeeks(hs)
    ensures exists n: nat :: KeepsWithin(hs, n, maxTokens) && r == Join(Parts(hs, n), "\n---\n")
  {
    var n := Fitting(hs, 0, maxTokens);
    assert KeepsWithin(hs, n, maxTokens);
    Join(Parts(hs, n), "\n---\n")
  }

  /** Every result carries a week, so its part can be rendered. */
  predicate HasWeeks(hs: seq<Hit>) {
    forall i :: 0 <= i < |hs| ==> "week" in hs[i].metadata
  }

  /** In an index whose metadata all carry a week, so do the search results. */
  lemma SearchHasWeeks(kb: KB, cands: seq<int>, dists: seq<real>, topK: int, filters: seq<(string, Value)>)
    requires WellBuilt(kb) && Answer(kb, cands, dists, topK)
    ensures Search(kb, cands, dists, topK, filters).Ok? ==> HasWeeks(Search(kb, cands, dists, topK, filters).value)
  {
    var r := Search(kb, cands, dists, topK, filters);
    if r.Ok? {
      forall i | 0 <= i < |r.value| ensures "week" in r.value[i].metadata {
        var p := r.value[i].rank - 1;
        assert r.value[i] == HitAt(kb, cands, dists, p);
      }
    }
  }

  /** When the first result alone is over budget the context is empty: the loop
      stops before adding anything. */
  lemma FirstOverflowGivesEmpty(kb: KB, cands: seq<int>, dists: seq<real>, maxTokens: int, week: Option<int>)
    requires WellBuilt(kb) && Answer(kb, cands, dists, 5)
    requires var found := Search(kb, cands, dists, 5, WeekFilters(week));
      found.Ok? && |found.value| > 0 && Tokens(found.value[0]) > maxTokens
    ensures GetContext(kb, cands, dists, maxTokens, week) == Ok("")
  {
  }
}

=== FILE: mobile_sync.dfy ===
/**
 * The mobile session registry: session records keyed by session id plus an
 * append-only queue of audio-sync events. Session ids and the clock are inputs
 * (`now` in seconds); timestamps are kept as those clock readings.
 */
module MobileSync {
  import opened Wrappers

  type QuizData = map<string, string>

  datatype Session = Session(
    sessionId: string, userId: string, deviceType: string, deviceOs: string,
    startedAt: int, lastActive: int,
    currentChapter: Option<string>, currentDocId: Option<string>, currentDocTitle: Option<string>,
    audioPosition: int, quizActive: bool, currentQuiz: Option<QuizData>,
    isActive: bool, endedAt: Option<int>)

  /** One `sync_queue` entry; its type is always 'audio_sync'. */
  datatype SyncEntry = SyncEntry(sessionId: string, position: int, timestamp: int)

  datatype Registry = Registry(sessions: map<string, Session>, queue: seq<SyncEntry>)

  const EmptyRegistry := Registry(map[], [])

  /** Only session `id` may differ, and only if it was there. */
  predicate OthersUnchanged(r: Registry, r': Registry, id: string) {
    && r'.sessions.Keys == r.sessions.Keys
    && forall k :: k in r.sessions && k != id ==> r'.sessions[k] == r.sessions[k]
  }

  /** `device_info.get(key, 'unknown')` */
  function InfoOr(info: map<string, string>, key: string): string {
    if key in info then info[key] else "unknown"
  }

  /** `create_session` with a fresh id: audio position 0, no document or chapter, no
      quiz, active and not ended, started and last active now; device type and OS default to 'unknown'. */
  function CreateSession(r: Registry, userId: string, deviceInfo: map<string, string>, sessionId: string, now: int)
    : (r': Registry)
    requires sessionId !in r.sessions
    ensures r'.queue == r.queue && r'.sessions.Keys == r.sessions.Keys + {sessionId}
    ensures forall k :: k in r.sessions ==> r'.sessions[k] == r.sessions[k]
    ensures var s := r'.sessions[sessionId];
      && s.sessionId == sessionId && s.userId == userId
      && s.deviceType == (if "type" in deviceInfo then deviceInfo["type"] else "unknown")
      && s.deviceOs == (if "os" in deviceInfo then deviceInfo["os"] else "unknown")
      && s.audioPosition == 0 && !s.quizActive && s.isActive
      && s.currentDocId.None? && s.currentChapter.None? && s.lastActive == now
      && s.startedAt == now && s.endedAt.None? && s.currentQuiz.None? && s.currentDocTitle.None?
  {
    var s := Session(sessionId, userId, InfoOr(deviceInfo, "type"), InfoOr(deviceInfo, "os"), now, now,
                     None, None, None, 0, false, None, true, None);
    Registry(r.sessions[sessionId := s], r.queue)
  }

  /** `sync_audio_position`: an unknown session changes nothing and queues nothing; a
      known one (open or closed) gets the position and is marked active now, and
      exactly one entry is queued. */
  function SyncAudioPosition(r: Registry, sessionId: string, position: int, now: int): (r': Registry)
    ensures sessionId !in r.sessions ==> r' == r
    ensures sessionId in r.sessions ==>
      && OthersUnchanged(r, r', sessionId)
      && r'.sessions[sessionId] == r.sessions[sessionId].(audioPosition := position, lastActive := now)
      && r'.queue == r.queue + [SyncEntry(sessionId, position, now)]
  {
    if sessionId !in r.sessions then r
    else
      var s := r.sessions[sessionId];
      Registry(r.sessions[sessionId := s.(audioPosition := position, lastActive := now)],
               r.queue + [SyncEntry(sessionId, position, now)])
  }

  /** `get_session_state` */
  function GetSessionState(r: Registry, sessionId: string): (s: Option<Session>)
    ensures s.None? <==> sessionId !in r.sessions
    ensures s.Some? ==> s.value == r.sessions[sessionId]
  {
    if sessionId in r.sessions then Some(r.sessions[sessionId]) else None
  }

  /** `update_current_document`: only the named session, and only if it exists. */
  function UpdateCurrentDocument(r: Registry, sessionId: string, docId: string, docTitle: string, now: int)
    : (r': Registry)
    ensures r'.queue == r.queue
    ensures sessionId !in r.sessions ==> r' == r
    ensures sessionId in r.sessions ==>
      && OthersUnchanged(r, r', sessionId)
      && r'.sessions[sessionId] == r.sessions[sessionId].(currentDocId := Some(docId),
                                                          currentDocTitle := Some(docTitle), lastActive := now)
  {
    if sessionId !in r.sessions then r
    else
      var s := r.sessions[sessionId];
      Registry(r.sessions[sessionId := s.(currentDocId := Some(docId), currentDocTitle := Some(docTitle),
                                          lastActive := now)], r.queue)
  }

  /** `update_quiz_state`: only the named session, and only if it exists. */
  function UpdateQuizState(r: Registry, sessionId: string, quiz: QuizData, now: int): (r': Registry)
    ensures r'.queue == r.queue
    ensures sessionId !in r.sessions ==> r' == r
    ensures sessionId in r.sessions ==>
      && OthersUnchanged(r, r', sessionId)
      && r'.sessions[sessionId] == r.sessions[sessionId].(quizActive := true, currentQuiz := Some(quiz),
                                                          lastActive := now)
  {
    if sessionId !in r.sessions then r
    else
      var s := r.sessions[sessionId];
      Registry(r.sessions[sessionId := s.(quizActive := true, currentQuiz := Some(quiz), lastActive := now)],
               r.queue)
  }

  /** `close_session`: the record stays, marked inactive and ended now. */
  function CloseSession(r: Registry, sessionId: string, now: int): (r': Registry)
    ensures r'.queue == r.queue
    ensures sessionId !in r.sessions ==> r' == r
    ensures sessionId in r.sessions ==>
      && OthersUnchanged(r, r', sessionId)
      && r'.sessions[sessionId] == r.sessions[sessionId].(isActive := false, endedAt := Some(now))
  {
    if sessionId !in r.sessions then r
    else
      var s := r.sessions[sessionId];
      Registry(r.sessions[sessionId := s.(isActive := false, endedAt := Some(now))], r.queue)
  }

  /** `if user_id:` — a user filter applies when one is given and it is not empty. */
  predicate ForUser(s: Session, userId: Option<string>) {
    userId.None? || userId.value == "" || s.userId == userId.value
  }

  /** `get_active_sessions`, as a set: the Python list follows the dictionary's
      insertion order. */
  function GetActiveSessions(r: Registry, userId: Option<string>): (active: set<Session>)
    ensures forall s :: s in active <==> exists k :: k in r.sessions && r.sessions[k] == s && s.isActive && ForUser(s, userId)
  {
    set k | k in r.sessions && r.sessions[k].isActive && ForUser(r.sessions[k], userId) :: r.sessions[k]
  }

  /** A closed session is no longer listed as active; nothing else leaves the list. */
  lemma CloseRemovesFromActive(r: Registry, sessionId: string, now: int, userId: Option<string>)
    requires sessionId in r.sessions
    requires forall k :: k in r.sessions ==> r.sessions[k].sessionId == k
    ensures r.sessions[sessionId].(isActive := false, endedAt := Some(now)) !in GetActiveSessions(CloseSession(r, sessionId, now), userId)
    ensures GetActiveSessions(CloseSession(r, sessionId, now), userId)
         == GetActiveSessions(r, userId) - {r.sessions[sessionId]}
  {
    var r' := CloseSession(r, sessionId, now);
    var before := GetActiveSessions(r, userId);
    var after := GetActiveSessions(r', userId);
    forall s | s in after ensures s in before - {r.sessions[sessionId]} {
      var k :| k in r'.sessions && r'.sessions[k] == s && s.isActive && ForUser(s, userId);
      assert k != sessionId;
      assert s.sessionId == k;
    }
    forall s | s in before - {r.sessions[sessionId]} ensures s in after {
      var k :| k in r.sessions && r.sessions[k] == s && s.isActive && ForUser(s, userId);
      assert k != sessionId;
    }
  }

  /** A session is stale when it has been inactive for longer than the timeout. */
  predicate Stale(s: Session, now: int, timeoutMinutes: int) {
    now - s.lastActive > 60 * timeoutMinutes
  }

  /** `cleanup_inactive_sessions`: removes exactly the stale sessions and leaves the
      others untouched; the queue is unchanged. */
  function CleanupInactiveSessions(r: Registry, now: int, timeoutMinutes: int): (r': Registry)
    ensures r'.queue == r.queue
    ensures forall k :: k in r'.sessions <==> k in r.sessions && !Stale(r.sessions[k], now, timeoutMinutes)
    ensures forall k :: k in r'.sessions ==> r'.sessions[k] == r.sessions[k]
  {
    Registry(map k | k in r.sessions && !Stale(r.sessions[k], now, timeoutMinutes) :: r.sessions[k], r.queue)
  }

  /** Cleaning up twice at the same time removes nothing more. */
  lemma CleanupIdempotent(r: Registry, now: int, timeoutMinutes: int)
    ensures CleanupInactiveSessions(CleanupInactiveSessions(r, now, timeoutMinutes), now, timeoutMinutes)
         == CleanupInactiveSessions(r, now, timeoutMinutes)
  {
    var once := CleanupInactiveSessions(r, now, timeoutMinutes);
    var twice := CleanupInactiveSessions(once, now, timeoutMinutes);
    assert twice.sessions == once.sessions;
  }

  /** The operations of the registry, for the queue property below. */
  datatype Op =
    | Create(userId: string, deviceInfo: map<string, string>, newId: string)
    | Sync(syncId: string, position: int)
    | UpdateDocument(docSession: string, docId: string, docTitle: string)
    | UpdateQuiz(quizSession: string, quiz: QuizData)
    | Close(closeId: string)
    | Cleanup(timeoutMinutes: int)

  function Apply(r: Registry, op: Op, now: int): (r': Registry)
    requires op.Create? ==> op.newId !in r.sessions
  {
    match op
    case Create(u, info, id) => CreateSession(r, u, info, id, now)
    case Sync(id, p) => SyncAudioPosition(r, id, p, now)
    case UpdateDocument(id, d, t) => UpdateCurrentDocument(r, id, d, t, now)
    case UpdateQuiz(id, q) => UpdateQuizState(r, id, q, now)
    case Close(id) => CloseSession(r, id, now)
    case Cleanup(t) => CleanupInactiveSessions(r, now, t)
  }

  /** The sync queue is append-only: no operation removes or rewrites an entry, and
      only a sync of a known session adds one. */
  lemma QueueAppendOnly(r: Registry, op: Op, now: int)
    requires op.Create? ==> op.newId !in r.sessions
    ensures var r' := Apply(r, op, now);
      && |r.queue| <= |r'.queue| && r'.queue[..|r.queue|] == r.queue
      && (|r'.queue| > |r.queue| <==> op.Sync? && op.syncId in r.sessions)
  {
    var r' := Apply(r, op, now);
    if op.Sync? && op.syncId in r.sessions {
      assert r'.queue == r.queue + [SyncEntry(op.syncId, op.position, now)];
      assert r'.queue[..|r.queue|] == r.queue;
    } else {
      assert r'.queue == r.queue;
    }
  }
}

=== FILE: paths.dfy ===
/** The parts of `pathlib.PurePath` the application reads: `name`, `stem`, `suffix`. */
module Paths {
  import opened Text

  /** `Path(path).name` for a '/'-separated path that does not end in '/'. */
  function Name(path: string): (r: string)
    ensures '/' !in r
    ensures |r| <= |path| && path[|path| - |r|..] == r
    ensures |r| < |path| ==> path[|path| - |r| - 1] == '/'
  {
    path[RFind(path, '/') + 1..]
  }

  /** Where `suffix` starts: at the last '.', unless that dot opens the name or ends it. */
  function SuffixStart(name: string): (i: nat)
    ensures i <= |name|
  {
    var d := RFind(name, '.');
    if 0 < d < |name| - 1 then d else |name|
  }

  /** `Path(name).stem` */
  function Stem(name: string): string {
    name[..SuffixStart(name)]
  }

  /** `Path(name).suffix` */
  function Suffix(name: string): (r: string)
    ensures r == "" || (|r| >= 2 && r[0] == '.' && '.' !in r[1..])
  {
    name[SuffixStart(name)..]
  }

  /** The name is its stem followed by its suffix; a non-empty suffix leaves a non-empty stem. */
  lemma StemSuffix(name: string)
    ensures Stem(name) + Suffix(name) == name
    ensures Suffix(name) != "" ==> |Stem(name)| >= 1
  {
  }

  /** Appending an extension to a non-empty, dot-free base name and taking the stem gives the base back. */
  lemma StemOfExtension(base: string, ext: string)
    requires |base| >= 1 && |ext| >= 1
    requires '.' !in base[1..] && '.' !in ext
    ensures Stem(base + "." + ext) == base
    ensures Suffix(base + "." + ext) == "." + ext
  {
    var name := base + "." + ext;
    assert name[|base|] == '.';
    assert forall j :: |base| < j < |name| ==> name[j] == ext[j - |base| - 1];
    var d := RFind(name, '.');
    assert d == |base|;
  }
}

=== FILE: quiz_manager.dfy ===
/**
 * The interactive quiz manager: quizzes and quiz sessions kept in maps keyed by
 * id, answers graded by a whitespace- and case-insensitive comparison, and final
 * results graded by percentage thresholds. Session ids, clocks and the shuffle's
 * random choices are inputs.
 */
module QuizManager {
  import opened Wrappers
  import opened Text

  /** A quiz question; `correct_answer` and `explanation` may be missing. */
  datatype Question = Question(question: string, correctAnswer: Option<string>, explanation: Option<string>)

  datatype Quiz = Quiz(quizId: string, title: string, questions: seq<Question>, totalQuestions: nat)

  datatype AnswerRecord = AnswerRecord(question: string, userAnswer: string, correctAnswer: string, isCorrect: bool)

  datatype Session = Session(
    sessionId: string, quizId: string, userId: string,
    currentQuestion: int, score: nat, answers: seq<AnswerRecord>, completed: bool)

  /** `self.quizzes` and `self.quiz_sessions`. */
  datatype Manager = Manager(quizzes: map<string, Quiz>, sessions: map<string, Session>)

  const NoSession := "Session non trouvée"
  const NoQuiz := "Quiz non trouvé"
  const BadQuestion := "Question invalide"

  // ---------------------------------------------------------------------
  // creating quizzes

  /** `random.sample(pool, len(pool))` driven by its choices: `picks[k]` is which of
      the `|pool| - k` remaining questions is drawn `k`-th. */
  predicate ValidPicks(picks: seq<nat>, n: nat) {
    |picks| == n && forall k :: 0 <= k < n ==> picks[k] < n - k
  }

  function Sample<T>(pool: seq<T>, picks: seq<nat>): (r: seq<T>)
    requires ValidPicks(picks, |pool|)
    ensures |r| == |pool| && multiset(r) == multiset(pool)
    decreases |pool|
  {
    if |pool| == 0 then []
    else
      var j := picks[0];
      var rest := pool[..j] + pool[j + 1..];
      assert pool == pool[..j] + [pool[j]] + pool[j + 1..];
      assert ValidPicks(picks[1..], |rest|);
      [pool[j]] + Sample(rest, picks[1..])
  }

  /** A fact about the `picks` encoding, not about how `random.sample` manages its
      pool internally: the draw that always takes the first remaining question
      reproduces the pool, so the unshuffled order is one of the encoded draws. */
  lemma {:induction false} SampleInOrder<T>(pool: seq<T>, picks: seq<nat>)
    requires ValidPicks(picks, |pool|) && forall k :: 0 <= k < |picks| ==> picks[k] == 0
    ensures Sample(pool, picks) == pool
    decreases |pool|
  {
    if |pool| > 0 {
      assert pool[..0] + pool[1..] == pool[1..];
      SampleInOrder(pool[1..], picks[1..]);
    }
  }

  /** `create_quiz`: stores the questions, shuffled when asked (some rearrangement
      of the same questions), in their given order otherwise; replaces any quiz of
      that id and touches nothing else. */
  function CreateQuiz(m: Manager, quizId: string, questions: seq<Question>, title: string,
                      shuffle: bool, picks: seq<nat>): (r: (Manager, Quiz))
    requires shuffle ==> ValidPicks(picks, |questions|)
    ensures var (m', q) := r;
      && m'.quizzes == m.quizzes[quizId := q] && m'.sessions == m.sessions
      && q.quizId == quizId && q.title == title
      && multiset(q.questions) == multiset(questions)
      && (!shuffle ==> q.questions == questions)
      && q.totalQuestions == |questions|
  {
    var qs := if shuffle then Sample(questions, picks) else questions;
    var q := Quiz(quizId, title, qs, |qs|);
    (Manager(m.quizzes[quizId := q], m.sessions), q)
  }

  // ---------------------------------------------------------------------
  // sessions

  /** The score counts the correct answers recorded so far. */
  function CorrectCount(answers: seq<AnswerRecord>): nat {
    if |answers| == 0 then 0
    else CorrectCount(answers[..|answers| - 1]) + (if answers[|answers| - 1].isCorrect then 1 else 0)
  }

  predicate Consistent(s: Session) {
    s.score == CorrectCount(s.answers)
  }

  predicate AllConsistent(m: Manager) {
    forall id :: id in m.sessions ==> Consistent(m.sessions[id])
  }

  /** `start_quiz_session` with a fresh session id: the session starts at question 0
      with score 0, no answers and not completed. The quiz id is not checked. */
  function StartQuizSession(m: Manager, quizId: string, userId: string, sessionId: string): (r: Manager)
    requires sessionId !in m.sessions
    ensures r.quizzes == m.quizzes && sessionId in r.sessions
    ensures var s := r.sessions[sessionId];
      s.quizId == quizId && s.userId == userId && s.currentQuestion == 0 && s.score == 0
      && s.answers == [] && !s.completed && Consistent(s)
    ensures forall id :: id != sessionId ==>
              (id in r.sessions <==> id in m.sessions) && (id in m.sessions ==> r.sessions[id] == m.sessions[id])
  {
    Manager(m.quizzes, m.sessions[sessionId := Session(sessionId, quizId, userId, 0, 0, [], false)])
  }

  /** Python's `questions[i]`: negative indices count from the end. */
  function PyIndex(n: nat, i: int): int {
    if i < 0 then n + i else i
  }

  /** The answer check: equal after stripping and lowercasing both sides. */
  predicate SameAnswer(given: string, expected: string) {
    Lower(Strip(given)) == Lower(Strip(expected))
  }

  /** What `submit_answer` returns: an error dictionary, an `IndexError` for an index
      below `-len`, or the grading of the answer. */
  datatype Submission =
    | Refused(message: string)
    | IndexError
    | Graded(isCorrect: bool, correctAnswer: string, explanation: string,
             currentScore: nat, totalQuestions: nat, nextQuestion: Option<int>)

  /** `submit_answer`: an unknown session or quiz, or an index at or past the end, is
      refused and changes nothing (there is no lower-bound check: a negative index
      picks from the end, and one below `-len` raises). Otherwise the score grows by
      one exactly when the answer matches, one answer record is appended, the
      current question becomes `index + 1`, and nothing else changes. */
  function SubmitAnswer(m: Manager, sessionId: string, index: int, userAnswer: string): (r: (Manager, Submission))
    ensures sessionId !in m.sessions ==> r == (m, Refused(NoSession))
    ensures sessionId in m.sessions && m.sessions[sessionId].quizId !in m.quizzes ==> r == (m, Refused(NoQuiz))
    ensures sessionId in m.sessions && m.sessions[sessionId].quizId in m.quizzes ==>
      var s := m.sessions[sessionId];
      var qs := m.quizzes[s.quizId].questions;
      && (index >= |qs| ==> r == (m, Refused(BadQuestion)))
      && (index < -|qs| ==> r == (m, IndexError))
      && (-|qs| <= index < |qs| ==>
            var q := qs[PyIndex(|qs|, index)];
            var expected := q.correctAnswer.GetOr("");
            var ok := SameAnswer(userAnswer, expected);
            && sessionId in r.0.sessions
            && var s' := r.0.sessions[sessionId];
            && r.0.quizzes == m.quizzes
            && r.0.sessions == m.sessions[sessionId := s']
            && s'.score == s.score + (if ok then 1 else 0)
            && s'.answers == s.answers + [AnswerRecord(q.question, userAnswer, expected, ok)]
            && s'.currentQuestion == index + 1
            && s'.quizId == s.quizId && s'.userId == s.userId && s'.completed == s.completed
            && r.1 == Graded(ok, expected, q.explanation.GetOr(""), s'.score, |qs|,
                             if index + 1 < |qs| then Some(index + 1) else None))
  {
    if sessionId !in m.sessions then (m, Refused(NoSession))
    else
      var s := m.sessions[sessionId];
      if s.quizId !in m.quizzes then (m, Refused(NoQuiz))
      else
        var qs := m.quizzes[s.quizId].questions;
        if index >= |qs| then (m, Refused(BadQuestion))
        else if index < -|qs| then (m, IndexError)
        else
          var q := qs[PyIndex(|qs|, index)];
          var expected := q.correctAnswer.GetOr("");
          var ok := SameAnswer(userAnswer, expected);
          var s' := s.(score := s.score + (if ok then 1 else 0),
                       answers := s.answers + [AnswerRecord(q.question, userAnswer, expected, ok)],
                       currentQuestion := index + 1);
          (Manager(m.quizzes, m.sessions[sessionId := s']),
           Graded(ok, expected, q.explanation.GetOr(""), s'.score, |qs|,
                  if index + 1 < |qs| then Some(index + 1) else None))
  }

  /** Submitting keeps every session's score equal to its number of correct answers. */
  lemma SubmitKeepsScore(m: Manager, sessionId: string, index: int, userAnswer: string)
    requires AllConsistent(m)
    ensures AllConsistent(SubmitAnswer(m, sessionId, index, userAnswer).0)
  {
    var m' := SubmitAnswer(m, sessionId, index, userAnswer).0;
    if sessionId in m.sessions && m' != m {
      var s := m.sessions[sessionId];
      var s' := m'.sessions[sessionId];
      assert s'.answers[..|s'.answers| - 1] == s.answers;
    }
  }

  // ---------------------------------------------------------------------
  // results

  datatype Grade = Expert | Good | Revise

  /** The encouragement shown with each grade. */
  function Message(g: Grade): string {
    match g
    case Expert => "Excellent ! Tu maîtrises parfaitement le sujet."
    case Good => "Bien joué ! Continue comme ça, tu es sur la bonne voie."
    case Revise => "Continue à réviser. Réécoute le podcast et réessaye !"
  }

  /** `score / total * 100`, or 0 when there are no questions. */
  function Percentage(score: nat, total: nat): (p: real)
    ensures total == 0 ==> p == 0.0
    ensures total > 0 ==> p * total as real == 100.0 * score as real
  {
    if total > 0 then 100.0 * score as real / total as real else 0.0
  }

  /** "Expert" from 80 %, "Bien" from 60 %, "À réviser" below, decided on whole
      numbers: `score / total * 100 >= t` exactly when `100 * score >= t * total`. */
  function GradeOf(score: nat, total: nat): (g: Grade)
    ensures g == Expert <==> total > 0 && Percentage(score, total) >= 80.0
    ensures g == Good <==> total > 0 && 60.0 <= Percentage(score, total) < 80.0
  {
    if total == 0 then Revise
    else
      PercentageAtLeast(score, total, 80);
      PercentageAtLeast(score, total, 60);
      if 100 * score >= 80 * total then Expert
      else if 100 * score >= 60 * total then Good
      else Revise
  }

  /** The cross-multiplied form of a percentage threshold. */
  lemma PercentageAtLeast(score: nat, total: nat, t: nat)
    requires total > 0
    ensures Percentage(score, total) >= t as real <==> 100 * score >= t * total
  {
    var p := Percentage(score, total);
    var n := total as real;
    assert p * n == 100.0 * score as real;
    assert (100 * score) as real == 100.0 * score as real;
    assert (t * total) as real == t as real * n;
    if p >= t as real {
      assert p * n >= t as real * n;
    } else {
      assert p * n < t as real * n;
    }
  }

  /** `percentage >= 60`, in the same whole-number form. */
  function Passed(score: nat, total: nat): (b: bool)
    ensures b <==> Percentage(score, total) >= 60.0
  {
    if total > 0 then PercentageAtLeast(score, total, 60); 100 * score >= 60 * total
    else false
  }

  /** The pass mark and the grades agree: passing is exactly grading "Expert" or "Bien". */
  lemma PassedIffGraded(score: nat, total: nat)
    ensures Passed(score, total) <==> GradeOf(score, total) != Revise
  {
  }

  /** One more correct answer never lowers the grade. */
  lemma GradeMonotone(score: nat, total: nat)
    ensures GradeOf(score, total) == Expert ==> GradeOf(score + 1, total) == Expert
    ensures GradeOf(score, total) == Good ==> GradeOf(score + 1, total) != Revise
    ensures Passed(score, total) ==> Passed(score + 1, total)
  {
  }

  /** The results dictionary; `level` (with its message) is reported only by
      `complete_quiz`, not by a later `get_quiz_results`. */
  datatype Report = Report(sessionId: string, quizId: string, score: nat, totalQuestions: nat,
                           percentage: real, level: Option<Grade>, answers: seq<AnswerRecord>, passed: bool)

  /** `complete_quiz`: refuses an unknown session or quiz without changing anything;
      otherwise reports score, total, percentage, grade and pass mark, and marks the
      session completed, changing nothing else. */
  function CompleteQuiz(m: Manager, sessionId: string): (r: (Manager, Result<Report, string>))
    ensures sessionId !in m.sessions ==> r == (m, Err(NoSession))
    ensures sessionId in m.sessions && m.sessions[sessionId].quizId !in m.quizzes ==> r == (m, Err(NoQuiz))
    ensures sessionId in m.sessions && m.sessions[sessionId].quizId in m.quizzes ==>
      var s := m.sessions[sessionId];
      var total := |m.quizzes[s.quizId].questions|;
      && r.0 == Manager(m.quizzes, m.sessions[sessionId := s.(completed := true)])
      && r.1.Ok?
      && r.1.value.score == s.score && r.1.value.totalQuestions == total
      && r.1.value.percentage == Percentage(s.score, total)
      && r.1.value.level == Some(GradeOf(s.score, total))
      && r.1.value.passed == (Percentage(s.score, total) >= 60.0)
      && r.1.value.answers == s.answers
  {
    if sessionId !in m.sessions then (m, Err(NoSession))
    else
      var s := m.sessions[sessionId];
      if s.quizId !in m.quizzes then (m, Err(NoQuiz))
      else
        var total := |m.quizzes[s.quizId].questions|;
        var report := Report(sessionId, s.quizId, s.score, total, Percentage(s.score, total),
                             Some(GradeOf(s.score, total)), s.answers, Passed(s.score, total));
        (Manager(m.quizzes, m.sessions[sessionId := s.(completed := true)]), Ok(report))
  }

  /** `get_quiz_results`: an unfinished session is completed first; a completed one is
      reported as it stands, with 0 questions if its quiz has disappeared. */
  function GetQuizResults(m: Manager, sessionId: string): (r: (Manager, Result<Report, string>))
    ensures sessionId !in m.sessions ==> r == (m, Err(NoSession))
    ensures sessionId in m.sessions && !m.sessions[sessionId].completed ==> r == CompleteQuiz(m, sessionId)
    ensures sessionId in m.sessions && m.sessions[sessionId].completed ==>
      var s := m.sessions[sessionId];
      var total := if s.quizId in m.quizzes then |m.quizzes[s.quizId].questions| else 0;
      && r.0 == m && r.1.Ok?
      && r.1.value.score == s.score && r.1.value.totalQuestions == total
      && r.1.value.passed == (Percentage(s.score, total) >= 60.0) && r.1.value.level.None?
      && r.1.value.percentage == Percentage(s.score, total) && r.1.value.answers == s.answers
      && r.1.value.sessionId == sessionId && r.1.value.quizId == s.quizId
  {
    if sessionId !in m.sessions then (m, Err(NoSession))
    else
      var s := m.sessions[sessionId];
      if !s.completed then CompleteQuiz(m, sessionId)
      else
        var total := if s.quizId in m.quizzes then |m.quizzes[s.quizId].questions| else 0;
        (m, Ok(Report(sessionId, s.quizId, s.score, total, Percentage(s.score, total), None,
                      s.answers, Passed(s.score, total))))
  }

  /** Asking for the results twice gives the same score, total and pass mark, and the
      second request changes nothing. */
  lemma ResultsStable(m: Manager, sessionId: string)
    requires GetQuizResults(m, sessionId).1.Ok?
    ensures var (m1, r1) := GetQuizResults(m, sessionId);
      var (m2, r2) := GetQuizResults(m1, sessionId);
      && m2 == m1 && r2.Ok?
      && r2.value.score == r1.value.score
      && r2.value.totalQuestions == r1.value.totalQuestions
      && r2.value.passed == r1.value.passed
  {
  }
}

=== FILE: rag_assistant.dfy ===
/**
 * The retrieval side of the course assistant: the embeddings cache built from
 * the catalog's chunk rows, the level-filtered top-k selection over given
 * similarity scores, the per-document source list, and the result flags of a
 * question's answer. Embedding vectors come from an `encode` parameter and
 * similarity scores are inputs; the model only decides what is selected.
 */
module RagAssistant {
  import opened Wrappers
  import opened Ranking
  import Dedup

  /** One row of the chunk/document join, as kept in `chunk_data`. */
  datatype ChunkRecord = ChunkRecord(
    chunkId: string, content: string, docId: string, title: string,
    level: string, category: string, filePath: string)

  type Vector = seq<real>

  /** `chunk_embeddings` and `chunk_data`, meant to run in parallel. */
  datatype Cache = Cache(embeddings: seq<Vector>, data: seq<ChunkRecord>)

  /** Row `i` of the embeddings is the encoding of record `i`'s content. */
  predicate Describes(c: Cache, encode: string -> Vector) {
    && |c.embeddings| == |c.data|
    && forall i :: 0 <= i < |c.data| ==> c.embeddings[i] == encode(c.data[i].content)
  }

  // ---------------------------------------------------------------------
  // the cache

  /** `_create_embeddings_cache`: no rows leave the cache unset; otherwise the
      records are the rows, in order, and every embedding row encodes its record. */
  function CreateEmbeddingsCache(rows: seq<ChunkRecord>, encode: string -> Vector): (r: Option<Cache>)
    ensures r.None? <==> |rows| == 0
    ensures r.Some? ==> r.value.data == rows && Describes(r.value, encode)
  {
    if |rows| == 0 then None
    else Some(Cache(seq(|rows|, i requires 0 <= i < |rows| => encode(rows[i].content)), rows))
  }

  /** The assistant's cache after start-up, and the cache file afterwards. */
  datatype Loaded = Loaded(cache: Option<Cache>, file: Option<Cache>)

  /** `_load_embeddings_cache`: an existing cache file is served as it is; without one
      the cache is built from the rows and written out unless it came out unset. */
  function LoadEmbeddingsCache(file: Option<Cache>, rows: seq<ChunkRecord>, encode: string -> Vector): (r: Loaded)
    ensures file.Some? ==> r.cache == file && r.file == file
    ensures file.None? ==> r.file == r.cache && (r.cache.None? <==> |rows| == 0)
    ensures file.None? && r.cache.Some? ==> r.cache.value.data == rows && Describes(r.cache.value, encode)
  {
    if file.Some? then Loaded(file, file)
    else
      var c := CreateEmbeddingsCache(rows, encode);
      Loaded(c, c)
  }

  /** Once a cache file exists every later start-up serves it, whatever rows the
      catalog holds by then: chunks indexed later do not reach the cache. */
  lemma CacheFileFreezes(file: Option<Cache>, rows: seq<ChunkRecord>, later: seq<ChunkRecord>, encode: string -> Vector)
    requires LoadEmbeddingsCache(file, rows, encode).cache.Some?
    ensures LoadEmbeddingsCache(LoadEmbeddingsCache(file, rows, encode).file, later, encode)
         == LoadEmbeddingsCache(file, rows, encode)
  {
  }

  // ---------------------------------------------------------------------
  // selection

  /** `if level:` — a level filter applies only when one is given and it is not empty. */
  predicate Filtering(level: Option<string>) {
    level.Some? && level.value != ""
  }

  /** The record passes the level filter. */
  predicate MatchesLevel(c: ChunkRecord, level: Option<string>) {
    !Filtering(level) || c.level == level.value
  }

  /** The scores after level masking: records outside the requested level are scored
      with the sentinel -1, so they can never pass the 0.3 threshold. */
  function Masked(data: seq<ChunkRecord>, scores: seq<real>, level: Option<string>): (m: seq<real>)
    requires |scores| == |data|
    ensures |m| == |scores|
    ensures forall i :: 0 <= i < |m| && MatchesLevel(data[i], level) ==> m[i] == scores[i]
    ensures forall i :: 0 <= i < |m| && m[i] > -1.0 ==> MatchesLevel(data[i], level) && m[i] == scores[i]
  {
    if Filtering(level) then
      seq(|scores|, i requires 0 <= i < |scores| => if data[i].level == level.value then scores[i] else -1.0)
    else scores
  }

  /** The relevance threshold of `find_relevant_chunks`: strictly above 0.3. */
  function Relevant(s: real): bool {
    s > 0.3
  }

  /** A cached record handed out with its similarity. */
  datatype Hit = Hit(chunk: ChunkRecord, similarity: real)

  /** What `find_relevant_chunks` needs of its cache and scores: one score per
      embedding row, one record per row, and a valid argsort of the masked scores. */
  predicate Searchable(c: Cache, scores: seq<real>, order: seq<nat>, level: Option<string>) {
    && |c.embeddings| == |c.data|
    && |scores| == |c.embeddings|
    && IsArgSort(Masked(c.data, scores, level), order)
  }

  /** `find_relevant_chunks`: no cache gives no results; otherwise at most `top_k`
      copies of cached records, best first, each strictly above 0.3 and at the
      requested level, each carrying its own record's score. */
  function FindRelevantChunks(cache: Option<Cache>, scores: seq<real>, order: seq<nat>, topK: int, level: Option<string>): (r: seq<Hit>)
    requires cache.Some? ==> Searchable(cache.value, scores, order, level)
    ensures cache.None? ==> r == []
    ensures topK >= 1 ==> |r| <= topK
    ensures forall i :: 0 <= i < |r| ==> r[i].similarity > 0.3 && MatchesLevel(r[i].chunk, level)
    ensures forall i, j :: 0 <= i < j < |r| ==> r[i].similarity >= r[j].similarity
    ensures cache.Some? ==> forall i :: 0 <= i < |r| ==>
              exists j :: 0 <= j < |scores| && r[i] == Hit(cache.value.data[j], scores[j])
    ensures cache.Some? ==> forall j, i ::
              (0 <= j < |scores| && scores[j] > 0.3 && MatchesLevel(cache.value.data[j], level)
               && Hit(cache.value.data[j], scores[j]) !in r && 0 <= i < |r|) ==> scores[j] <= r[i].similarity
    ensures cache.Some? ==> exists idxs :: Distinct(idxs) && HitsFrom(cache.value.data, scores, idxs, r)
  {
    if cache.None? then []
    else
      var data := cache.value.data;
      var m := Masked(data, scores, level);
      var idxs := SelectTop(m, order, topK, Relevant);
      var r := HitsOf(data, m, idxs);
      FoundHits(data, scores, order, topK, level, m, idxs, r);
      r
  }

  /** The hit of each selected index, carrying the masked score. */
  function HitsOf(data: seq<ChunkRecord>, m: seq<real>, idxs: seq<nat>): (r: seq<Hit>)
    requires |m| == |data| && InRange(m, idxs)
    ensures |r| == |idxs|
    ensures forall i :: 0 <= i < |r| ==> r[i] == Hit(data[idxs[i]], m[idxs[i]])
  {
    seq(|idxs|, i requires 0 <= i < |idxs| => Hit(data[idxs[i]], m[idxs[i]]))
  }

  /** The guarantees of `FindRelevantChunks` for a present cache, gathered in one place. */
  lemma FoundHits(data: seq<ChunkRecord>, scores: seq<real>, order: seq<nat>, topK: int, level: Option<string>,
                  m: seq<real>, idxs: seq<nat>, r: seq<Hit>)
    requires |scores| == |data| && m == Masked(data, scores, level) && IsArgSort(m, order)
    requires idxs == SelectTop(m, order, topK, Relevant) && r == HitsOf(data, m, idxs)
    ensures topK >= 1 ==> |r| <= topK
    ensures forall i :: 0 <= i < |r| ==> r[i].similarity > 0.3 && MatchesLevel(r[i].chunk, level)
    ensures forall i, j :: 0 <= i < j < |r| ==> r[i].similarity >= r[j].similarity
    ensures forall i :: 0 <= i < |r| ==> exists j :: 0 <= j < |scores| && r[i] == Hit(data[j], scores[j])
    ensures forall j, i ::
              (0 <= j < |scores| && scores[j] > 0.3 && MatchesLevel(data[j], level)
               && Hit(data[j], scores[j]) !in r && 0 <= i < |r|) ==> scores[j] <= r[i].similarity
    ensures Distinct(idxs) && HitsFrom(data, scores, idxs, r)
  {
    SelectedHits(data, scores, level, m, idxs, r);
    LeftOutScoresLower(data, scores, level, m, idxs, r);
    forall i | 0 <= i < |r| ensures idxs[i] < |data| && r[i] == Hit(data[idxs[i]], scores[idxs[i]]) {
      assert Relevant(m[idxs[i]]);
    }
  }

  /** `r` holds, in order, the hit of each record of `idxs` with its own score. */
  predicate HitsFrom(data: seq<ChunkRecord>, scores: seq<real>, idxs: seq<nat>, r: seq<Hit>) {
    && |idxs| == |r|
    && forall i :: 0 <= i < |r| ==> idxs[i] < |data| && idxs[i] < |scores| && r[i] == Hit(data[idxs[i]], scores[idxs[i]])
  }

  /** Hits built from selected indices of the masked scores carry their records'
      own scores, pass the level filter and the threshold, and stay best first. */
  lemma SelectedHits(data: seq<ChunkRecord>, scores: seq<real>, level: Option<string>,
                     m: seq<real>, idxs: seq<nat>, r: seq<Hit>)
    requires |scores| == |data| && m == Masked(data, scores, level)
    requires InRange(m, idxs) && Descending(m, idxs) && |r| == |idxs|
    requires forall i :: 0 <= i < |idxs| ==> Relevant(m[idxs[i]])
    requires forall i :: 0 <= i < |r| ==> r[i] == Hit(data[idxs[i]], m[idxs[i]])
    ensures forall i :: 0 <= i < |r| ==> r[i].similarity > 0.3 && MatchesLevel(r[i].chunk, level)
    ensures forall i, j :: 0 <= i < j < |r| ==> r[i].similarity >= r[j].similarity
    ensures forall i :: 0 <= i < |r| ==> exists j :: 0 <= j < |scores| && r[i] == Hit(data[j], scores[j])
  {
    forall i | 0 <= i < |r| ensures exists j :: 0 <= j < |scores| && r[i] == Hit(data[j], scores[j]) {
      var x := idxs[i];
      assert x < |m| && m[x] > -1.0;
      assert r[i] == Hit(data[x], scores[x]);
    }
    assert forall i :: 0 <= i < |r| ==> r[i].similarity > 0.3;
    assert forall i :: 0 <= i < |r| ==> MatchesLevel(r[i].chunk, level);
    assert forall i, j :: 0 <= i < j < |r| ==> r[i].similarity >= r[j].similarity;
  }

  /** A relevant record whose hit is missing from the results was not selected, so
      the selection's best-first guarantee bounds its score by every returned one. */
  lemma LeftOutScoresLower(data: seq<ChunkRecord>, scores: seq<real>, level: Option<string>,
                           m: seq<real>, idxs: seq<nat>, r: seq<Hit>)
    requires |scores| == |data| && m == Masked(data, scores, level)
    requires InRange(m, idxs) && |r| == |idxs|
    requires forall i :: 0 <= i < |r| ==> r[i] == Hit(data[idxs[i]], m[idxs[i]])
    requires forall x, y :: 0 <= x < |m| && Relevant(m[x]) && x !in idxs && y in idxs ==> m[x] <= m[y]
    ensures forall j, i ::
              (0 <= j < |scores| && scores[j] > 0.3 && MatchesLevel(data[j], level)
               && Hit(data[j], scores[j]) !in r && 0 <= i < |r|) ==> scores[j] <= r[i].similarity
  {
    forall j, i | 0 <= j < |scores| && scores[j] > 0.3 && MatchesLevel(data[j], level)
                  && Hit(data[j], scores[j]) !in r && 0 <= i < |r|
      ensures scores[j] <= r[i].similarity
    {
      assert m[j] == scores[j] && Relevant(m[j]);
      assert j !in idxs;
      assert idxs[i] in idxs;
    }
  }

  /** Nothing relevant is lost when fewer than `top_k` results come back (or when
      `top_k` is 0, which keeps every index): every record at the requested level
      scoring above 0.3 is then among the results. */
  lemma FindRelevantComplete(c: Cache, scores: seq<real>, order: seq<nat>, topK: int, level: Option<string>)
    requires Searchable(c, scores, order, level)
    requires topK == 0 || (topK >= 1 && |FindRelevantChunks(Some(c), scores, order, topK, level)| < topK)
    ensures forall j :: 0 <= j < |scores| && scores[j] > 0.3 && MatchesLevel(c.data[j], level) ==>
              Hit(c.data[j], scores[j]) in FindRelevantChunks(Some(c), scores, order, topK, level)
  {
    var m := Masked(c.data, scores, level);
    var idxs := SelectTop(m, order, topK, Relevant);
    var r := FindRelevantChunks(Some(c), scores, order, topK, level);
    assert |r| == |idxs|;
    if topK >= 1 {
      SelectTopComplete(m, order, topK, Relevant);
    }
    forall j | 0 <= j < |scores| && scores[j] > 0.3 && MatchesLevel(c.data[j], level)
      ensures Hit(c.data[j], scores[j]) in r
    {
      assert Relevant(m[j]);
      assert j in idxs;
      var p :| 0 <= p < |idxs| && idxs[p] == j;
      assert r[p] == Hit(c.data[j], scores[j]);
    }
  }

  // ---------------------------------------------------------------------
  // sources and answer flags

  /** One entry of the source list; `relevance` is the similarity as a percentage. */
  datatype Source = Source(title: string, level: string, category: string, filePath: string, relevance: real)

  function DocOf(h: Hit): string {
    h.chunk.docId
  }

  function SourceOf(h: Hit): Source {
    Source(h.chunk.title, h.chunk.level, h.chunk.category, h.chunk.filePath, h.similarity * 100.0)
  }

  function SourcesOf(hits: seq<Hit>): (r: seq<Source>)
    ensures |r| == |hits|
    ensures forall i :: 0 <= i < |r| ==> r[i] == SourceOf(hits[i])
  {
    seq(|hits|, i requires 0 <= i < |hits| => SourceOf(hits[i]))
  }

  /** `_format_sources`: one entry per distinct document, each built from a chunk of
      the input; no entry when there is no chunk and at least one when there is. */
  function FormatSources(hits: seq<Hit>): (r: seq<Source>)
    ensures |r| == |Dedup.KeysOf(hits, DocOf)| && |r| <= |hits|
    ensures |hits| > 0 ==> |r| > 0
    ensures forall i :: 0 <= i < |r| ==> exists j :: 0 <= j < |hits| && r[i] == SourceOf(hits[j])
  {
    var firsts := Dedup.FirstByKey(hits, DocOf);
    assert |hits| > 0 ==> DocOf(hits[0]) in Dedup.KeysOf(hits, DocOf);
    assert forall i :: 0 <= i < |firsts| ==> firsts[i] in hits;
    SourcesOf(firsts)
  }

  /** The entries are those of each document's first chunk, in first-seen order. */
  lemma FormatSourcesFirstSeen(hits: seq<Hit>)
    ensures FormatSources(hits) == SourcesOf(Dedup.FirstOccurrences(hits, DocOf))
  {
    Dedup.FirstByKeyIsFirstOccurrences(hits, DocOf);
  }

  /** The dictionary `answer_question` returns; `relevantCourses` is absent when no
      chunk was found. The set stands for `list(set(titles))`, whose order Python
      does not fix. */
  datatype Answer = Answer(answer: string, sources: seq<Source>, hasCourseReferences: bool,
                           relevantCourses: Option<set<string>>)

  /** `answer_question` with the model's reply as an input: at most five chunks are
      retrieved; without any, no sources and no course references; with some, course
      references, the set of their titles, and, when asked for, the sources
      `_format_sources` makes of them. */
  function AnswerQuestion(cache: Option<Cache>, scores: seq<real>, order: seq<nat>, level: Option<string>,
                          includeSources: bool, reply: string): (r: Answer)
    requires cache.Some? ==> Searchable(cache.value, scores, order, level)
    ensures r.answer == reply && |r.sources| <= 5
    ensures var found := FindRelevantChunks(cache, scores, order, 5, level);
      && (|found| == 0 ==> r.sources == [] && !r.hasCourseReferences && r.relevantCourses.None?)
      && (|found| > 0 ==> r.hasCourseReferences && (r.sources == [] <==> !includeSources)
                          && r.relevantCourses == Some(set h | h in found :: h.chunk.title))
    ensures var found := FindRelevantChunks(cache, scores, order, 5, level);
      |found| > 0 && includeSources ==> r.sources == FormatSources(found)
    ensures cache.None? ==> !r.hasCourseReferences
  {
    var found := FindRelevantChunks(cache, scores, order, 5, level);
    if |found| == 0 then Answer(reply, [], false, None)
    else
      var sources := if includeSources then FormatSources(found) else [];
      Answer(reply, sources, true, Some(set h | h in found :: h.chunk.title))
  }
}

=== FILE: ranking.dfy ===
/**
 * The discrete part of similarity search once the scores exist:
 * `np.argsort(scores)[-top_k:][::-1]` followed by a per-index keep test.
 * `np.argsort` does not fix the order of equal scores, so every operation
 * here takes the argsort result as an input and asks only that it be a
 * valid one (`IsArgSort`); `StableArgSort` shows one always exists.
 */
module Ranking {

  /** Every entry of `order` indexes `scores`. */
  predicate InRange(scores: seq<real>, order: seq<nat>) {
    forall i :: 0 <= i < |order| ==> order[i] < |scores|
  }

  predicate Distinct(order: seq<nat>) {
    forall i, j :: 0 <= i < j < |order| ==> order[i] != order[j]
  }

  predicate Ascending(scores: seq<real>, order: seq<nat>)
    requires InRange(scores, order)
  {
    forall i, j :: 0 <= i < j < |order| ==> scores[order[i]] <= scores[order[j]]
  }

  predicate Descending(scores: seq<real>, order: seq<nat>)
    requires InRange(scores, order)
  {
    forall i, j :: 0 <= i < j < |order| ==> scores[order[i]] >= scores[order[j]]
  }

  /** Equal scores keep their index order. */
  predicate TiesByIndex(scores: seq<real>, order: seq<nat>)
    requires InRange(scores, order)
  {
    forall i, j :: 0 <= i < j < |order| && scores[order[i]] == scores[order[j]] ==> order[i] < order[j]
  }

  /** `order` is a possible value of `np.argsort(scores)`: a permutation of the
      indices of `scores` listing them by non-decreasing score. */
  predicate IsArgSort(scores: seq<real>, order: seq<nat>) {
    && |order| == |scores|
    && InRange(scores, order)
    && Distinct(order)
    && (forall k :: 0 <= k < |scores| ==> k in order)
    && Ascending(scores, order)
  }

  // ---------------------------------------------------------------------
  // a stable argsort

  /** How many leading entries of an ascending `sorted` score at most `scores[k]`. */
  function InsertPos(scores: seq<real>, sorted: seq<nat>, k: nat): (p: nat)
    requires k < |scores| && InRange(scores, sorted)
    ensures p <= |sorted|
    ensures forall i :: 0 <= i < p ==> scores[sorted[i]] <= scores[k]
    ensures p < |sorted| ==> scores[k] < scores[sorted[p]]
  {
    if |sorted| == 0 || scores[k] < scores[sorted[0]] then 0
    else 1 + InsertPos(scores, sorted[1..], k)
  }

  /** Inserts index `k` after every index whose score is at most `scores[k]`. */
  function InsertStable(scores: seq<real>, sorted: seq<nat>, k: nat): (r: seq<nat>)
    requires k < |scores| && InRange(scores, sorted)
    requires Ascending(scores, sorted) && Distinct(sorted) && TiesByIndex(scores, sorted)
    requires forall i :: 0 <= i < |sorted| ==> sorted[i] < k
    ensures |r| == |sorted| + 1
    ensures forall x :: x in r <==> x in sorted || x == k
    ensures InRange(scores, r) && Ascending(scores, r) && Distinct(r) && TiesByIndex(scores, r)
  {
    var p := InsertPos(scores, sorted, k);
    InsertAtPos(scores, sorted, k, p);
    sorted[..p] + [k] + sorted[p..]
  }

  lemma InsertAtPos(scores: seq<real>, sorted: seq<nat>, k: nat, p: nat)
    requires k < |scores| && InRange(scores, sorted)
    requires Ascending(scores, sorted) && Distinct(sorted) && TiesByIndex(scores, sorted)
    requires forall i :: 0 <= i < |sorted| ==> sorted[i] < k
    requires p == InsertPos(scores, sorted, k)
    ensures forall x :: x in sorted[..p] + [k] + sorted[p..] <==> x in sorted || x == k
    ensures InRange(scores, sorted[..p] + [k] + sorted[p..])
    ensures Ascending(scores, sorted[..p] + [k] + sorted[p..])
    ensures Distinct(sorted[..p] + [k] + sorted[p..])
    ensures TiesByIndex(scores, sorted[..p] + [k] + sorted[p..])
  {
    var r := sorted[..p] + [k] + sorted[p..];
    InsertShape(scores, sorted, k, p);
    InsertAtPosOrder(scores, sorted, k, p, r);
  }

  /** Inserting an in-range index into an in-range sequence: membership and range. */
  lemma InsertShape(scores: seq<real>, sorted: seq<nat>, k: nat, p: nat)
    requires k < |scores| && InRange(scores, sorted) && p <= |sorted|
    ensures forall x :: x in sorted[..p] + [k] + sorted[p..] <==> x in sorted || x == k
    ensures InRange(scores, sorted[..p] + [k] + sorted[p..])
  {
    var r := sorted[..p] + [k] + sorted[p..];
    assert sorted == sorted[..p] + sorted[p..];
    forall i | 0 <= i < |r| ensures r[i] < |scores| {
      if i < p { assert r[i] == sorted[i]; } else if i > p { assert r[i] == sorted[i - 1]; }
    }
  }

  lemma InsertAtPosOrder(scores: seq<real>, sorted: seq<nat>, k: nat, p: nat, r: seq<nat>)
    requires k < |scores| && InRange(scores, sorted)
    requires Ascending(scores, sorted) && Distinct(sorted) && TiesByIndex(scores, sorted)
    requires forall i :: 0 <= i < |sorted| ==> sorted[i] < k
    requires p == InsertPos(scores, sorted, k)
    requires r == sorted[..p] + [k] + sorted[p..] && InRange(scores, r)
    ensures Ascending(scores, r) && Distinct(r) && TiesByIndex(scores, r)
  {
    InsertPositions(sorted, k, p, r);
    InsertAscending(scores, sorted, k, p, r);
    InsertDistinctTies(scores, sorted, k, p, r);
  }

  /** Inserting an index above all others at `p` keeps the entries distinct and, as
      everything after `p` scores more than `k`, equal scores in index order. */
  lemma InsertDistinctTies(scores: seq<real>, sorted: seq<nat>, k: nat, p: nat, r: seq<nat>)
    requires k < |scores| && InRange(scores, sorted) && Ascending(scores, sorted)
    requires Distinct(sorted) && TiesByIndex(scores, sorted)
    requires forall i :: 0 <= i < |sorted| ==> sorted[i] < k
    requires p <= |sorted| && |r| == |sorted| + 1 && r[p] == k
    requires forall i :: 0 <= i < p ==> r[i] == sorted[i]
    requires forall i :: p < i < |r| ==> r[i] == sorted[i - 1]
    requires p < |sorted| ==> scores[k] < scores[sorted[p]]
    requires InRange(scores, r)
    ensures Distinct(r) && TiesByIndex(scores, r)
  {
    forall i, j | 0 <= i < j < |r| ensures r[i] != r[j] && (scores[r[i]] == scores[r[j]] ==> r[i] < r[j]) {
      if j < p {
        assert r[i] == sorted[i] && r[j] == sorted[j];
      } else if j == p {
        assert r[i] == sorted[i];
      } else if i < p {
        assert r[i] == sorted[i] && r[j] == sorted[j - 1];
      } else if i == p {
        assert r[j] == sorted[j - 1];
        assert scores[sorted[p]] <= scores[sorted[j - 1]];
      } else {
        assert r[i] == sorted[i - 1] && r[j] == sorted[j - 1];
      }
    }
  }

  /** Inserting `k` after the entries scoring at most `scores[k]` and before the
      first one scoring more keeps the order ascending. */
  lemma InsertAscending(scores: seq<real>, sorted: seq<nat>, k: nat, p: nat, r: seq<nat>)
    requires k < |scores| && InRange(scores, sorted) && Ascending(scores, sorted)
    requires p <= |sorted| && |r| == |sorted| + 1 && r[p] == k
    requires forall i :: 0 <= i < p ==> r[i] == sorted[i] && scores[sorted[i]] <= scores[k]
    requires forall i :: p < i < |r| ==> r[i] == sorted[i - 1]
    requires p < |sorted| ==> scores[k] < scores[sorted[p]]
    requires InRange(scores, r)
    ensures Ascending(scores, r)
  {
    forall i, j | 0 <= i < j < |r| ensures scores[r[i]] <= scores[r[j]] {
      if j < p {
        assert r[i] == sorted[i] && r[j] == sorted[j];
      } else if j == p {
        assert r[i] == sorted[i];
      } else if i < p {
        assert r[i] == sorted[i] && r[j] == sorted[j - 1];
      } else if i == p {
        assert r[j] == sorted[j - 1];
        assert scores[sorted[p]] <= scores[sorted[j - 1]];
      } else {
        assert r[i] == sorted[i - 1] && r[j] == sorted[j - 1];
      }
    }
  }

  /** Where each entry of `sorted` lands once `k` is inserted at `p`. */
  lemma InsertPositions(sorted: seq<nat>, k: nat, p: nat, r: seq<nat>)
    requires p <= |sorted| && r == sorted[..p] + [k] + sorted[p..]
    ensures |r| == |sorted| + 1 && r[p] == k
    ensures forall i :: 0 <= i < p ==> r[i] == sorted[i]
    ensures forall i :: p < i < |r| ==> r[i] == sorted[i - 1]
  {
  }

  /** Argsort of the first `n` scores, ties in index order. */
  function StableArgSortUpTo(scores: seq<real>, n: nat): (r: seq<nat>)
    requires n <= |scores|
    ensures |r| == n
    ensures forall i :: 0 <= i < |r| ==> r[i] < n
    ensures forall k :: 0 <= k < n ==> k in r
    ensures InRange(scores, r) && Ascending(scores, r) && Distinct(r) && TiesByIndex(scores, r)
  {
    if n == 0 then [] else InsertStable(scores, StableArgSortUpTo(scores, n - 1), n - 1)
  }

  /** A valid argsort exists for every score vector; this one breaks ties by index. */
  function StableArgSort(scores: seq<real>): (r: seq<nat>)
    ensures IsArgSort(scores, r)
    ensures TiesByIndex(scores, r)
  {
    StableArgSortUpTo(scores, |scores|)
  }

  // ---------------------------------------------------------------------
  // top-k cut

  function Reverse<T>(s: seq<T>): (r: seq<T>)
    ensures |r| == |s|
    ensures forall i :: 0 <= i < |s| ==> r[i] == s[|s| - 1 - i]
  {
    seq(|s|, i requires 0 <= i < |s| => s[|s| - 1 - i])
  }

  /** Where Python's `s[-k:]` starts. */
  function TailStart(len: nat, k: int): (st: nat)
    ensures st <= len
  {
    if k > 0 then (if k < len then len - k else 0)
    else if -k < len then -k else len
  }

  /** `order[-k:][::-1]`: the indices kept by the top-k cut, best first. For
      `k >= 1` at most `k` of them; `k == 0` keeps every index, since `-0 == 0`;
      in every case the indices cut away score no higher than any kept one. */
  function TopIndices(scores: seq<real>, order: seq<nat>, k: int): (r: seq<nat>)
    requires IsArgSort(scores, order)
    ensures InRange(scores, r) && Descending(scores, r) && Distinct(r)
    ensures forall i :: 0 <= i < |r| ==> r[i] in order
    ensures k >= 1 ==> |r| == if k < |order| then k else |order|
    ensures (k == 0 || k >= |order|) ==> forall x :: 0 <= x < |scores| ==> x in r
    ensures forall x, y :: x in order && x !in r && y in r ==> scores[x] <= scores[y]
  {
    var st := TailStart(|order|, k);
    var r := Reverse(order[st..]);
    TopIndicesCut(scores, order, st);
    r
  }

  /** Cutting an ascending order at `st` and reversing the tail gives a descending
      order whose entries all score at least as high as the entries cut away. */
  lemma TopIndicesCut(scores: seq<real>, order: seq<nat>, st: nat)
    requires IsArgSort(scores, order) && st <= |order|
    ensures InRange(scores, Reverse(order[st..]))
    ensures Descending(scores, Reverse(order[st..])) && Distinct(Reverse(order[st..]))
    ensures forall x :: x in Reverse(order[st..]) <==> x in order[st..]
    ensures forall x, y :: x in order && x !in Reverse(order[st..]) && y in Reverse(order[st..]) ==> scores[x] <= scores[y]
  {
    var tail := order[st..];
    var r := Reverse(tail);
    assert forall j :: st <= j < |order| ==> order[j] == tail[j - st];
    assert forall i :: 0 <= i < |r| ==> r[i] == order[|order| - 1 - i];
    assert forall x :: x in r <==> x in tail by {
      assert forall i :: 0 <= i < |tail| ==> tail[i] == r[|tail| - 1 - i];
    }
    forall x, y | x in order && x !in r && y in r ensures scores[x] <= scores[y] {
      var p :| 0 <= p < |order| && order[p] == x;
      var q :| 0 <= q < |r| && r[q] == y;
      assert p < st;
    }
  }

  // ---------------------------------------------------------------------
  // the per-index keep test

  /** `[idx for idx in idxs if keep(idx)]` */
  function KeepWhere(idxs: seq<nat>, keep: nat -> bool): (r: seq<nat>)
    ensures |r| <= |idxs|
    ensures forall i :: 0 <= i < |r| ==> r[i] in idxs && keep(r[i])
    ensures forall x :: x in idxs && keep(x) ==> x in r
  {
    if |idxs| == 0 then []
    else
      var rest := KeepWhere(idxs[1..], keep);
      assert forall x :: x in idxs <==> x == idxs[0] || x in idxs[1..];
      if keep(idxs[0]) then [idxs[0]] + rest else rest
  }

  /** Keeping a subsequence preserves a descending score order and distinctness. */
  lemma {:induction false} KeepWhereOrder(scores: seq<real>, idxs: seq<nat>, keep: nat -> bool)
    requires InRange(scores, idxs) && Descending(scores, idxs) && Distinct(idxs)
    ensures InRange(scores, KeepWhere(idxs, keep))
    ensures Descending(scores, KeepWhere(idxs, keep)) && Distinct(KeepWhere(idxs, keep))
  {
    if |idxs| > 0 {
      KeepWhereOrder(scores, idxs[1..], keep);
      var rest := KeepWhere(idxs[1..], keep);
      if keep(idxs[0]) {
        HeadAbove(scores, idxs);
        ConsOrder(scores, idxs[0], rest);
      }
    }
  }

  /** The head of a descending, distinct order scores at least as high as, and
      differs from, every later entry. */
  lemma HeadAbove(scores: seq<real>, idxs: seq<nat>)
    requires |idxs| > 0 && InRange(scores, idxs) && Descending(scores, idxs) && Distinct(idxs)
    ensures forall x :: x in idxs[1..] ==> scores[idxs[0]] >= scores[x] && x != idxs[0]
  {
    forall x | x in idxs[1..] ensures scores[idxs[0]] >= scores[x] && x != idxs[0] {
      var j :| 0 <= j < |idxs[1..]| && idxs[1..][j] == x;
      assert idxs[j + 1] == x;
    }
  }

  /** Putting an index in front of a descending, distinct order it dominates and
      does not occur in keeps the order descending and distinct. */
  lemma ConsOrder(scores: seq<real>, h: nat, rest: seq<nat>)
    requires h < |scores| && InRange(scores, rest) && Descending(scores, rest) && Distinct(rest)
    requires forall x :: x in rest ==> scores[h] >= scores[x] && x != h
    ensures InRange(scores, [h] + rest) && Descending(scores, [h] + rest) && Distinct([h] + rest)
  {
    var r := [h] + rest;
    forall i, j | 0 <= i < j < |r| ensures scores[r[i]] >= scores[r[j]] && r[i] != r[j] {
      assert r[j] == rest[j - 1];
      if i > 0 {
        assert r[i] == rest[i - 1];
      } else {
        assert rest[j - 1] in rest;
      }
    }
  }

  /** A weaker keep test keeps at least as many indices: the keep tests are
      evaluated index by index, so they shrink the result monotonically. */
  lemma {:induction false} KeepWhereMonotone(idxs: seq<nat>, weak: nat -> bool, strong: nat -> bool)
    requires forall x :: strong(x) ==> weak(x)
    ensures |KeepWhere(idxs, strong)| <= |KeepWhere(idxs, weak)|
  {
    if |idxs| > 0 {
      KeepWhereMonotone(idxs[1..], weak, strong);
    }
  }

  /** Keeping every index of a list keeps the list. */
  lemma {:induction false} KeepWhereAll(idxs: seq<nat>, keep: nat -> bool)
    requires forall i :: 0 <= i < |idxs| ==> keep(idxs[i])
    ensures KeepWhere(idxs, keep) == idxs
  {
    if |idxs| > 0 {
      assert forall i :: 0 <= i < |idxs| - 1 ==> idxs[1..][i] == idxs[i + 1];
      KeepWhereAll(idxs[1..], keep);
      assert [idxs[0]] + idxs[1..] == idxs;
    }
  }

  // ---------------------------------------------------------------------
  // top-k followed by a score threshold

  /** A score test that stays true for every higher score, like `s > 0.3` or `s >= t`. */
  ghost predicate UpwardClosed(keep: real -> bool) {
    forall a, b :: keep(a) && a <= b ==> keep(b)
  }

  /** `[idx for idx in argsort(scores)[-k:][::-1] if keep(scores[idx])]`: best first,
      at most `k` of them for `k >= 1`, every one passing the score test, and no
      passing index left out scores higher than a returned one. */
  function SelectTop(scores: seq<real>, order: seq<nat>, k: int, keep: real -> bool): (r: seq<nat>)
    requires IsArgSort(scores, order)
    ensures InRange(scores, r) && Descending(scores, r) && Distinct(r)
    ensures forall i :: 0 <= i < |r| ==> keep(scores[r[i]])
    ensures k >= 1 ==> |r| <= k
    ensures k == 0 ==> forall x :: 0 <= x < |scores| && keep(scores[x]) ==> x in r
    ensures forall x, y :: 0 <= x < |scores| && keep(scores[x]) && x !in r && y in r ==> scores[x] <= scores[y]
  {
    var top := TopIndices(scores, order, k);
    var r := KeepWhere(top, ScoreTest(scores, keep));
    SelectTopFacts(scores, order, k, keep, top, r);
    r
  }

  /** The per-index form of a score test: the index is in range and its score passes. */
  function ScoreTest(scores: seq<real>, keep: real -> bool): nat -> bool
  {
    (x: nat) => x < |scores| && keep(scores[x])
  }

  /** The facts `SelectTop` promises, for the kept part of the top-k cut. */
  lemma SelectTopFacts(scores: seq<real>, order: seq<nat>, k: int, keep: real -> bool, top: seq<nat>, r: seq<nat>)
    requires IsArgSort(scores, order)
    requires top == TopIndices(scores, order, k) && r == KeepWhere(top, ScoreTest(scores, keep))
    ensures InRange(scores, r) && Descending(scores, r) && Distinct(r)
    ensures forall i :: 0 <= i < |r| ==> keep(scores[r[i]])
    ensures k >= 1 ==> |r| <= k
    ensures k == 0 ==> forall x :: 0 <= x < |scores| && keep(scores[x]) ==> x in r
    ensures forall x, y :: 0 <= x < |scores| && keep(scores[x]) && x !in r && y in r ==> scores[x] <= scores[y]
  {
    var test := ScoreTest(scores, keep);
    KeepWhereOrder(scores, top, test);
    forall i | 0 <= i < |r| ensures keep(scores[r[i]]) {
      assert test(r[i]);
    }
    SelectTopBest(scores, order, top, r, test);
    forall x, y | 0 <= x < |scores| && keep(scores[x]) && x !in r && y in r
      ensures scores[x] <= scores[y]
    {
      assert test(x);
    }
  }

  /** An index that passes the test but was not kept was cut away by the top-k cut,
      so it scores no higher than any kept index. */
  lemma SelectTopBest(scores: seq<real>, order: seq<nat>, top: seq<nat>, r: seq<nat>, test: nat -> bool)
    requires IsArgSort(scores, order) && InRange(scores, top) && InRange(scores, r)
    requires forall x, y :: x in order && x !in top && y in top ==> scores[x] <= scores[y]
    requires forall x :: x in top && test(x) ==> x in r
    requires forall i :: 0 <= i < |r| ==> r[i] in top
    ensures forall x, y :: 0 <= x < |scores| && test(x) && x !in r && y in r ==> scores[x] <= scores[y]
  {
    forall x, y | 0 <= x < |scores| && test(x) && x !in r && y in r
      ensures scores[x] <= scores[y]
    {
      assert x in order && x !in top;
      var j :| 0 <= j < |r| && r[j] == y;
    }
  }

  /** When the cut returns fewer than `k` indices under a score test that higher scores
      also pass, nothing was lost to the cut: every index passing the test is returned. */
  lemma SelectTopComplete(scores: seq<real>, order: seq<nat>, k: int, keep: real -> bool)
    requires IsArgSort(scores, order) && UpwardClosed(keep)
    requires k >= 1 && |SelectTop(scores, order, k, keep)| < k
    ensures forall x :: 0 <= x < |scores| && keep(scores[x]) ==> x in SelectTop(scores, order, k, keep)
  {
    var top := TopIndices(scores, order, k);
    var test := ScoreTest(scores, keep);
    forall x | 0 <= x < |scores| && keep(scores[x]) ensures x in SelectTop(scores, order, k, keep) {
      if x !in top {
        assert k < |order|;
        assert x in order;
        forall i | 0 <= i < |top| ensures test(top[i]) {
          assert scores[x] <= scores[top[i]];
        }
        KeepWhereAll(top, test);
        assert false;
      }
    }
  }

  /** A stricter score test never selects more indices. */
  lemma SelectTopMonotone(scores: seq<real>, order: seq<nat>, k: int, weak: real -> bool, strong: real -> bool)
    requires IsArgSort(scores, order)
    requires forall s :: strong(s) ==> weak(s)
    ensures |SelectTop(scores, order, k, strong)| <= |SelectTop(scores, order, k, weak)|
  {
    var top := TopIndices(scores, order, k);
    var w := ScoreTest(scores, weak);
    var st := ScoreTest(scores, strong);
    forall x: nat | st(x) ensures w(x) {
      var v := scores[x];
      assert strong(v);
    }
    KeepWhereMonotone(top, w, st);
  }
}

=== FILE: text.dfy ===
/**
 * ASCII models of the Python `str` operations the application relies on:
 * `strip`, `lower`, `upper`, `isupper`, `title`, `in`, `rfind`, `replace`,
 * `split` and decimal formatting. Unicode semantics are not modelled.
 */
module Text {

  /** Python's ASCII whitespace: tab, newline, vertical tab, form feed,
      carriage return, the four separator controls and the space. */
  predicate IsSpace(c: char) {
    (9 <= c as int <= 13) || (28 <= c as int <= 32)
  }

  predicate AllSpace(s: string) {
    forall i :: 0 <= i < |s| ==> IsSpace(s[i])
  }

  predicate IsUpperChar(c: char) { 'A' <= c <= 'Z' }

  predicate IsLowerChar(c: char) { 'a' <= c <= 'z' }

  /** A cased character in the ASCII model of Python's string methods. */
  predicate IsLetter(c: char) { IsUpperChar(c) || IsLowerChar(c) }

  predicate IsDigit(c: char) { '0' <= c <= '9' }

  function LowerChar(c: char): (r: char)
    ensures IsLetter(c) ==> IsLowerChar(r)
    ensures !IsUpperChar(c) ==> r == c
  {
    if IsUpperChar(c) then (c as int + 32) as char else c
  }

  function UpperChar(c: char): (r: char)
    ensures IsLetter(c) ==> IsUpperChar(r)
    ensures !IsLowerChar(c) ==> r == c
  {
    if IsLowerChar(c) then (c as int - 32) as char else c
  }

  /** `s.lower()` */
  function Lower(s: string): (r: string)
    ensures |r| == |s|
    ensures forall i :: 0 <= i < |s| ==> !IsUpperChar(r[i]) && (IsLetter(r[i]) <==> IsLetter(s[i]))
    ensures forall i :: 0 <= i < |s| && !IsUpperChar(s[i]) ==> r[i] == s[i]
    ensures forall i :: 0 <= i < |s| ==> UpperChar(r[i]) == UpperChar(s[i])
  {
    seq(|s|, i requires 0 <= i < |s| => LowerChar(s[i]))
  }

  /** `s.upper()` */
  function Upper(s: string): (r: string)
    ensures |r| == |s|
    ensures forall i :: 0 <= i < |s| ==> !IsLowerChar(r[i]) && (IsLetter(r[i]) <==> IsLetter(s[i]))
    ensures forall i :: 0 <= i < |s| && !IsLowerChar(s[i]) ==> r[i] == s[i]
    ensures forall i :: 0 <= i < |s| ==> LowerChar(r[i]) == LowerChar(s[i])
  {
    seq(|s|, i requires 0 <= i < |s| => UpperChar(s[i]))
  }

  /** `s.isupper()`: at least one cased character and no lower-case one. */
  predicate IsUpperStr(s: string) {
    (exists i | 0 <= i < |s| :: IsUpperChar(s[i])) && forall i | 0 <= i < |s| :: !IsLowerChar(s[i])
  }

  /** `sub` occurs in `s` starting at position `i`. */
  predicate OccursAt(s: string, sub: string, i: nat) {
    i + |sub| <= |s| && s[i..i + |sub|] == sub
  }

  /** `sub in s` for strings: `sub` occurs as a contiguous slice of `s`. */
  predicate Contains(s: string, sub: string) {
    exists i: nat | i <= |s| - |sub| :: OccursAt(s, sub, i)
  }

  /** `s[:n]` for a non-negative `n`. */
  function Take<T>(s: seq<T>, n: nat): (r: seq<T>)
    ensures r <= s
    ensures |r| == if |s| <= n then |s| else n
  {
    if |s| <= n then s else s[..n]
  }

  // ---------------------------------------------------------------------
  // strip

  /** Number of whitespace characters at the front of `s`. */
  function LeadingSpaces(s: string): (n: nat)
    ensures n <= |s|
    ensures forall j :: 0 <= j < n ==> IsSpace(s[j])
    ensures n < |s| ==> !IsSpace(s[n])
  {
    if |s| == 0 || !IsSpace(s[0]) then 0 else 1 + LeadingSpaces(s[1..])
  }

  /** Number of whitespace characters at the back of `s`. */
  function TrailingSpaces(s: string): (n: nat)
    ensures n <= |s|
    ensures forall j :: |s| - n <= j < |s| ==> IsSpace(s[j])
    ensures n < |s| ==> !IsSpace(s[|s| - n - 1])
  {
    if |s| == 0 || !IsSpace(s[|s| - 1]) then 0 else 1 + TrailingSpaces(s[..|s| - 1])
  }

  /** `s.strip()`: the slice of `s` left after removing whitespace at both ends. */
  function Strip(s: string): (r: string)
    ensures LeadingSpaces(s) + |r| <= |s|
    ensures r == s[LeadingSpaces(s)..LeadingSpaces(s) + |r|]
    ensures AllSpace(s[..LeadingSpaces(s)]) && AllSpace(s[LeadingSpaces(s) + |r|..])
    ensures |r| > 0 ==> !IsSpace(r[0]) && !IsSpace(r[|r| - 1])
  {
    var a := LeadingSpaces(s);
    if a == |s| then ""
    else
      var b := TrailingSpaces(s);
      assert b < |s| - a by { assert !IsSpace(s[a]); }
      s[a..|s| - b]
  }

  /** Any slice of `s` with only whitespace around it and non-whitespace ends
      is `Strip(s)`: the result of `strip` is uniquely determined. */
  lemma StripUnique(s: string, i: nat, r: string)
    requires i + |r| <= |s| && s[i..i + |r|] == r
    requires AllSpace(s[..i]) && AllSpace(s[i + |r|..])
    requires |r| > 0 ==> !IsSpace(r[0]) && !IsSpace(r[|r| - 1])
    ensures Strip(s) == r
  {
    var t := Strip(s);
    var a := LeadingSpaces(s);
    SpacesOutside(s, i, i + |r|);
    SpacesOutside(s, a, a + |t|);
    if |r| > 0 {
      assert s[i] == r[0] && s[i + |r| - 1] == r[|r| - 1];
      assert a == i;
      assert s[a + |t| - 1] == t[|t| - 1];
    } else {
      assert a == |s|;
    }
  }

  /** The positions around a slice with whitespace on both sides are whitespace. */
  lemma SpacesOutside(s: string, lo: nat, hi: nat)
    requires lo <= hi <= |s| && AllSpace(s[..lo]) && AllSpace(s[hi..])
    ensures forall k :: 0 <= k < lo ==> IsSpace(s[k])
    ensures forall k :: hi <= k < |s| ==> IsSpace(s[k])
  {
    forall k | 0 <= k < lo ensures IsSpace(s[k]) {
      assert s[k] == s[..lo][k];
    }
    forall k | hi <= k < |s| ensures IsSpace(s[k]) {
      assert s[k] == s[hi..][k - hi];
    }
  }

  /** Padding a string with whitespace does not change what `strip` returns. */
  lemma StripPadding(p: string, s: string, q: string)
    requires AllSpace(p) && AllSpace(q)
    ensures Strip(p + s + q) == Strip(s)
  {
    var r := Strip(s);
    var a := LeadingSpaces(s);
    var t := p + s + q;
    var i := |p| + a;
    PaddedSlices(p, s, q, a, a + |r|);
    AllSpaceConcat(p, s[..a]);
    AllSpaceConcat(s[a + |r|..], q);
    StripUnique(t, i, r);
  }

  /** How slices of a padded string line up with slices of the unpadded one. */
  lemma PaddedSlices(p: string, s: string, q: string, a: nat, b: nat)
    requires a <= b <= |s|
    ensures (p + s + q)[..|p| + a] == p + s[..a]
    ensures (p + s + q)[|p| + b..] == s[b..] + q
    ensures (p + s + q)[|p| + a..|p| + b] == s[a..b]
  {
    var t := p + s + q;
    assert t == p + (s[..a] + s[a..b] + s[b..]) + q by {
      assert s == s[..a] + s[a..b] + s[b..];
    }
  }

  lemma AllSpaceConcat(x: string, y: string)
    requires AllSpace(x) && AllSpace(y)
    ensures AllSpace(x + y)
  {
    forall k | 0 <= k < |x + y| ensures IsSpace((x + y)[k]) {
      if k >= |x| {
        assert (x + y)[k] == y[k - |x|];
      }
    }
  }

  /** `strip` is idempotent. */
  lemma StripIdempotent(s: string)
    ensures Strip(Strip(s)) == Strip(s)
  {
    var r := Strip(s);
    assert r[0..|r|] == r;
    StripUnique(r, 0, r);
  }

  // ---------------------------------------------------------------------
  // search and replace

  /** `s.rfind(c)` for a one-character needle. */
  function RFind(s: string, c: char): (r: int)
    ensures -1 <= r < |s|
    ensures r == -1 <==> c !in s
    ensures r >= 0 ==> s[r] == c && forall j :: r < j < |s| ==> s[j] != c
  {
    if |s| == 0 then -1
    else if s[|s| - 1] == c then |s| - 1
    else
      var r := RFind(s[..|s| - 1], c);
      assert forall j :: 0 <= j < |s| - 1 ==> s[j] == s[..|s| - 1][j];
      r
  }

  /** A `c` with no `c` after it is the one `rfind` reports. */
  lemma RFindAt(s: string, c: char, i: nat)
    requires i < |s| && s[i] == c
    requires forall j :: i < j < |s| ==> s[j] != c
    ensures RFind(s, c) == i
  {
    assert c in s;
  }

  /** `s.find(c)` for a one-character needle. */
  function Find(s: string, c: char): (r: int)
    ensures -1 <= r < |s|
    ensures r == -1 <==> c !in s
    ensures r >= 0 ==> s[r] == c && c !in s[..r]
  {
    if |s| == 0 then -1
    else if s[0] == c then 0
    else
      var r := Find(s[1..], c);
      if r == -1 then -1
      else
        assert s[..r + 1] == [s[0]] + s[1..][..r];
        r + 1
  }

  /** `s.replace(a, b)` for one-character arguments. */
  function ReplaceChar(s: string, a: char, b: char): (r: string)
    ensures |r| == |s|
    ensures a != b ==> a !in r
    ensures forall i :: 0 <= i < |s| && s[i] != a ==> r[i] == s[i]
  {
    seq(|s|, i requires 0 <= i < |s| => if s[i] == a then b else s[i])
  }

  /** `s.replace(pat, rep)`: leftmost, non-overlapping occurrences. */
  function ReplaceAll(s: string, pat: string, rep: string): (r: string)
    requires |pat| > 0
    ensures !Contains(s, pat) ==> r == s
    ensures |rep| <= |pat| ==> |r| <= |s|
    decreases |s|
  {
    if |s| == 0 then ""
    else if |pat| <= |s| && s[..|pat|] == pat then
      assert OccursAt(s, pat, 0);
      rep + ReplaceAll(s[|pat|..], pat, rep)
    else
      var rest := ReplaceAll(s[1..], pat, rep);
      assert !Contains(s, pat) ==> !Contains(s[1..], pat) by {
        if Contains(s[1..], pat) {
          var i: nat :| i <= |s[1..]| - |pat| && OccursAt(s[1..], pat, i);
          assert s[i + 1..i + 1 + |pat|] == s[1..][i..i + |pat|];
          assert OccursAt(s, pat, i + 1);
        }
      }
      [s[0]] + rest
  }

  // ---------------------------------------------------------------------
  // title

  /** The character `s.title()` puts at position `i`: a letter is upper-cased
      when it starts a run of letters and lower-cased otherwise. */
  function TitleCharAt(s: string, i: nat): char
    requires i < |s|
  {
    if !IsLetter(s[i]) then s[i]
    else if i > 0 && IsLetter(s[i - 1]) then LowerChar(s[i])
    else UpperChar(s[i])
  }

  /** `s.title()` */
  function Title(s: string): (r: string)
    ensures |r| == |s|
    ensures forall i :: 0 <= i < |s| ==> (IsLetter(r[i]) <==> IsLetter(s[i]))
    ensures forall i :: 0 <= i < |s| && IsLetter(s[i]) && (i == 0 || !IsLetter(s[i - 1])) ==> IsUpperChar(r[i])
    ensures forall i :: 0 < i < |s| && IsLetter(s[i]) && IsLetter(s[i - 1]) ==> IsLowerChar(r[i])
    ensures forall i :: 0 <= i < |s| && !IsLetter(s[i]) ==> r[i] == s[i]
    ensures forall i :: 0 <= i < |s| ==> LowerChar(r[i]) == LowerChar(s[i])
  {
    seq(|s|, i requires 0 <= i < |s| => TitleCharAt(s, i))
  }

  /** `title` is idempotent: it only changes the case of letters, so the word
      boundaries it works from stay where they were. */
  lemma TitleIdempotent(s: string)
    ensures Title(Title(s)) == Title(s)
  {
    var t := Title(s);
    var tt := Title(t);
    forall i | 0 <= i < |s| ensures tt[i] == t[i] {
      if IsLetter(s[i]) {
        if i > 0 && IsLetter(s[i - 1]) {
          assert IsLowerChar(t[i]) && IsLowerChar(tt[i]);
          assert t[i] == LowerChar(s[i]) && tt[i] == LowerChar(t[i]);
        } else {
          assert tt[i] == UpperChar(t[i]);
        }
      }
    }
  }

  // ---------------------------------------------------------------------
  // split and join

  /** `sep.join(parts)` */
  function Join(parts: seq<string>, sep: string): string {
    if |parts| == 0 then ""
    else if |parts| == 1 then parts[0]
    else parts[0] + sep + Join(parts[1..], sep)
  }

  /** `s.split(sep)` for a one-character separator: never empty, no piece
      contains the separator, and joining the pieces gives back `s`. */
  function Split(s: string, sep: char): (parts: seq<string>)
    ensures |parts| >= 1
    ensures forall i :: 0 <= i < |parts| ==> sep !in parts[i]
    ensures Join(parts, [sep]) == s
    decreases |s|
  {
    var i := Find(s, sep);
    if i < 0 then [s]
    else
      var rest := Split(s[i + 1..], sep);
      assert s == s[..i] + [sep] + s[i + 1..];
      [s[..i]] + rest
  }

  /** Length of the run of non-whitespace characters at the front of `s`. */
  function WordLength(s: string): (n: nat)
    ensures n <= |s|
    ensures |s| > 0 && !IsSpace(s[0]) ==> n >= 1
  {
    if |s| == 0 || IsSpace(s[0]) then 0 else 1 + WordLength(s[1..])
  }

  /** `len(s.split())`: the number of maximal runs of non-whitespace characters. */
  function WordCount(s: string): (n: nat)
    ensures n <= |s|
    ensures n == 0 <==> AllSpace(s)
    decreases |s|
  {
    var a := LeadingSpaces(s);
    if a == |s| then 0
    else
      var w := WordLength(s[a..]);
      assert !AllSpace(s) by { assert !IsSpace(s[a]); }
      1 + WordCount(s[a + w..])
  }

  // ---------------------------------------------------------------------
  // decimal formatting

  function DigitChar(d: nat): (c: char)
    requires d < 10
    ensures IsDigit(c)
  {
    ('0' as int + d) as char
  }

  /** `str(n)` for a natural number. */
  function NatToString(n: nat): (r: string)
    ensures |r| >= 1
    ensures forall i :: 0 <= i < |r| ==> IsDigit(r[i])
    ensures n < 10 <==> |r| == 1
  {
    if n < 10 then [DigitChar(n)] else NatToString(n / 10) + [DigitChar(n % 10)]
  }

  /** Different numbers print differently. */
  lemma {:induction false} NatToStringInjective(a: nat, b: nat)
    requires NatToString(a) == NatToString(b)
    ensures a == b
  {
    var sa, sb := NatToString(a), NatToString(b);
    assert sa[|sa| - 1] == sb[|sb| - 1];
    if a >= 10 && b >= 10 {
      assert NatToString(a / 10) == sa[..|sa| - 1] == sb[..|sb| - 1] == NatToString(b / 10);
      NatToStringInjective(a / 10, b / 10);
    }
  }

  /** `str(i)` for an integer. */
  function IntToString(i: int): (r: string)
    ensures |r| >= 1
  {
    if i < 0 then "-" + NatToString(-i) else NatToString(i)
  }
}

=== FILE: vector_store.dfy ===
/**
 * The vector store: a matrix of embedding rows with a parallel metadata list,
 * growing one row at a time, searched by given similarity scores with an
 * inclusive threshold, and saved to or loaded from named files. The files are
 * modelled as two maps keyed by the store name, one per file kind.
 */
module VectorStore {
  import opened Wrappers
  import opened Ranking

  type Vector = seq<real>

  /** An embeddings array: `dim` is `shape[1]`, every row has that length. */
  datatype Matrix = Matrix(dim: nat, rows: seq<Vector>)

  predicate Shaped(m: Matrix) {
    forall i :: 0 <= i < |m.rows| ==> |m.rows[i]| == m.dim
  }

  /** The values a metadata dictionary holds. */
  datatype Value = Text(s: string) | Number(x: real)

  type Meta = map<string, Value>

  /** `self.embeddings` (None until something is added or loaded) and `self.metadata`. */
  datatype Store = Store(embeddings: Option<Matrix>, metadata: seq<Meta>)

  const EmptyStore := Store(None, [])

  /** One metadata entry per embedding row. */
  predicate Aligned(s: Store) {
    if s.embeddings.None? then s.metadata == [] else |s.embeddings.value.rows| == |s.metadata|
  }

  // ---------------------------------------------------------------------
  // adding and counting

  datatype StoreError = DimensionMismatch

  /** `add_embedding`: the first embedding becomes a one-row matrix with its metadata
      as the whole list; later ones are stacked under the existing rows, which
      `np.vstack` refuses when the lengths differ. */
  function AddEmbedding(s: Store, e: Vector, meta: Meta): (r: Result<Store, StoreError>)
    ensures s.embeddings.None? ==> r == Ok(Store(Some(Matrix(|e|, [e])), [meta]))
    ensures s.embeddings.Some? ==> (r.Ok? <==> |e| == s.embeddings.value.dim)
    ensures s.embeddings.Some? && r.Ok? ==>
              && r.value.embeddings.Some?
              && r.value.embeddings.value.dim == s.embeddings.value.dim
              && r.value.embeddings.value.rows == s.embeddings.value.rows + [e]
              && r.value.metadata == s.metadata + [meta]
  {
    match s.embeddings
    case None => Ok(Store(Some(Matrix(|e|, [e])), [meta]))
    case Some(m) =>
      if |e| != m.dim then Err(DimensionMismatch)
      else Ok(Store(Some(Matrix(m.dim, m.rows + [e])), s.metadata + [meta]))
  }

  /** Adding keeps the rows shaped and the metadata parallel to them. */
  lemma AddEmbeddingKeepsInvariants(s: Store, e: Vector, meta: Meta)
    requires Aligned(s) && (s.embeddings.Some? ==> Shaped(s.embeddings.value))
    requires AddEmbedding(s, e, meta).Ok?
    ensures Aligned(AddEmbedding(s, e, meta).value)
    ensures Shaped(AddEmbedding(s, e, meta).value.embeddings.value)
  {
    var r := AddEmbedding(s, e, meta).value;
    if s.embeddings.Some? {
      var old_rows := s.embeddings.value.rows;
      assert forall i :: 0 <= i < |old_rows| ==> r.embeddings.value.rows[i] == old_rows[i];
    }
  }

  /** `get_stats`; `metadataCount` is absent for an empty store. */
  datatype Stats = Stats(totalEmbeddings: nat, embeddingDim: nat, metadataCount: Option<nat>)

  function GetStats(s: Store): (r: Stats)
    ensures s.embeddings.None? ==> r == Stats(0, 0, None)
    ensures s.embeddings.Some? ==>
              && r.totalEmbeddings == |s.embeddings.value.rows|
              && r.embeddingDim == s.embeddings.value.dim
              && r.metadataCount == Some(|s.metadata|)
  {
    match s.embeddings
    case None => Stats(0, 0, None)
    case Some(m) => Stats(|m.rows|, m.dim, Some(|s.metadata|))
  }

  /** Every successful add counts one more embedding and one more metadata entry. */
  lemma AddEmbeddingCounts(s: Store, e: Vector, meta: Meta)
    requires Aligned(s) && AddEmbedding(s, e, meta).Ok?
    ensures GetStats(AddEmbedding(s, e, meta).value).totalEmbeddings == GetStats(s).totalEmbeddings + 1
    ensures GetStats(AddEmbedding(s, e, meta).value).metadataCount == Some(|s.metadata| + 1)
  {
  }

  /** Adding the pairs of `es` one by one, stopping at the first refusal. */
  function AddAll(s: Store, es: seq<(Vector, Meta)>): (r: Result<Store, StoreError>)
    decreases |es|
  {
    if |es| == 0 then Ok(s)
    else
      match AddEmbedding(s, es[0].0, es[0].1)
      case Err(e) => Err(e)
      case Ok(s') => AddAll(s', es[1..])
  }

  /** Embeddings of the store's row length all go in: the store holds
      them in order, with their metadata alongside. */
  lemma {:induction false} AddAllSameLength(s: Store, es: seq<(Vector, Meta)>, d: nat)
    requires s.embeddings.Some? && s.embeddings.value.dim == d
    requires forall i :: 0 <= i < |es| ==> |es[i].0| == d
    ensures AddAll(s, es).Ok?
    ensures AddAll(s, es).value.embeddings == Some(Matrix(d, s.embeddings.value.rows + seq(|es|, i requires 0 <= i < |es| => es[i].0)))
    ensures AddAll(s, es).value.metadata == s.metadata + seq(|es|, i requires 0 <= i < |es| => es[i].1)
    decreases |es|
  {
    if |es| > 0 {
      var s' := AddEmbedding(s, es[0].0, es[0].1).value;
      AddAllSameLength(s', es[1..], d);
      var rest := es[1..];
      var vs := seq(|es|, i requires 0 <= i < |es| => es[i].0);
      var ms := seq(|es|, i requires 0 <= i < |es| => es[i].1);
      var restVs := seq(|rest|, i requires 0 <= i < |rest| => rest[i].0);
      var restMs := seq(|rest|, i requires 0 <= i < |rest| => rest[i].1);
      assert vs == [es[0].0] + restVs;
      assert ms == [es[0].1] + restMs;
      assert AddAll(s, es) == AddAll(s', rest);
      assert s'.embeddings.value.rows + restVs == s.embeddings.value.rows + vs;
      assert s'.metadata + restMs == s.metadata + ms;
    } else {
      assert s.embeddings.value.rows + seq(|es|, i requires 0 <= i < |es| => es[i].0) == s.embeddings.value.rows;
      assert s.metadata + seq(|es|, i requires 0 <= i < |es| => es[i].1) == s.metadata;
    }
  }

  // ---------------------------------------------------------------------
  // search

  /** The similarity recorded in a search result. */
  function SimilarityOf(m: Meta): real {
    if "similarity" in m && m["similarity"].Number? then m["similarity"].x else 0.0
  }

  /** The result for row `j`: a copy of its metadata, or an empty dictionary when the
      metadata list is shorter than the rows, with the similarity added. */
  function ResultFor(s: Store, j: nat, score: real): (r: Meta)
    ensures "similarity" in r && r["similarity"] == Number(score) && SimilarityOf(r) == score
    ensures j < |s.metadata| ==> forall k :: k in s.metadata[j] && k != "similarity" ==> k in r && r[k] == s.metadata[j][k]
    ensures j >= |s.metadata| ==> r.Keys == {"similarity"}
  {
    var base := if j < |s.metadata| then s.metadata[j] else map[];
    base["similarity" := Number(score)]
  }

  /** What `search_similar` needs: one score per row and a valid argsort of them. */
  predicate Searchable(s: Store, scores: seq<real>, order: seq<nat>) {
    s.embeddings.Some? ==> |scores| == |s.embeddings.value.rows| && IsArgSort(scores, order)
  }

  function AtLeast(threshold: real): real -> bool {
    (x: real) => x >= threshold
  }

  /** `search_similar`: nothing without embeddings; otherwise at most `top_k` results,
      best first, each at or above the threshold and built from its own row. */
  function SearchSimilar(s: Store, scores: seq<real>, order: seq<nat>, topK: int, threshold: real): (r: seq<Meta>)
    requires Searchable(s, scores, order)
    ensures s.embeddings.None? ==> r == []
    ensures topK >= 1 ==> |r| <= topK
    ensures forall i :: 0 <= i < |r| ==> SimilarityOf(r[i]) >= threshold
    ensures forall i, j :: 0 <= i < j < |r| ==> SimilarityOf(r[i]) >= SimilarityOf(r[j])
    ensures forall i :: 0 <= i < |r| ==> exists j: nat :: j < |scores| && r[i] == ResultFor(s, j, scores[j])
    ensures forall j, i ::
              (0 <= j < |scores| && scores[j] >= threshold && ResultFor(s, j, scores[j]) !in r && 0 <= i < |r|)
              ==> scores[j] <= SimilarityOf(r[i])
    ensures exists idxs :: Distinct(idxs) && BuiltFrom(s, scores, idxs, r)
  {
    if s.embeddings.None? then
      assert BuiltFrom(s, scores, [], []);
      []
    else
      var idxs := SelectTop(scores, order, topK, AtLeast(threshold));
      var r := ResultsOf(s, scores, idxs);
      SelectedResults(s, scores, threshold, idxs, r);
      LeftOutScoresLower(s, scores, threshold, idxs, r);
      r
  }

  /** The result of each selected row, with its own score. */
  function ResultsOf(s: Store, scores: seq<real>, idxs: seq<nat>): (r: seq<Meta>)
    requires InRange(scores, idxs)
    ensures BuiltFrom(s, scores, idxs, r)
  {
    seq(|idxs|, i requires 0 <= i < |idxs| => ResultFor(s, idxs[i], scores[idxs[i]]))
  }

  /** `r` holds, in order, the result of each row of `idxs` with its own score. */
  predicate BuiltFrom(s: Store, scores: seq<real>, idxs: seq<nat>, r: seq<Meta>) {
    && |idxs| == |r|
    && forall i :: 0 <= i < |r| ==> idxs[i] < |scores| && r[i] == ResultFor(s, idxs[i], scores[idxs[i]])
  }

  /** Results built from selected rows carry their rows' scores, at or above the
      threshold, best first. */
  lemma SelectedResults(s: Store, scores: seq<real>, threshold: real, idxs: seq<nat>, r: seq<Meta>)
    requires InRange(scores, idxs) && Descending(scores, idxs) && |r| == |idxs|
    requires forall i :: 0 <= i < |idxs| ==> AtLeast(threshold)(scores[idxs[i]])
    requires forall i :: 0 <= i < |r| ==> r[i] == ResultFor(s, idxs[i], scores[idxs[i]])
    ensures forall i :: 0 <= i < |r| ==> SimilarityOf(r[i]) >= threshold
    ensures forall i, j :: 0 <= i < j < |r| ==> SimilarityOf(r[i]) >= SimilarityOf(r[j])
  {
    forall i | 0 <= i < |r| ensures SimilarityOf(r[i]) == scores[idxs[i]] >= threshold {
      assert AtLeast(threshold)(scores[idxs[i]]);
    }
  }

  /** A row at or above the threshold whose result is missing was not selected, so
      it scores no higher than any returned result. */
  lemma LeftOutScoresLower(s: Store, scores: seq<real>, threshold: real, idxs: seq<nat>, r: seq<Meta>)
    requires InRange(scores, idxs) && |r| == |idxs|
    requires forall i :: 0 <= i < |r| ==> r[i] == ResultFor(s, idxs[i], scores[idxs[i]])
    requires forall x, y :: 0 <= x < |scores| && AtLeast(threshold)(scores[x]) && x !in idxs && y in idxs ==> scores[x] <= scores[y]
    ensures forall j, i ::
              (0 <= j < |scores| && scores[j] >= threshold && ResultFor(s, j, scores[j]) !in r && 0 <= i < |r|)
              ==> scores[j] <= SimilarityOf(r[i])
  {
    forall j, i | 0 <= j < |scores| && scores[j] >= threshold && ResultFor(s, j, scores[j]) !in r && 0 <= i < |r|
      ensures scores[j] <= SimilarityOf(r[i])
    {
      assert AtLeast(threshold)(scores[j]);
      assert j !in idxs;
      assert idxs[i] in idxs;
    }
  }

  /** Raising the threshold never yields more results. */
  lemma SearchThresholdMonotone(s: Store, scores: seq<real>, order: seq<nat>, topK: int, low: real, high: real)
    requires Searchable(s, scores, order) && low <= high
    ensures |SearchSimilar(s, scores, order, topK, high)| <= |SearchSimilar(s, scores, order, topK, low)|
  {
    if s.embeddings.Some? {
      SelectTopMonotone(scores, order, topK, AtLeast(low), AtLeast(high));
    }
  }

  /** The threshold is inclusive: when fewer than `top_k` results come back, or when
      `top_k` is 0 (`[-0:]` keeps every index), every row scoring exactly the
      threshold or more is among them. */
  lemma SearchComplete(s: Store, scores: seq<real>, order: seq<nat>, topK: int, threshold: real)
    requires s.embeddings.Some? && Searchable(s, scores, order)
    requires topK == 0 || (topK >= 1 && |SearchSimilar(s, scores, order, topK, threshold)| < topK)
    ensures forall j :: 0 <= j < |scores| && scores[j] >= threshold ==>
              ResultFor(s, j, scores[j]) in SearchSimilar(s, scores, order, topK, threshold)
  {
    var idxs := SelectTop(scores, order, topK, AtLeast(threshold));
    var r := SearchSimilar(s, scores, order, topK, threshold);
    assert r == ResultsOf(s, scores, idxs);
    if topK >= 1 {
      SelectTopComplete(scores, order, topK, AtLeast(threshold));
    }
    forall j | 0 <= j < |scores| && scores[j] >= threshold ensures ResultFor(s, j, scores[j]) in r {
      assert AtLeast(threshold)(scores[j]);
      var p :| 0 <= p < |idxs| && idxs[p] == j;
      assert r[p] == ResultFor(s, j, scores[j]);
    }
  }

  // ---------------------------------------------------------------------
  // files

  /** The `.npy` files and the `_metadata.pkl` files of the store directory, by name. */
  datatype Disk = Disk(arrays: map<string, Matrix>, metas: map<string, seq<Meta>>)

  /** `save_embeddings`: writes both files of `name`; the store itself is untouched. */
  function SaveEmbeddings(d: Disk, e: Matrix, m: seq<Meta>, name: string): (r: Disk)
    ensures name in r.arrays && name in r.metas && r.arrays[name] == e && r.metas[name] == m
    ensures forall n :: n != name ==> (n in r.arrays <==> n in d.arrays) && (n in r.metas <==> n in d.metas)
    ensures forall n :: n != name && n in d.arrays ==> r.arrays[n] == d.arrays[n]
    ensures forall n :: n != name && n in d.metas ==> r.metas[n] == d.metas[n]
  {
    Disk(d.arrays[name := e], d.metas[name := m])
  }

  /** `load_embeddings`: the returned pair and the store afterwards. */
  datatype Loaded = Loaded(store: Store, embeddings: Option<Matrix>, metadata: seq<Meta>)

  function LoadEmbeddings(d: Disk, s: Store, name: string): (r: Loaded)
    ensures name !in d.arrays ==> r == Loaded(s, None, [])
    ensures name in d.arrays ==> r.embeddings == Some(d.arrays[name]) && r.store == Store(r.embeddings, r.metadata)
    ensures name in d.arrays && name !in d.metas ==> r.metadata == []
    ensures name in d.arrays && name in d.metas ==> r.metadata == d.metas[name]
  {
    if name !in d.arrays then Loaded(s, None, [])
    else
      var meta := if name in d.metas then d.metas[name] else [];
      Loaded(Store(Some(d.arrays[name]), meta), Some(d.arrays[name]), meta)
  }

  /** Saving and then loading the same name gives back what was saved, whatever the
      store held before. */
  lemma SaveLoadRoundTrip(d: Disk, s: Store, e: Matrix, m: seq<Meta>, name: string)
    ensures LoadEmbeddings(SaveEmbeddings(d, e, m, name), s, name) == Loaded(Store(Some(e), m), Some(e), m)
  {
  }

  /** Saving under one name does not change what loading another name gives. */
  lemma SaveFrame(d: Disk, s: Store, e: Matrix, m: seq<Meta>, name: string, other: string)
    requires other != name
    ensures LoadEmbeddings(SaveEmbeddings(d, e, m, name), s, other) == LoadEmbeddings(d, s, other)
  {
  }
}

=== FILE: wrappers.dfy ===
/** Failure-carrying results shared by every module of the model. */
module Wrappers {

  /** A Python value that may be `None`. */
  datatype Option<+T> = None | Some(value: T) {

    /** The wrapped value, or `default` for `None`. */
    function GetOr(default: T): T {
      match this
      case Some(v) => v
      case None => default
    }
  }

  /** The outcome of an operation that either returns a value or raises / returns an error. */
  datatype Result<+T, +E> = Ok(value: T) | Err(error: E)
}
